=== FILE: README.md ===
# LODChecker, modelled in Dafny

LODChecker turns pictures of building elements into a semantic image graph.
A Python pipeline captions, segments and categorises each picture. It also
estimates the picture's level of detail (LOD) and writes it into a registry.
A Flask server (`run_viz.py`) serves the graph, searches it and deletes
pictures from it. A React frontend draws the graph, filters it, lays it out
by similarity, category, LOD or provider, and uploads new pictures to the
pipeline.

This project models the logic at the heart of both halves as pure Dafny
functions, with the properties the code relies on proved about them.

On the frontend side the model covers:

- the node-list operations (deduplication, deletion with neighbor remapping);
- neighbor sanitising and link building;
- the LOD label, the category colour hash and the API constants;
- the graph view:
  - active indices;
  - position carry-over across node-list changes;
  - the layout cache key;
  - the grouped layout;
  - the stabilisation notifications;
  - hit testing;
  - wheel zoom;
- the graph page filter and its guarded layout switch;
- the detail panel, related nodes and metadata cards;
- the search sidebar;
- the results dashboards;
- the upload hook and the upload dialog.

On the backend side it covers:

- the graph rebuild after a deletion, and the in-memory index;
- the batch LOD average and the query-expansion cache;
- the output names and image records of the pipeline;
- the registry merge and deduplication;
- schema validation;
- the configuration loader and its environment overrides;
- the Hugging Face switches.

Values are modelled as follows:

- JSON values are the datatype `Json.Json`, with numbers as integers.
- Python dicts are `map<string, Json>`.
- JavaScript `Map`s and Python dicts built by repeated assignment keep their
  insertion order, modelled by the `InsertionOrder` module.
- Strings are sequences of characters. Case mapping and character classes
  are ASCII.
- Everything the code receives from outside is a parameter: the
  environment, the file system, pydantic's verdict, the network answers,
  the clock and md5.

## Model

| member | source | states |
|---|---|---|
| ApiConstants.StripTrailingSlashes | 02_frontend/src/lib/constants.ts:1 | the result is a prefix without a trailing '/', and everything it drops is '/' |
| ApiConstants.StripTrailingSlashesUnique | 02_frontend/src/lib/constants.ts:1 | that prefix is the only one with both properties, so the regex replacement is fully determined |
| ApiConstants.ApiBase | 02_frontend/src/lib/constants.ts:1 | the base never ends in '/', and is empty when the variable is unset |
| ApiConstants.WithApiBase | 02_frontend/src/lib/constants.ts:3-6 | an empty base leaves the path alone; otherwise the base is prefixed; the path is always the suffix |
| ApiConstants.EndpointPathsRooted | 02_frontend/src/lib/constants.ts:9-13 | every endpoint path starts with exactly one '/' |
| ApiConstants.EndpointJunction | 02_frontend/src/lib/constants.ts:1-13 | every endpoint is the base, exactly one '/', then the rest of its path, so no '//' appears at the junction |
| Helpers.GetLodLabel | 02_frontend/src/lib/helpers.ts:6-16 | empty exactly for a missing or empty input; otherwise one of the numeric labels or the input unchanged |
| Helpers.LodLabelUnchanged | 02_frontend/src/lib/helpers.ts:9-15 | a non-label input comes back unchanged exactly when none of the six tests fires on its lower-case form |
| Helpers.LabelMatchesNoRule | 02_frontend/src/lib/helpers.ts:9-14 | no numeric label triggers any of the tests |
| Helpers.GetLodLabelIdempotent | 02_frontend/src/lib/helpers.ts:6-16 | labelling a label changes nothing |
| Helpers.GetNodeImageUrl | 02_frontend/src/lib/helpers.ts:19-22 | the URL is '/img/' followed by a slash-free name |
| Helpers.ImageUrlFileName | 02_frontend/src/lib/helpers.ts:20-21 | that name is the last '/'-segment of `img`, or of `name_of_file` when `img` is empty |
| Colors.ToInt32 | 02_frontend/src/lib/colors.ts:24 | the result lies in the signed 32-bit range and equals the input modulo 2^32 |
| Colors.ToInt32Identity | 02_frontend/src/lib/colors.ts:24 | ToInt32 is the identity on the signed 32-bit range |
| Colors.ShiftLeft5 | 02_frontend/src/lib/colors.ts:24 | `h << 5` is 32 times ToInt32(h), reduced into the signed 32-bit range |
| Colors.HashBound | 02_frontend/src/lib/colors.ts:22-25 | the hash grows by less than 2^31 plus the largest character code per character |
| Colors.HashLoop | 02_frontend/src/lib/colors.ts:22-25 | the loop computes the character-by-character hash |
| Colors.ColorOf | 02_frontend/src/lib/colors.ts:18-31 | a missing or empty category gets the fallback; any other gets the palette entry at the absolute hash modulo the palette size |
| Colors.GetCategoryColor | 02_frontend/src/lib/colors.ts:18-31 | the cached lookup answers with the stored colour or computes and stores it |
| Colors.CachedColorIsPure | 02_frontend/src/lib/colors.ts:15-30 | from a sound cache the answer equals the freshly computed colour, and the cache stays sound |
| Colors.ColorStable | 02_frontend/src/lib/colors.ts:21-30 | asking twice gives the same colour and the second ask leaves the cache alone |
| GraphNodeOps.DedupeNodesOrder | 02_frontend/src/lib/graphNodeOps.ts:3-5 | deduplication keeps one node per distinct id, never more nodes than given, in the order of each id's first occurrence (a `Map` keeps the first insertion position) |
| GraphNodeOps.DedupeNodesLastWins | 02_frontend/src/lib/graphNodeOps.ts:3-5 | every input id survives, and the node kept for it is the last one carrying it (a later `set` overwrites the value) |
| GraphNodeOps.DedupeValues | 02_frontend/src/lib/graphNodeOps.ts:4 | the result is the values of the filled map, position by position |
| GraphNodeOps.WithoutId | 02_frontend/src/lib/graphNodeOps.ts:8 | the filter keeps exactly the nodes whose id differs |
| GraphNodeOps.WithoutIdAppend | 02_frontend/src/lib/graphNodeOps.ts:8 | the filter distributes over concatenation, so it keeps relative order |
| GraphNodeOps.Target | 02_frontend/src/lib/graphNodeOps.ts:16-20 | a raw entry maps to a position of the filtered list whose node is not the node itself, or to nothing |
| GraphNodeOps.Rebuild | 02_frontend/src/lib/graphNodeOps.ts:14-23 | the rebuilt list has no duplicates, only valid positions other than the node's own, and exactly the targets of the raw entries |
| GraphNodeOps.RemoveNode | 02_frontend/src/lib/graphNodeOps.ts:7-26 | one node per node that survives the filter, none carrying the deleted id, every field but `neighbors` unchanged, and `neighbors` always an array |
| GraphNodeOps.RemoveNodeClean | 02_frontend/src/lib/graphNodeOps.ts:12-25 | every new neighbor entry is an integer position of the new list, never the node itself by id, never repeated |
| GraphNodeOps.RebuildMembers | 02_frontend/src/lib/graphNodeOps.ts:9-22 | a position is in the rebuilt list exactly when it is the last position of its id, is not the node itself, and some raw entry pointed at that id |
| GraphNodeOps.RemoveNodeKeepsTargets | 02_frontend/src/lib/graphNodeOps.ts:7-26 | identity survives the deletion: node k's new list holds x exactly when old entries of node k named node x's id |
| GraphNodeOps.RemoveAbsentKeepsNodes | 02_frontend/src/lib/graphNodeOps.ts:7-26 | deleting an id no node carries keeps every node apart from its neighbor list |
| GraphNodeOps.RemoveAbsentNotIdentity | 02_frontend/src/lib/graphNodeOps.ts:13-16 | such a deletion still sanitises the neighbor lists: a non-integer entry disappears |
| GraphUtils.ValidIndices | 02_frontend/src/components/graph/graphUtils.ts:4-6 | the valid entries are exactly the integer entries inside [0, total) |
| GraphUtils.ValidIndicesAppend | 02_frontend/src/components/graph/graphUtils.ts:11-15 | the filter distributes over concatenation, so entries keep their order |
| GraphUtils.PrefixLength | 02_frontend/src/components/graph/graphUtils.ts:11 | the loop bound is at most the length and, for a non-negative limit, at most the limit |
| GraphUtils.SafeNeighbors | 02_frontend/src/components/graph/graphUtils.ts:8-17 | at most `limit` entries, all in range, and exactly the valid entries among the first `limit` raw ones |
| GraphUtils.SafeNeighborsLoop | 02_frontend/src/components/graph/graphUtils.ts:8-17 | the loop computes that list |
| GraphUtils.NoArrayNoNeighbors | 02_frontend/src/components/graph/graphUtils.ts:9 | a node whose neighbors are not an array has none |
| GraphUtils.SafeNeighborsIgnoresTail | 02_frontend/src/components/graph/graphUtils.ts:11 | entries past the limit never matter |
| GraphUtils.ValidIndicesFull | 02_frontend/src/components/graph/graphUtils.ts:11-15 | nothing is dropped exactly when every inspected entry is valid |
| GraphUtils.BuildActiveLinks | 02_frontend/src/components/graph/graphUtils.ts:19-31 | no links outside the similarity layout; in it, the links from every active source |
| GraphUtils.LinksFrom | 02_frontend/src/components/graph/graphUtils.ts:23-29 | every link joins an active source to an active safe neighbor of it |
| GraphUtils.TargetsOf | 02_frontend/src/components/graph/graphUtils.ts:26-28 | the links of one source are exactly its targets that are active |
| GraphUtils.LinksComplete | 02_frontend/src/components/graph/graphUtils.ts:19-31 | a pair is a link exactly when its source is a listed source and its target is an active safe neighbor of the source |
| GraphUtils.LinksFromAppend | 02_frontend/src/components/graph/graphUtils.ts:23-29 | links are grouped by source, in source order |
| GraphUtils.GroupingKey | 02_frontend/src/components/graph/graphUtils.ts:33-37 | the category (or ''), the LOD label, or the provider (or 'Unknown', never empty) |
| GraphUtils.LodKeyStable | 02_frontend/src/components/graph/graphUtils.ts:35 | the LOD key is already a label: relabelling it changes nothing |
| GraphModel.FindById | 02_frontend/src/pages/GraphPage.tsx:54 | `nodes.find` by id answers the first node with that id, and nothing exactly when no node has it |
| GraphModel.LastIndexById | 02_frontend/src/components/graph/SemanticGraph.tsx:90-94 | the index an id → index map filled in node order answers: the last node with that id, nothing exactly when none has it |
| GraphView.ActiveIndices | 02_frontend/src/components/graph/SemanticGraph.tsx:78-80 | a filter, even an empty one, is used as given; without one every node index in order |
| GraphView.ActiveWithoutFilter | 02_frontend/src/components/graph/SemanticGraph.tsx:79 | without a filter an index is active exactly when it is a node position |
| GraphView.IndexMap | 02_frontend/src/components/graph/SemanticGraph.tsx:90-94 | each id maps to a position carrying that id, and every node's id is a key |
| GraphView.IndexMapIsLastIndex | 02_frontend/src/components/graph/SemanticGraph.tsx:90-94 | the map agrees with the last-occurrence search, key by key, so a later node with the same id wins |
| GraphView.IndexMapDistinct | 02_frontend/src/components/graph/SemanticGraph.tsx:90-94 | with distinct ids every node maps to its own position |
| GraphView.Reconcile | 02_frontend/src/components/graph/SemanticGraph.tsx:159-200 | an empty node list leaves everything alone; a count change starts each node at its old position when its id had one inside the old buffer, else at its stored coordinates, and zeroes the targets; the id map is always rebuilt |
| GraphView.ReconcileSizes | 02_frontend/src/components/graph/SemanticGraph.tsx:166-189 | after a run the position buffers hold one point per node |
| GraphView.DeletionKeepsPositions | 02_frontend/src/components/graph/SemanticGraph.tsx:165-186 | after a node is deleted every surviving node starts where it was drawn before |
| GraphView.Xor32 | 02_frontend/src/components/graph/SemanticGraph.tsx:84 | the XOR of two numbers is a signed 32-bit integer |
| GraphView.Shl | 02_frontend/src/components/graph/SemanticGraph.tsx:85 | a left shift yields a signed 32-bit integer |
| GraphView.ActiveHash | 02_frontend/src/components/graph/SemanticGraph.tsx:81-88 | after at least one index the running hash lies within six times 2^31 of zero, so the double arithmetic of the source is exact |
| GraphView.ComputeActiveKey | 02_frontend/src/components/graph/SemanticGraph.tsx:81-88 | the loop that folds the hash from the first index to the last builds the same key as the recursive definition |
| GraphView.ActiveKey | 02_frontend/src/components/graph/SemanticGraph.tsx:85-87 | the key is the decimal count of active nodes, a '-', and the decimal unsigned 32-bit value of the hash, each part reading back to its number |
| GraphView.ActiveKeyLength | 02_frontend/src/components/graph/SemanticGraph.tsx:81-88 | equal active keys mean equally many active nodes |
| GraphView.CacheKey | 02_frontend/src/components/graph/SemanticGraph.tsx:206 | the similarity layout has one key; grouped layouts are keyed by mode and active key |
| GraphView.CacheKeyInjective | 02_frontend/src/components/graph/SemanticGraph.tsx:206 | two cache keys agree exactly when both are similarity or both name the same grouped mode and active key |
| GraphView.InstallTargets | 02_frontend/src/components/graph/SemanticGraph.tsx:208-252 | a cached layout of the right length is reused and the cache kept; otherwise the computed layout is installed and stored under the key; other keys are untouched |
| GraphView.CacheReplay | 02_frontend/src/components/graph/SemanticGraph.tsx:208-252 | a second install under the same key gives the same targets and cache |
| GraphView.SimilarityTargets | 02_frontend/src/components/graph/SemanticGraph.tsx:221-225 | the similarity layout puts every node at its stored coordinates, 0 when missing |
| GraphView.InteractiveSet | 02_frontend/src/components/graph/SemanticGraph.tsx:490-500 | without a selection the pointer may pick exactly the active nodes |
| GraphView.InteractiveWithSelection | 02_frontend/src/components/graph/SemanticGraph.tsx:490-498 | with a selection, exactly the selected node and its first ten safe neighbors, nothing for an unknown id, always node positions |
| GraphView.ClampScale | 02_frontend/src/components/graph/SemanticGraph.tsx:595 | the scale lands in [10, 500000], unchanged when already inside |
| GraphView.WheelScale | 02_frontend/src/components/graph/SemanticGraph.tsx:595 | a wheel step always gives an allowed scale |
| GraphView.WheelDirection | 02_frontend/src/components/graph/SemanticGraph.tsx:595 | scrolling up never zooms out and scrolling down never zooms in |
| GraphView.ClampMonotone | 02_frontend/src/components/graph/SemanticGraph.tsx:595 | the clamp keeps the order of scales |
| GraphView.ClampIdempotent | 02_frontend/src/components/graph/SemanticGraph.tsx:595 | clamping an allowed scale changes nothing |
| InsertionOrder.FillMeetsSpec | 02_frontend/src/lib/graphNodeOps.ts:4 | a `Map` filled item by item holds every key once, in order of first insertion, with the value of the last item carrying it |
| InsertionOrder.FillLength | 02_frontend/src/lib/graphNodeOps.ts:4 | the filled map is never longer than the items |
| StringOrder.Sort | 02_frontend/src/components/graph/SemanticGraph.tsx:236 | the sorted keys are the same keys, strictly ascending by character (the UTF-16 code unit on the ASCII text the model assumes) |
| StringOrder.SortedUnique | 02_frontend/src/components/graph/SemanticGraph.tsx:236 | a set of keys has only one strictly sorted arrangement, so the order of groups depends only on which keys occur |
| StringOrder.LessTotal | 02_frontend/src/components/graph/SemanticGraph.tsx:236 | two different keys are always ordered one way or the other |
| StringOrder.LessTransitive | 02_frontend/src/components/graph/SemanticGraph.tsx:236 | the key order is transitive |
| GroupedLayout.GroupKeys | 02_frontend/src/components/graph/SemanticGraph.tsx:229-236 | the group map's keys are each key once, exactly the keys of the active nodes |
| GroupedLayout.Members | 02_frontend/src/components/graph/SemanticGraph.tsx:230-234 | a group holds exactly the active nodes with its key, in active order, without repeats |
| GroupedLayout.CeilSqrt | 02_frontend/src/components/graph/SemanticGraph.tsx:237 | `Math.ceil(Math.sqrt(n))`: the least c with c·c ≥ n |
| GroupedLayout.CeilSqrtLeast | 02_frontend/src/components/graph/SemanticGraph.tsx:237 | no smaller grid width fits n cells |
| GroupedLayout.GroupedTargets | 02_frontend/src/components/graph/SemanticGraph.tsx:220-248 | the loops put every active node at its group's outer cell plus its inner cell, and leave every other node at (0, 0) |
| GroupedLayout.GroupCellsDistinct | 02_frontend/src/components/graph/SemanticGraph.tsx:237-240 | nodes of different groups get different outer cells inside the cols × cols grid |
| GroupedLayout.MemberCellsDistinct | 02_frontend/src/components/graph/SemanticGraph.tsx:241-246 | members of one group get different inner cells inside the group's grid |
| GroupedLayout.PlacesDistinct | 02_frontend/src/components/graph/SemanticGraph.tsx:237-246 | the grouped layout never puts two active nodes on one point |
| Stabilization.OnInstall | 02_frontend/src/components/graph/SemanticGraph.tsx:254-276 | an install clears the notification flag; a ready view starts animating, a view that is not ready schedules one more timer |
| Stabilization.OnFrame | 02_frontend/src/components/graph/SemanticGraph.tsx:299-318 | a converging animation stops and notifies unless it already has; any other frame changes nothing |
| Stabilization.OnTimerAsWritten | 02_frontend/src/components/graph/SemanticGraph.tsx:269-274 | the timer notifies whenever no animation runs, whatever the flag says |
| Stabilization.OnTimer | 02_frontend/src/components/graph/SemanticGraph.tsx:262-274 | the timer with the flag honoured notifies only when no animation runs and nothing has notified since the install |
| Stabilization.StepKeepsFlagSound | 02_frontend/src/components/graph/SemanticGraph.tsx:262-318 | every event keeps the flag equal to "notified since the last install" |
| Stabilization.AtMostOncePerInstall | 02_frontend/src/components/graph/SemanticGraph.tsx:254-318 | `onStabilized` runs at most once between two installs, on every event sequence |
| Stabilization.AtMostOnceFromStart | 02_frontend/src/components/graph/SemanticGraph.tsx:254-318 | from the initial state, at most once |
| Stabilization.FramesAloneAtMostOnce | 02_frontend/src/components/graph/SemanticGraph.tsx:299-318 | without timer events the code as written keeps that promise |
| Stabilization.TimerFiresTwice | 02_frontend/src/components/graph/SemanticGraph.tsx:265-274 | two installs before the first frame, then both timers: the code as written notifies twice for one install, the corrected machine once |
| HitTest.BuildGrid | 02_frontend/src/components/graph/SemanticGraph.tsx:98-111 | every listed node is active and sits in its own cell, no cell list is empty |
| HitTest.GridCovers | 02_frontend/src/components/graph/SemanticGraph.tsx:98-111 | every active node is listed in its own cell |
| HitTest.GridEmpty | 02_frontend/src/components/graph/SemanticGraph.tsx:487 | the grid is empty exactly when no node is active |
| HitTest.ScanCovers | 02_frontend/src/components/graph/SemanticGraph.tsx:505-508 | the 5 × 5 scan sees every node of every cell in the block |
| HitTest.Best | 02_frontend/src/components/graph/SemanticGraph.tsx:503-511 | the pick is an interactive candidate nearer than the bound and no farther than any other interactive candidate, the first such on a tie; nothing only when all are at the bound or beyond |
| HitTest.BestUnique | 02_frontend/src/components/graph/SemanticGraph.tsx:509-511 | a unique nearest interactive candidate within the bound is the pick |
| HitTest.Hit | 02_frontend/src/components/graph/SemanticGraph.tsx:486-515 | no pick from an empty grid; a pick is an interactive node of the block within `15 / scale` |
| HitTest.HitIsNearest | 02_frontend/src/components/graph/SemanticGraph.tsx:505-515 | no interactive node of the block is strictly nearer than the pick, and without a pick all are at least `15 / scale` away |
| HitTest.HitInGrid | 02_frontend/src/components/graph/SemanticGraph.tsx:98-111 | the pick is always an active node |
| HitTest.HitIndex | 02_frontend/src/components/graph/SemanticGraph.tsx:480-516 | nothing is picked when no node is active; a pick is active, interactive for the current selection, and within `15 / scale` |
| GraphPage.IndicesWithId | 02_frontend/src/pages/GraphPage.tsx:46-50 | the visible indices are ascending node positions, exactly those whose id is in the filter |
| GraphPage.FilteredIndices | 02_frontend/src/pages/GraphPage.tsx:42-51 | without a filter every index in order; with one, exactly the positions whose id it holds, ascending |
| GraphPage.HandleFilterGraph | 02_frontend/src/pages/GraphPage.tsx:62-68 | a list of ids, even an empty one, installs exactly those ids as the filter; no list clears it |
| GraphPage.FilterShowsResults | 02_frontend/src/pages/GraphPage.tsx:42-68 | after a search filter a node is shown exactly when the search returned its id |
| GraphPage.EmptyResultsHideAll | 02_frontend/src/pages/GraphPage.tsx:42-68 | an empty result list hides every node, while clearing the filter shows them all |
| GraphPage.SelectedNode | 02_frontend/src/pages/GraphPage.tsx:53-55 | the selected node is a node carrying the selected id, found whenever one exists; none without a selection |
| GraphPage.SelectedIsFirst | 02_frontend/src/pages/GraphPage.tsx:54 | with several nodes carrying the id, the first is selected |
| GraphPage.LockInvKept | 02_frontend/src/pages/GraphPage.tsx:70-91 | a locked switch always has the 450 ms unlock fallback pending, on every event sequence |
| GraphPage.OnRequest | 02_frontend/src/pages/GraphPage.tsx:70-77 | a click never changes the mode or the lock; it replaces the pending request only when it asks for another mode and the switch is unlocked |
| GraphPage.OnDebounce | 02_frontend/src/pages/GraphPage.tsx:75-85 | the timer consumes the pending request: the mode becomes the requested one, the switch locks, and the unlock fallback is pending |
| GraphPage.ModeChange | 02_frontend/src/pages/GraphPage.tsx:70-86 | the mode changes only when the debounce timer fires, to the mode last requested, or through a direct change from the details panel |
| GraphPage.DirectBypassesLock | 02_frontend/src/pages/GraphPage.tsx:175 | the details panel's card applies its mode even while the switch is locked, leaving the lock and a pending request as they were |
| GraphPage.PendingOverridesDirect | 02_frontend/src/pages/GraphPage.tsx:70-86 | a toolbar request pending when a card is clicked still applies once its timer fires |
| GraphPage.LastRequestWins | 02_frontend/src/pages/GraphPage.tsx:72-77 | two clicks inside the debounce window apply only the second |
| GraphPage.LockedIgnoresRequests | 02_frontend/src/pages/GraphPage.tsx:71 | while the switch is locked a click has no effect |
| GraphPage.RevertDoesNotCancel | 02_frontend/src/pages/GraphPage.tsx:71-77 | clicking back to the current mode inside the window does not cancel the pending switch |
| GraphPage.CenterOffset | 02_frontend/src/pages/GraphPage.tsx:109-118 | the toolbar moves right exactly when a results panel shows and no details panel is open, left exactly when the details panel is open, by one of six fixed amounts |
| RelatedNodes.Candidates | 02_frontend/src/components/layout/detail/RelatedNodesGrid.tsx:15-17 | every candidate is a node named by a valid entry and shown beside the node; never more candidates than entries |
| RelatedNodes.CandidatesAppend | 02_frontend/src/components/layout/detail/RelatedNodesGrid.tsx:15-17 | the candidates are computed entry by entry, so their order is the entries' order |
| RelatedNodes.CandidatesSingle | 02_frontend/src/components/layout/detail/RelatedNodesGrid.tsx:16-17 | one entry contributes its node exactly when it is a valid index whose node is shown |
| RelatedNodes.Related | 02_frontend/src/components/layout/detail/RelatedNodesGrid.tsx:13-18 | nothing is rendered without neighbors; otherwise the first min(10, #candidates) candidates |
| RelatedNodes.MissingPictureHidesMissingPictures | 02_frontend/src/components/layout/detail/RelatedNodesGrid.tsx:17 | a node without a picture hides every neighbor without one |
| RelatedNodes.InvalidEntriesCostNothing | 02_frontend/src/components/layout/detail/RelatedNodesGrid.tsx:15-18 | invalid entries in front do not take the place of shown neighbors |
| RelatedNodes.NoCandidates | 02_frontend/src/components/layout/detail/RelatedNodesGrid.tsx:16 | invalid entries contribute nothing |
| RelatedNodes.SafeNeighborsLoseASlot | 02_frontend/src/components/graph/graphUtils.ts:11-15 | by contrast, an invalid entry in front costs `getSafeNeighbors` one of its ten slots |
| MetadataCards.ManufacturerText | 02_frontend/src/components/layout/detail/MetadataCards.tsx:15 | the manufacturer text is never empty: the provider when it has one, else 'N/A' |
| MetadataCards.KeepTruthyMembers | 02_frontend/src/components/layout/detail/MetadataCards.tsx:16 | the filter keeps exactly the items with non-empty text |
| MetadataCards.Shape | 02_frontend/src/components/layout/detail/MetadataCards.tsx:12-16 | one to three buttons, the category and LOD ones present exactly when their text is non-empty, manufacturer always last, no kind twice |
| MetadataCards.Items | 02_frontend/src/components/layout/detail/MetadataCards.tsx:12-16 | filtering the three candidates of a node gives the case-by-case list for its category, LOD label and manufacturer texts |
| MetadataCards.ItemsOfNode | 02_frontend/src/components/layout/detail/MetadataCards.tsx:12-16 | for a node: the category and LOD buttons appear exactly when the node has that text, manufacturer is last, each button asks for its own layout |
| MetadataCards.FilterThree | 02_frontend/src/components/layout/detail/MetadataCards.tsx:12-16 | the filter on the three candidates yields the case-by-case list |
| MetadataCards.OnClick | 02_frontend/src/components/layout/detail/MetadataCards.tsx:25 | a click asks for the button's own layout, never the similarity view |
| DetailPanel.DeleteFilename | 02_frontend/src/components/layout/DetailPanel.tsx:29 | the file name sent is the node id or a non-empty, slash-free tail of the picture path; the id without a picture |
| DetailPanel.DeleteFilenameOfPath | 02_frontend/src/components/layout/DetailPanel.tsx:29 | for a path ending in '/name' the name is sent |
| DetailPanel.HandleDelete | 02_frontend/src/components/layout/DetailPanel.tsx:26-48 | the request always goes first and the spinner always stops; an ok answer removes the node, closes the panel and hides the confirmation; anything else only alerts |
| DetailPanel.DeleteThenClose | 02_frontend/src/components/layout/DetailPanel.tsx:35-38 | the panel closes only right after the node was removed, after an ok answer |
| SearchResults.Render | 02_frontend/src/components/search/SearchResults.tsx:27-49 | collapsed shows only the count; expanded splits the results into the first ten and the rest, in order |
| SearchResults.RestHoldsTheTail | 02_frontend/src/components/search/SearchResults.tsx:49 | every result past the tenth lands in the rest at its own offset |
| SearchResults.ToggleFilter | 02_frontend/src/components/search/SearchResults.tsx:51-58 | a filtered graph is cleared; otherwise the filter is every result's id, in order |
| SearchResults.ToggleRoundTrip | 02_frontend/src/components/search/SearchResults.tsx:51-58 | from an unfiltered graph one click shows exactly the nodes some result names, and a second click shows all again |
| SearchResults.ItemNode | 02_frontend/src/components/search/SearchResults.tsx:163-164 | a result renders the node with its id, and nothing exactly when no node has it |
| BatchDashboard.SafeResults | 02_frontend/src/components/dashboard/ResultsDashboard.tsx:25-27 | nothing unless the input is an array; otherwise exactly its object and array entries |
| BatchDashboard.Records | 02_frontend/src/components/dashboard/ResultsDashboard.tsx:26 | the filter keeps exactly the object and array entries |
| BatchDashboard.RecordsAppend | 02_frontend/src/components/dashboard/ResultsDashboard.tsx:26 | the filter distributes over concatenation, so records keep their order |
| BatchDashboard.LodScore | 02_frontend/src/components/dashboard/ResultsDashboard.tsx:39-46 | the score is one of 0, 100, 200, 300, 350, 400; 0 exactly when no rule's text occurs; the first rule wins |
| BatchDashboard.FirstRuleWins | 02_frontend/src/components/dashboard/ResultsDashboard.tsx:42-46 | rules are tried in order: "medium-high" scores 200 and "low / high" 100 |
| BatchDashboard.LodTotals | 02_frontend/src/components/dashboard/ResultsDashboard.tsx:34-52 | no records give zero totals; the sum lies between 100 and 400 times the number of scored records, which is at most the number of records |
| BatchDashboard.LodTotalsAppend | 02_frontend/src/components/dashboard/ResultsDashboard.tsx:34-52 | a record with a positive score adds it to the sum and one to the count; a record without one leaves both as they were |
| BatchDashboard.RoundHalfUp | 02_frontend/src/components/dashboard/ResultsDashboard.tsx:54 | dividing 2·num + den by 2·den gives `Math.round(num / den)`: the integer q with q − ½ ≤ num / den < q + ½ |
| BatchDashboard.RoundsToUnique | 02_frontend/src/components/dashboard/ResultsDashboard.tsx:54 | a quotient rounds to exactly one integer |
| BatchDashboard.AverageLod | 02_frontend/src/components/dashboard/ResultsDashboard.tsx:54 | when a record was scored the average is the mean of the scored records rounded to the nearest integer, a half rounded up; 0 when none was |
| BatchDashboard.AverageLodIsRounded | 02_frontend/src/components/dashboard/ResultsDashboard.tsx:54 | any integer the mean rounds to is the average |
| BatchDashboard.AverageLodBounds | 02_frontend/src/components/dashboard/ResultsDashboard.tsx:54 | the average lies in [100, 400] when a record was scored and is 0 otherwise |
| BatchDashboard.Bump | 02_frontend/src/components/dashboard/ResultsDashboard.tsx:60 | one increment adds one to the key's count and to the total, leaves other counts alone and keeps keys distinct |
| BatchDashboard.Tally | 02_frontend/src/components/dashboard/ResultsDashboard.tsx:57-61 | the tally has distinct keys, each counting exactly the key's occurrences, every count at least 1, and the counts add up to the number of keys |
| BatchDashboard.TallyCoversRecords | 02_frontend/src/components/dashboard/ResultsDashboard.tsx:57-61 | the category counts add up to the number of records |
| BatchDashboard.InsertDesc | 02_frontend/src/components/dashboard/ResultsDashboard.tsx:64-65 | one insertion step keeps the descending order and adds one entry |
| BatchDashboard.InsertDescPerm | 02_frontend/src/components/dashboard/ResultsDashboard.tsx:64-65 | one insertion step keeps the entries already there and adds the new one, as a multiset |
| BatchDashboard.SortDesc | 02_frontend/src/components/dashboard/ResultsDashboard.tsx:64-65 | the sorted tally is a permutation of the tally in non-increasing order of count |
| BatchDashboard.TopOf | 02_frontend/src/components/dashboard/ResultsDashboard.tsx:64-66 | at most six entries, exactly six when there are that many, in non-increasing order, all from the tally |
| BatchDashboard.TopCategories | 02_frontend/src/components/dashboard/ResultsDashboard.tsx:57-66 | the shown categories are at most six tally entries in non-increasing order |
| BatchDashboard.TopAreLargest | 02_frontend/src/components/dashboard/ResultsDashboard.tsx:64-66 | no category left out of the six has a larger count than one shown |
| BatchDashboard.Percentage | 02_frontend/src/components/dashboard/ResultsDashboard.tsx:199 | for a non-empty batch the share is count·100 / total rounded to the nearest integer, a half rounded up; it lies between 0 and 100, is 100 for the whole batch and 0 for none |
| BatchDashboard.PercentageIsRounded | 02_frontend/src/components/dashboard/ResultsDashboard.tsx:199 | any integer count·100 / total rounds to is the share |
| BatchDashboard.CountWithinTotal | 02_frontend/src/components/dashboard/ResultsDashboard.tsx:199 | every tallied count fits within the total |
| PipelineRecords.ToRecord | 02_frontend/src/hooks/usePipelineUpload.ts:15-23 | each missing or null field takes its default; a string id is kept; the paths are kept exactly when they are strings |
| PipelineRecords.FilterMap | 02_frontend/src/hooks/usePipelineUpload.ts:13-24 | never more records than items, and every record has a non-empty id |
| PipelineRecords.FilterMapSources | 02_frontend/src/hooks/usePipelineUpload.ts:13-24 | every record comes from an object item, and every object item whose record has an id is kept |
| PipelineRecords.NormalizeItems | 02_frontend/src/hooks/usePipelineUpload.ts:13-24 | the same facts for the hook's own conversion |
| PipelineRecords.Normalize | 02_frontend/src/hooks/usePipelineUpload.ts:11-25 | nothing unless the input is an array; otherwise its normalised records, each with a non-empty id |
| PipelineRecords.NormalizeAppend | 02_frontend/src/hooks/usePipelineUpload.ts:13-24 | normalising works item by item, so order is kept |
| PipelineRecords.FilterMapAppend | 02_frontend/src/components/search/ResultsDashboard.tsx:21-34 | the dashboard's copy works item by item too |
| PipelineRecords.IdDecidesKeeping | 02_frontend/src/hooks/usePipelineUpload.ts:16-24 | a record whose id is missing or null is dropped; one with a non-empty string id is kept |
| PipelineRecords.ThumbnailName | 02_frontend/src/components/search/ResultsDashboard.tsx:66-69 | the thumbnail name holds no separator and ends the raw path |
| PipelineRecords.HandleLocate | 02_frontend/src/components/search/ResultsDashboard.tsx:36-39 | locating a record asks the page to locate its id first and closes the dashboard second |
| PipelineRecords.ThumbnailIsLastSegment | 02_frontend/src/components/search/ResultsDashboard.tsx:66-69 | the separator test is redundant: the name is always the last segment |
| PipelineUpload.Upload | 02_frontend/src/hooks/usePipelineUpload.ts:40-62 | an empty queue changes nothing; otherwise 'uploading' at 10 first, and on success processing, finishing, complete with the normalised records, on failure an error at 0 with the records kept |
| PipelineUpload.SuccessProgressIncreases | 02_frontend/src/hooks/usePipelineUpload.ts:42-54 | on the success path the progress strictly increases and ends at 100 |
| PipelineUpload.FailureMessage | 02_frontend/src/hooks/usePipelineUpload.ts:56-60 | a failed answer reports its own error text, or 'Pipeline failed' |
| PipelineUpload.Images | 02_frontend/src/components/search/FileUploadModal.tsx:37-39 | exactly the picked files with an image type are kept |
| PipelineUpload.AddFiles | 02_frontend/src/components/search/FileUploadModal.tsx:32-51 | the queue stays as it was, followed by exactly the picked image files |
| PipelineUpload.RemoveFile | 02_frontend/src/components/search/FileUploadModal.tsx:53-55 | removing position i shifts the later files down by one and keeps the others; an outside index changes nothing |
| PipelineUpload.RemoveFileInverse | 02_frontend/src/components/search/FileUploadModal.tsx:53-55 | putting the removed file back at its position restores the queue |
| PipelineUpload.HandleUpload | 02_frontend/src/components/search/FileUploadModal.tsx:57-61 | nothing on an empty queue; otherwise the upload runs and the queue empties |
| PipelineUpload.Pending | 02_frontend/src/hooks/usePipelineUpload.ts:42-45 | the status shown while the pipeline call is pending is the 'uploading' one |
| PipelineUpload.HandleCloseAsWritten | 02_frontend/src/components/search/FileUploadModal.tsx:63-68 | closing is refused only in the 'processing' step; otherwise it clears the queue, resets the hook and closes |
| PipelineUpload.CloseMidRunAsWritten | 02_frontend/src/components/search/FileUploadModal.tsx:63-68 | while the pipeline call is pending the guard as written lets the dialog close and reset |
| PipelineUpload.ProcessingNeverLast | 02_frontend/src/hooks/usePipelineUpload.ts:40-62 | 'processing' is never the status once the call has returned, nor the first one set |
| PipelineUpload.HandleClose | 02_frontend/src/components/search/FileUploadModal.tsx:63-68 | with the guard covering the whole run, closing is refused while the pipeline may run and otherwise resets and closes |
| PipelineUpload.CloseMidRunRefused | 02_frontend/src/components/search/FileUploadModal.tsx:63-68 | the corrected guard keeps the dialog open while the call is pending |
| PipelineUpload.CloseAfterRun | 02_frontend/src/components/search/FileUploadModal.tsx:57-68 | once the run is over both guards agree and the dialog closes |
| PipelineUpload.Reset | 02_frontend/src/hooks/usePipelineUpload.ts:35-38 | resetting empties the results and returns to the idle step with no message and no progress |
| PipelineUpload.ShowsDashboard | 02_frontend/src/components/search/FileUploadModal.tsx:70-73 | a closed dialog shows nothing; an open one shows the dashboard when the pipeline is complete with at least one record, and from there closing is never refused and resets everything |
| PipelineUpload.DashboardAfterUpload | 02_frontend/src/components/search/FileUploadModal.tsx:70-73 | a successful upload with a usable record makes the dashboard ready, shown exactly when the dialog is open; a failed one never shows it |
| PipelineUpload.RunEffects | 02_frontend/src/components/search/FileUploadModal.tsx:85 | the dashboard wires its close to the dialog's close handler: a run of effects hands the page no more locate requests than it holds, and leaves the dialog untouched unless it contains a close |
| PipelineUpload.LocateThenClose | 02_frontend/src/components/search/ResultsDashboard.tsx:36-39 | locating from the shown dashboard hands the id to the page exactly once, then closes the dialog with an empty queue and a reset pipeline, so the dashboard is gone |
| GraphBackend.PyInt | run_viz.py:357 | `isinstance(v, int)` accepts ints and booleans, a boolean counting as 0 or 1 |
| GraphBackend.NewIndex | run_viz.py:345 | the old-to-new map sends an old index to the last kept position holding it, and is undefined exactly for indices not kept |
| GraphBackend.Remap | run_viz.py:354-367 | a remapped list holds only new positions in range, never the node's own, each once, and exactly the mapped targets other than the node itself |
| GraphBackend.RemapOrder | run_viz.py:356-367 | remapped entries follow the order in which their targets first appear in the raw list |
| GraphBackend.MappedMeans | run_viz.py:356-361 | a new position is among the mapped targets exactly when some integer raw entry names the kept index at that position |
| GraphBackend.SelfIndex | run_viz.py:362 | a node's own new position holds its old index, and is its kept position when kept indices are distinct |
| GraphBackend.RebuildAfterDeletion | run_viz.py:344-373 | one copied node per kept index with its remapped neighbors and its new `idx`; every other field unchanged |
| GraphBackend.RebuiltNeighborsValid | run_viz.py:354-367 | each rebuilt neighbor indexes the new list, is not the node itself and is listed once |
| GraphBackend.RebuiltNeighborsKeepTargets | run_viz.py:356-367 | a rebuilt neighbor is exactly a kept node other than itself that the old list pointed at |
| GraphBackend.NonListNeighborsEmpty | run_viz.py:350-352 | a missing or non-list `neighbors` becomes the empty list |
| GraphBackend.KeptIndices | run_viz.py:543 | the kept indices are the ascending positions whose `img` does not end with "/" and the filename |
| GraphBackend.KeptFull | run_viz.py:543-544 | the kept list is as long as the node list exactly when no node matches the filename |
| GraphBackend.GraphAfterDelete | run_viz.py:543-546 | the graph is rewritten exactly when some node matched, and then it is shorter |
| GraphBackend.MetaAfterDelete | run_viz.py:547-549 | the meta keeps every other field of a dict meta, starts from {} otherwise, and its count is the new number of nodes |
| GraphBackend.WithoutNamed | run_viz.py:530 | the rewritten registry holds exactly the records not named after the file, and is shorter exactly when one was; a single record is kept exactly when it does not name the file |
| GraphBackend.WithoutNamedAppend | run_viz.py:530 | the comprehension distributes over concatenation, so the kept records stay in registry order |
| GraphBackend.RegistryAfterDelete | run_viz.py:530-533 | the registry file is rewritten exactly when some record named the file, without those records |
| GraphBackend.PanelDeleteDropsNode | 02_frontend/src/components/layout/DetailPanel.tsx:29 | the filename the panel sends makes the backend drop the node it was taken from, and every node with that picture name |
| GraphBackend.SlashlessPictureStays | 02_frontend/src/components/layout/DetailPanel.tsx:29 | a node whose `img` has no slash is never matched by the backend's "/" + filename test |
| GraphBackend.FirstNamed | run_viz.py:277-281 | the search finds the first record whose `name_of_file` equals the filename, or none when no record does |
| GraphBackend.RemoveFromMemory | run_viz.py:273-290 | false with nothing changed for an empty registry, missing embeddings or no match; otherwise the first match is popped and its row deleted only when in range |
| GraphBackend.RemoveKeepsAlignment | run_viz.py:286-288 | with one embedding row per record, every record keeps its own row after the removal |
| GraphBackend.MemoryKeepsLaterDuplicates | run_viz.py:278-286 | memory removal drops only the first of two records with the same filename, while the registry file drops both |
| GraphBackend.BatchBucket | run_viz.py:389-397 | the first matching rule gives the bucket: "100"/low, "200"/medium, "300", "400"/high; otherwise none |
| GraphBackend.BatchValues | run_viz.py:387-397 | the values are the buckets of the matched entries, each between 100 and 400 |
| GraphBackend.SumBounds | run_viz.py:398-399 | a sum of values between two bounds lies between the bounds times the count |
| GraphBackend.AverageInRange | run_viz.py:398-399 | the floored average of values between 100 and 400 lies between 100 and 400 |
| GraphBackend.AnalyzeLods | run_viz.py:382-399 | an empty list has no analysis; otherwise the average is 'N/A' exactly when nothing matched, and when something did it is the floor of the mean of the matched buckets, in [100, 400] |
| GraphBackend.UnmatchedIgnored | run_viz.py:388-397 | an entry that matches no rule adds no value and does not change the analysis |
| GraphBackend.MatchedCounted | run_viz.py:388-397 | a matching entry adds its bucket to the values |
| GraphBackend.ExpandQuery | run_viz.py:187-215 | a cached key answers from the cache; a new answer is stored under the stripped, lower-cased query; a failure returns the query and stores nothing |
| GraphBackend.SameKeyHits | run_viz.py:188-191 | two queries that strip and lower-case alike share one expansion |
| GraphBackend.FailureRetried | run_viz.py:211-215 | a failed expansion is not cached, so the next call asks the model again |
| DataTools.BatchRecords | 01_backend/img_pipeline/Step09_DataTools.py:54-63 | a single batch file adds its items when it holds a list and nothing otherwise; no files add nothing |
| DataTools.BatchRecordsAppend | 01_backend/img_pipeline/Step09_DataTools.py:54-63 | the batch files are read one after the other, so their records follow file order |
| DataTools.StrayRecords | 01_backend/img_pipeline/Step09_DataTools.py:67-79 | skipped files add nothing, a list adds its items, a dict is added exactly when it has `id` or `name_of_file` |
| DataTools.AllStraysAppend | 01_backend/img_pipeline/Step09_DataTools.py:67-81 | the stray scan works file by file |
| DataTools.IgnoredStrays | 01_backend/img_pipeline/Step09_DataTools.py:68-77 | skipped files and key-less dicts contribute nothing |
| DataTools.Merge | 01_backend/img_pipeline/Step09_DataTools.py:33-81 | the merged list is the master, then the batch records, then the stray records |
| DataTools.Keyed | 01_backend/img_pipeline/Step09_DataTools.py:85-88 | every record is paired with its key, in order |
| DataTools.DedupBy | 01_backend/img_pipeline/Step09_DataTools.py:84-90 | the deduplicated list is no longer than the input |
| DataTools.Winner | 01_backend/img_pipeline/Step09_DataTools.py:89 | the position a slot's record comes from carries the slot's key, and no later record has that key |
| DataTools.Opener | 01_backend/img_pipeline/Step09_DataTools.py:89-90 | each slot sits where its key first appeared |
| DataTools.DedupBySpec | 01_backend/img_pipeline/Step09_DataTools.py:84-90 | per key the last record, no key twice, slots in first-appearance order, every input key present |
| DataTools.ConsolidateAsWritten | 01_backend/img_pipeline/Step09_DataTools.py:84-90 | the registry as written is no longer than the merged records |
| DataTools.PositionCollidesWithId | 01_backend/img_pipeline/Step09_DataTools.py:88 | a record with id "1" is lost to a key-less record at position 1 |
| DataTools.Consolidate | 01_backend/img_pipeline/Step09_DataTools.py:84-90 | the registry with tagged position keys is no longer than the merged records |
| DataTools.KeylessRecordsSurvive | 01_backend/img_pipeline/Step09_DataTools.py:88-89 | with position keys kept apart, every record without a key field survives |
| DataTools.SameKeysForNamedRecords | 01_backend/img_pipeline/Step09_DataTools.py:88 | records with a key field are keyed alike by the corrected and the original rule |
| OutputUtils.EstimateLod | 01_backend/img_pipeline/Step08_OutputUtils.py:30-33 | sharpness below 100, 500 and 1000 gives 100/Low, 200/Medium, 300/Medium-High, otherwise 400/High |
| OutputUtils.EstimateMonotone | 01_backend/img_pipeline/Step08_OutputUtils.py:30-33 | a sharper image never gets a lower LOD |
| OutputUtils.LabelDeterminesLod | 01_backend/img_pipeline/Step08_OutputUtils.py:30-33 | two estimates have the same label exactly when they have the same LOD |
| OutputUtils.MediumHighReadsTwoWays | 01_backend/img_pipeline/Step08_OutputUtils.py:32 | the label "Medium-High" of LOD 300 reads as 300 in the graph label, but as 200 in the batch analysis and in the dashboard |
| OutputUtils.PathName | 01_backend/img_pipeline/Step08_OutputUtils.py:52 | the file name of a path holds no slash |
| OutputUtils.PathStem | 01_backend/img_pipeline/Step08_OutputUtils.py:51 | the stem is the file name's part before its last dot when that dot is neither first nor last, and the whole name otherwise |
| OutputUtils.BaseRecord | 01_backend/img_pipeline/Step08_OutputUtils.py:49-59 | the record stores the given name and stem as its file and image names, and keeps the paths, category and id given |
| OutputUtils.ImageRecord | 01_backend/img_pipeline/Step08_OutputUtils.py:48-61 | the keyword arguments are added and override same-named base fields; every other base field is kept, so without overrides the file and image names are the name and stem of the output path |
| OutputUtils.RecordNameIsOutputName | 01_backend/img_pipeline/Step08_OutputUtils.py:52 | a record written to dir/name records exactly name as its `name_of_file` |
| OutputUtils.OverrideWins | 01_backend/img_pipeline/Step08_OutputUtils.py:60 | a keyword `name_of_file` replaces the derived one |
| OutputUtils.Clean | 01_backend/img_pipeline/Step08_OutputUtils.py:73 | the cleaned name has the length of the name, keeping alphanumerics and putting '_' for the rest |
| OutputUtils.OutputFilename | 01_backend/img_pipeline/Step08_OutputUtils.py:72-76 | the file name is the cleaned name, '_', the first six characters of the hash of `name_idx` (all of them when it is shorter) and ".png" |
| OutputUtils.OutputFilenameIsFlat | 01_backend/img_pipeline/Step08_OutputUtils.py:72-76 | a generated file name holds only alphanumerics, '_' and the one dot of ".png" |
| OutputUtils.SanitizeCategory | 01_backend/img_pipeline/Step08_OutputUtils.py:78-79 | the sanitised category keeps the length of the input |
| OutputUtils.SanitizeCategorySpec | 01_backend/img_pipeline/Step08_OutputUtils.py:78-79 | spaces and slashes become '_', every other character stays, and neither remains |
| OutputUtils.SimplifiedName | 01_backend/img_pipeline/Step08_OutputUtils.py:81-82 | the simplified name holds no whitespace |
| OutputUtils.SimplifiedNameWords | 01_backend/img_pipeline/Step08_OutputUtils.py:81-82 | the simplified name joins the first five words, or all of them when fewer, with '_' |
| OutputUtils.SimplifiedNameIdempotent | 01_backend/img_pipeline/Step08_OutputUtils.py:81-82 | simplifying a simplified name changes nothing |
| Schemas.ValidateRecords | 01_backend/schemas.py:50-59 | valid plus skipped is the number of records |
| Schemas.NoneSkipped | 01_backend/schemas.py:53-58 | nothing is skipped exactly when every record validates |
| Schemas.ValidFromRecords | 01_backend/schemas.py:53-56 | every kept dump is the dump of an input record |
| Schemas.ValidateAppend | 01_backend/schemas.py:53-58 | validation works record by record, so the valid dumps keep input order |
| Schemas.DumpNode | 01_backend/schemas.py:22-31 | a dumped node keeps its fields and gets the defaults it lacks, `neighbors` [] and `img` None |
| Schemas.ValidateGraph | 01_backend/schemas.py:62-83 | valid nodes plus skipped is the number of nodes; invalid meta becomes {}; the meta count is the number of valid nodes |
| Schemas.ValidateNodes | 01_backend/schemas.py:68-73 | valid plus skipped is the number of nodes, and every valid node has `neighbors` |
| Schemas.AllValidKept | 01_backend/schemas.py:62-83 | a graph whose every node validates loses none and counts all of them |
| ConfigLoader.CoerceEnv | 04_config/config/loader.py:28-34 | 'true'/'false' after trimming and lower-casing give a boolean, an optional '-' and digits an int, anything else the untrimmed string |
| ConfigLoader.CoerceNumeral | 04_config/config/loader.py:32-33 | a digit string, with or without a leading minus, coerces to the integer it spells |
| ConfigLoader.CoerceIntRoundTrip | 04_config/config/loader.py:32-33 | a printed integer coerces back to that integer |
| ConfigLoader.CoerceBool | 04_config/config/loader.py:29-31 | both boolean spellings in any case and padding coerce to the boolean |
| ConfigLoader.CoerceKeepsBareMinus | 04_config/config/loader.py:32-34 | a lone '-' or a blank value stays a string |
| ConfigLoader.SetNested | 04_config/config/loader.py:37-43 | after the write the path resolves to the value, and other top-level keys are unchanged |
| ConfigLoader.SetNestedElsewhere | 04_config/config/loader.py:37-43 | a path that parts from the written one resolves as before |
| ConfigLoader.Override | 04_config/config/loader.py:69-73 | an unset variable changes nothing; a set one writes its coerced value at its path |
| ConfigLoader.OverrideElsewhere | 04_config/config/loader.py:69-73 | one override leaves paths parting from its own as they were |
| ConfigLoader.ApplyEnvOverrides | 04_config/config/loader.py:46-74 | with no variable set the configuration comes back unchanged |
| ConfigLoader.UnsetChangesNothing | 04_config/config/loader.py:69-74 | with no listed variable set, applying the overrides is the identity |
| ConfigLoader.OverridesOnlySetPaths | 04_config/config/loader.py:69-74 | only paths of set variables change |
| ConfigLoader.OverrideLands | 04_config/config/loader.py:69-74 | with independent paths, every set variable's path ends with its coerced value |
| ConfigLoader.EnvMapIndependent | 04_config/config/loader.py:47-66 | the overridable paths are pairwise independent |
| ConfigLoader.EnvOverrideLands | 04_config/config/loader.py:46-74 | every set variable's value lands at its path |
| ConfigLoader.FirstMarked | 04_config/config/loader.py:17-20 | the root is the nearest of the directory and its ancestors holding the marker, and none exists exactly when none holds it |
| ConfigLoader.FindRepoRoot | 04_config/config/loader.py:12-20 | the search starts at the start path, or its parent for a file, and fails exactly when no candidate holds the marker |
| ConfigLoader.LoadConfig | 04_config/config/loader.py:77-87 | a cached configuration is returned as is; a fresh load fails exactly when the root search does, records `repo_root` and is cached |
| ConfigLoader.CacheSticks | 04_config/config/loader.py:78-80 | after a successful load every later call returns the same configuration, whatever its start path |
| ConfigLoader.FreshLoad | 04_config/config/loader.py:82-85 | a fresh load records the root found and keeps every setting no override touches |
| HfUtils.EnvFlag | 01_backend/img_pipeline/hf_utils.py:8-9 | a flag is on exactly when its trimmed, lower-cased value, or the default when unset, is 1, true, yes or on |
| HfUtils.SetFlagIgnoresDefault | 01_backend/img_pipeline/hf_utils.py:8-9 | a set variable hides the default |
| HfUtils.BlankFlagIsOff | 01_backend/img_pipeline/hf_utils.py:8-9 | a blank value is off |
| HfUtils.UnsetFlagIsOff | 01_backend/img_pipeline/hf_utils.py:8-9 | with default "0" an unset flag is off |
| HfUtils.CanReachHub | 01_backend/img_pipeline/hf_utils.py:12-20 | assumed reachable when LOD_HF_ASSUME_ONLINE is on, otherwise what the probe found |
| HfUtils.LocalFilesOnly | 01_backend/img_pipeline/hf_utils.py:23-28 | LOD_HF_LOCAL_ONLY forces local-only; otherwise local-only exactly when the hub is out of reach |
| HfUtils.LocalOnlyWhenOffline | 01_backend/img_pipeline/hf_utils.py:13-28 | without the override, local-only holds exactly when the hub is neither assumed online nor reachable |
| HfUtils.OrTruthy | 01_backend/img_pipeline/hf_utils.py:36 | the first token that is set and not empty, else the second |
| HfUtils.CommonKwargs | 01_backend/img_pipeline/hf_utils.py:31-39 | `local_files_only` is always present; `trust_remote_code` exactly when requested |
| HfUtils.TokenChoice | 01_backend/img_pipeline/hf_utils.py:36-38 | a token is passed exactly when either variable holds one, the hub variable first |

## Left out

- Canvas drawing, sprites, culling, tooltips, camera easing and `zoomToFit` in the graph view are side effects on a drawing surface and are not modelled.
- Positions are pairs of reals: the `Float32Array` buffers and their float32 rounding are not modelled.
- GraphView.ActiveKey: the fingerprint is modelled with exact integer shifts; that two different active lists may share a key is not excluded, and the cache treats the key as given.
- The graph view is taken to have an `onStabilized` callback; without one the flag is never set, which the model does not track.
- GraphUtils.BuildActiveLinks: requires every active index to be a position of the node list (a `nodes[i]` beyond it would throw); both producers of the active list, the full range and the positions whose id passed the filter, guarantee it.
- GraphModel.GraphNode: an optional field such as `img` is an Option, which merges JavaScript `null` with a missing property; the related-nodes filter compares `img` with `!==`, which tells the two apart. The backend always dumps a missing picture as null, so graph data never mixes the two.
- GroupedLayout.GroupedTargets: requires distinct active indices, which both producers of the active list guarantee; with repeated indices the later write would win.
- BatchDashboard.Tally: the model counts in a map keyed by any category string; the source counts in a plain object literal, where a category named like an `Object.prototype` member (`__proto__`, `constructor`, `toString`, `valueOf`, `hasOwnProperty`, …) starts from the inherited value rather than 0, so its count turns into a string or NaN, or the records vanish from the tally. The model's counts are only the source's for categories that do not clash with those names.
- BatchDashboard.TallyCoversRecords: holds in the source only when no category clashes with an `Object.prototype` member name (see BatchDashboard.Tally).
- BatchDashboard.TopCategories: the same proviso on category names as BatchDashboard.Tally; besides, `Object.entries` lists integer-like keys first in JavaScript; the model keeps plain insertion order for every key.
- BatchDashboard.AverageLod: `Math.round` of the quotient is taken as exact rounding of a rational number; floating-point error is not modelled.
- BatchDashboard.Percentage: the same exact-rounding reading as the average.
- Callbacks of the React components are returned as lists of effects; the fetch calls are outcome parameters, and the network itself is not modelled.
- GraphBackend.RebuildAfterDeletion: requires kept indices inside the node list; negative indices, which Python would read from the end, never come from the kept-index filter.
- GraphBackend.KeptIndices: requires every `img` to be a string, None or absent (None is read as "None", as `str()` does); the graph schema always dumps `img`, None by default, so nothing else reaches it. `str()` of other values is not modelled.
- GraphBackend.BatchValues: `str()` of lists, dicts and other non-scalar entries is a parameter `repr`.
- GraphBackend.AnalyzeLods: `lods` is taken to be a list; a string or dict payload, which Python would iterate differently, is not modelled. `int(sum / len)` is taken as the exact floor of the quotient.
- The categories summary and the OpenAI call of `analyze_batch` (run_viz.py:400-424) are network I/O and are not modelled.
- `delete_image` answers 400 for a missing filename and unlinks the picture and its thumbnail (run_viz.py:511-524); both are Flask and file-system I/O and are not modelled.
- GraphBackend.ExpandQuery: the model's answer is a parameter, `None` standing for a failed call.
- DataTools.Merge: a master registry that is not a list, or that fails to load, is not modelled; the master is given as a list of records.
- DataTools.ConsolidateAsWritten: requires every merged record to be a dict and every key field it picks to be hashable; Python would raise otherwise.
- DataTools: writing the master registry and removing the batch files (Step09_DataTools.py:93-107) are file-system I/O and are not modelled.
- OutputUtils.EstimateLod: the sharpness is a real parameter; the image metrics computed with OpenCV (Step08_OutputUtils.py:10-27) are not modelled.
- OutputUtils.PathName: paths are POSIX paths; Windows separators and `pathlib` normalisation are not modelled.
- OutputUtils.ImageRecord: the key order of the record dict is not modelled, only its keys and values; the uuid is a parameter.
- OutputUtils.OutputFilename: md5 is a parameter.
- `write_image_json` and `write_jsonl_record` (Step08_OutputUtils.py:63-70) are file I/O and are not modelled.
- Unicode semantics of `isalnum`, `isdigit`, `split()`, `toLowerCase` and `strip()` are not modelled: every string is treated as ASCII.
- Schemas.ValidateGraph: requires `nodes` to be a list or absent; pydantic's own validation is the parameter `checkNode`/`checkMeta`, and the dumped fields beyond the defaults are whatever that parameter returns.
- ConfigLoader.SetNested: requires a non-empty key path; the source raises an `IndexError` for an empty one and no caller passes one.
- ConfigLoader.LoadConfig: reading and parsing the default configuration file is a parameter of the world, and a JSON parse error is not modelled.
- `resolve_repo_path` (04_config/config/loader.py:90-92) only joins a path onto the loaded root and is not modelled.
- HfUtils.CanReachHub: the socket probe is a boolean parameter, and the `lru_cache` that makes it run once per process is not modelled.

## Findings

| source | as written | input that shows it | evidently intended | confidence | as-written member | corrected member |
|---|---|---|---|---|---|---|
| 02_frontend/src/components/graph/SemanticGraph.tsx:265-274 | the 100 ms timer started before the view is ready calls `onStabilized` without consulting `hasNotifiedStable` | two layout installs before the first frame, then both timers fire with no animation running | `onStabilized` runs at most once per layout install | not executed | Stabilization.TimerFiresTwice | Stabilization.AtMostOncePerInstall |
| 02_frontend/src/components/search/FileUploadModal.tsx:63-68 | closing is refused only in the 'processing' step, which is set only after the pipeline call has returned | close the dialog while the call is pending and the step is 'uploading' | no close in the middle of the run | not executed | PipelineUpload.CloseMidRunAsWritten | PipelineUpload.CloseMidRunRefused |
| 01_backend/img_pipeline/Step09_DataTools.py:88 | a record with no key field is keyed by `str(i)`, the same space as literal ids | a record with id "1" followed by a key-less record at position 1 | position keys never collide with field keys | not executed | DataTools.PositionCollidesWithId | DataTools.KeylessRecordsSurvive |

=== FILE: api_constants.dfy ===
/** The API base address and endpoints (02_frontend/src/lib/constants.ts). */
module ApiConstants {
  import opened Wrappers
  import opened AsciiText

  /** `s.replace(/\/+$/, "")`: drop the trailing run of '/'. */
  function StripTrailingSlashes(s: string): (r: string)
    ensures |r| <= |s| && r == s[..|r|]
    ensures r == [] || r[|r| - 1] != '/'
    ensures forall i :: |r| <= i < |s| ==> s[i] == '/'
    decreases |s|
  {
    if s != [] && s[|s| - 1] == '/' then StripTrailingSlashes(s[..|s| - 1]) else s
  }

  /** The stripped text is the unique prefix with no trailing '/' followed only by '/'. */
  lemma {:induction false} StripTrailingSlashesUnique(s: string, p: string)
    requires |p| <= |s| && p == s[..|p|]
    requires p == [] || p[|p| - 1] != '/'
    requires forall i :: |p| <= i < |s| ==> s[i] == '/'
    ensures StripTrailingSlashes(s) == p
    decreases |s|
  {
    if |p| < |s| {
      assert s[..|s| - 1][..|p|] == p;
      StripTrailingSlashesUnique(s[..|s| - 1], p);
    } else {
      assert p == s;
    }
  }

  /** `(import.meta.env.VITE_API_BASE_URL || "").replace(/\/+$/, "")`. */
  function ApiBase(env: Option<string>): (r: string)
    ensures r == [] || r[|r| - 1] != '/'
    ensures env.None? ==> r == []
  {
    StripTrailingSlashes(if env.Some? then env.value else "")
  }

  /** `withApiBase(path)`. */
  function WithApiBase(base: string, path: string): (r: string)
    ensures base == [] ==> r == path
    ensures base != [] ==> r == base + path
    ensures EndsWith(r, path)
  {
    if base == [] then path else base + path
  }

  const DataPath: string := "/vectors/graph_data.json"
  const SearchPath: string := "/api/search"
  const AnalyzePath: string := "/api/analyze_batch"
  const PipelinePath: string := "/api/run/local_pipeline"
  const DeleteImagePath: string := "/api/delete/image"

  const EndpointPaths: seq<string> := [DataPath, SearchPath, AnalyzePath, PipelinePath, DeleteImagePath]

  /** Every endpoint path is rooted: one '/' and then a non-'/' character. */
  lemma EndpointPathsRooted()
    ensures forall k :: 0 <= k < |EndpointPaths| ==>
      |EndpointPaths[k]| >= 2 && EndpointPaths[k][0] == '/' && EndpointPaths[k][1] != '/'
  {
  }

  /** Every endpoint is the base, then exactly one '/', then the rest of its
      path: the base never ends in '/' and the path holds a single leading '/'. */
  lemma EndpointJunction(env: Option<string>, k: int)
    requires 0 <= k < |EndpointPaths|
    ensures var base := ApiBase(env);
      var r := WithApiBase(base, EndpointPaths[k]);
      r[..|base|] == base && r[|base|] == '/' && r[|base| + 1] != '/' &&
      (|base| > 0 ==> r[|base| - 1] != '/')
  {
    EndpointPathsRooted();
  }
}

=== FILE: ascii_text.dfy ===
/** String helpers restricted to ASCII. Both the frontend (`toLowerCase`,
    `includes`, `split('/')`) and the backend (`str.lower`, `str.isalnum`,
    `str.strip`, `str.split`) are modelled on this common ground. */
module AsciiText {

  // ---------------------------------------------------------------------------
  // Character classes

  predicate IsUpper(c: char) { 'A' <= c <= 'Z' }
  predicate IsLowerLetter(c: char) { 'a' <= c <= 'z' }
  predicate IsDigit(c: char) { '0' <= c <= '9' }
  predicate IsAlnum(c: char) { IsUpper(c) || IsLowerLetter(c) || IsDigit(c) }

  /** Python's `str.isspace` restricted to ASCII: space, \t \n \v \f \r and the
      four separator controls \x1c-\x1f. */
  predicate IsSpace(c: char) {
    c == ' ' || 9 <= c as int <= 13 || 28 <= c as int <= 31
  }

  function LowerChar(c: char): (r: char)
    ensures !IsUpper(r)
    ensures IsUpper(c) ==> r as int == c as int + 32
    ensures !IsUpper(c) ==> r == c
  {
    if IsUpper(c) then (c as int + 32) as char else c
  }

  /** `toLowerCase()` / `str.lower()` on ASCII text. */
  function Lower(s: string): (r: string)
    ensures |r| == |s|
    ensures forall i :: 0 <= i < |s| ==> r[i] == LowerChar(s[i])
  {
    if s == [] then [] else [LowerChar(s[0])] + Lower(s[1..])
  }

  lemma LowerIdempotent(s: string)
    ensures Lower(Lower(s)) == Lower(s)
  {
  }

  // ---------------------------------------------------------------------------
  // Prefixes, suffixes, containment

  predicate StartsWith(s: string, p: string) {
    |p| <= |s| && s[..|p|] == p
  }

  predicate EndsWith(s: string, p: string) {
    |p| <= |s| && s[|s| - |p|..] == p
  }

  /** `s.includes(p)` / `p in s`. */
  predicate Contains(s: string, p: string)
    decreases |s|
  {
    StartsWith(s, p) || (|s| > 0 && Contains(s[1..], p))
  }

  lemma ContainsAt(s: string, p: string, i: nat)
    requires i + |p| <= |s| && s[i..i + |p|] == p
    ensures Contains(s, p)
    decreases i
  {
    if i > 0 {
      assert s[1..][i - 1..i - 1 + |p|] == p;
      ContainsAt(s[1..], p, i - 1);
    }
  }

  lemma {:induction false} ContainsWitness(s: string, p: string) returns (i: nat)
    requires Contains(s, p)
    ensures i + |p| <= |s| && s[i..i + |p|] == p
    decreases |s|
  {
    if StartsWith(s, p) {
      i := 0;
    } else {
      var j := ContainsWitness(s[1..], p);
      i := j + 1;
      assert s[i..i + |p|] == s[1..][j..j + |p|];
    }
  }

  /** A string without a character `c` contains no pattern holding `c`. */
  lemma NotContainsChar(s: string, p: string, k: nat)
    requires k < |p| && forall i :: 0 <= i < |s| ==> s[i] != p[k]
    ensures !Contains(s, p)
  {
    if Contains(s, p) {
      var i := ContainsWitness(s, p);
    }
  }

  // ---------------------------------------------------------------------------
  // Separator-delimited segments

  /** The text after the last character satisfying `isSep`: the element that
      `split(sep).pop()` returns. */
  function LastSegment(s: string, isSep: char -> bool): (r: string)
    ensures |r| <= |s| && r == s[|s| - |r|..]
    ensures forall i :: 0 <= i < |r| ==> !isSep(r[i])
    ensures |r| < |s| ==> isSep(s[|s| - |r| - 1])
    decreases |s|
  {
    if s == [] then []
    else if isSep(s[|s| - 1]) then []
    else LastSegment(s[..|s| - 1], isSep) + [s[|s| - 1]]
  }

  predicate IsSlash(c: char) { c == '/' }

  /** `s.split('/').pop()`. */
  function AfterLastSlash(s: string): (r: string)
    ensures r == LastSegment(s, IsSlash)
  {
    LastSegment(s, IsSlash)
  }

  /** The last segment is the unique suffix that is free of separators and is
      either the whole string or preceded by a separator. */
  lemma {:induction false} LastSegmentUnique(s: string, isSep: char -> bool, t: string)
    requires |t| <= |s| && t == s[|s| - |t|..]
    requires forall i :: 0 <= i < |t| ==> !isSep(t[i])
    requires |t| < |s| ==> isSep(s[|s| - |t| - 1])
    ensures t == LastSegment(s, isSep)
  {
    var r := LastSegment(s, isSep);
    SegmentNotLonger(s, isSep, t, r);
    SegmentNotLonger(s, isSep, r, t);
  }

  /** Of two separator-free suffixes, one preceded by a separator or the
      whole text, that one is not the shorter: the separator would lie
      inside the other. */
  lemma SegmentNotLonger(s: string, isSep: char -> bool, t: string, u: string)
    requires |t| <= |s| && t == s[|s| - |t|..]
    requires |t| < |s| ==> isSep(s[|s| - |t| - 1])
    requires |u| <= |s| && u == s[|s| - |u|..]
    requires forall i :: 0 <= i < |u| ==> !isSep(u[i])
    ensures |u| <= |t|
  {
  }

  lemma LastSegmentNoSep(s: string, isSep: char -> bool)
    requires forall i :: 0 <= i < |s| ==> !isSep(s[i])
    ensures LastSegment(s, isSep) == s
  {
    LastSegmentUnique(s, isSep, s);
  }

  // ---------------------------------------------------------------------------
  // Replacement and stripping

  /** Every character satisfying `pick` replaced by `repl`. */
  function ReplaceWhere(s: string, pick: char -> bool, repl: char): (r: string)
    ensures |r| == |s|
    ensures forall i :: 0 <= i < |s| ==> r[i] == (if pick(s[i]) then repl else s[i])
  {
    if s == [] then [] else [if pick(s[0]) then repl else s[0]] + ReplaceWhere(s[1..], pick, repl)
  }

  function StripLeft(s: string): (r: string)
    ensures |r| <= |s| && r == s[|s| - |r|..]
    ensures r == [] || !IsSpace(r[0])
    ensures forall i :: 0 <= i < |s| - |r| ==> IsSpace(s[i])
  {
    if s != [] && IsSpace(s[0]) then StripLeft(s[1..]) else s
  }

  function StripRight(s: string): (r: string)
    ensures |r| <= |s| && r == s[..|r|]
    ensures r == [] || !IsSpace(r[|r| - 1])
    ensures forall i :: |r| <= i < |s| ==> IsSpace(s[i])
  {
    if s != [] && IsSpace(s[|s| - 1]) then StripRight(s[..|s| - 1]) else s
  }

  /** Python `str.strip()` with no argument. */
  function Strip(s: string): (r: string)
    ensures |r| <= |s|
    ensures r == [] || (!IsSpace(r[0]) && !IsSpace(r[|r| - 1]))
    ensures (s == [] || (!IsSpace(s[0]) && !IsSpace(s[|s| - 1]))) ==> r == s
  {
    StripRight(StripLeft(s))
  }

  // ---------------------------------------------------------------------------
  // Whitespace split and join

  /** The characters before the first whitespace character. */
  function Word(s: string): (r: string)
    ensures |r| <= |s| && r == s[..|r|]
    ensures forall i :: 0 <= i < |r| ==> !IsSpace(s[i])
    ensures |r| < |s| ==> IsSpace(s[|r|])
  {
    if s == [] || IsSpace(s[0]) then [] else [s[0]] + Word(s[1..])
  }

  predicate IsToken(t: string) {
    t != [] && forall i :: 0 <= i < |t| ==> !IsSpace(t[i])
  }

  /** Python `str.split()` with no argument: maximal runs of non-whitespace. */
  function SplitWords(s: string): seq<string>
    decreases |s|
  {
    var t := StripLeft(s);
    if t == [] then []
    else
      var w := Word(t);
      [w] + SplitWords(t[|w|..])
  }

  /** Every piece of a split is a word. */
  lemma {:induction false} SplitWordsTokens(s: string)
    ensures forall k :: 0 <= k < |SplitWords(s)| ==> IsToken(SplitWords(s)[k])
    decreases |s|
  {
    var t := StripLeft(s);
    if t != [] {
      var w := Word(t);
      WordIsToken(t);
      var rest := SplitWords(t[|w|..]);
      SplitWordsTokens(t[|w|..]);
      var r := [w] + rest;
      assert SplitWords(s) == r;
      forall k | 0 <= k < |r|
        ensures IsToken(r[k])
      {
        if k > 0 {
          assert r[k] == rest[k - 1];
        }
      }
    }
  }

  /** The first word of a text that starts with a non-space is a word. */
  lemma WordIsToken(t: string)
    requires t != [] && !IsSpace(t[0])
    ensures IsToken(Word(t))
  {
    var w := Word(t);
    assert |w| > 0;
    assert forall i :: 0 <= i < |w| ==> w[i] == t[i];
  }

  /** `sep.join(parts)`. */
  function Join(sep: string, parts: seq<string>): (r: string)
    ensures parts == [] ==> r == []
    ensures |parts| == 1 ==> r == parts[0]
  {
    if parts == [] then []
    else if |parts| == 1 then parts[0]
    else parts[0] + sep + Join(sep, parts[1..])
  }

  lemma JoinNoSpace(sep: string, parts: seq<string>)
    requires forall i :: 0 <= i < |sep| ==> !IsSpace(sep[i])
    requires forall k :: 0 <= k < |parts| ==> IsToken(parts[k])
    ensures forall i :: 0 <= i < |Join(sep, parts)| ==> !IsSpace(Join(sep, parts)[i])
  {
    if |parts| > 1 {
      JoinNoSpace(sep, parts[1..]);
    }
  }

  lemma WordOfToken(t: string, rest: string)
    requires IsToken(t)
    requires rest == [] || IsSpace(rest[0])
    ensures Word(t + rest) == t
  {
    if |t| > 1 {
      assert (t + rest)[1..] == t[1..] + rest;
      WordOfToken(t[1..], rest);
    } else {
      assert (t + rest)[1..] == rest;
    }
  }

  /** Splitting words that were joined with a single space gives the words back. */
  lemma {:induction false} SplitJoinRoundTrip(parts: seq<string>)
    requires forall k :: 0 <= k < |parts| ==> IsToken(parts[k])
    ensures SplitWords(Join(" ", parts)) == parts
  {
    if parts == [] {
    } else if |parts| == 1 {
      SplitToken(parts[0]);
    } else {
      var head, tail := parts[0], parts[1..];
      assert forall k :: 0 <= k < |tail| ==> tail[k] == parts[k + 1];
      SplitJoinRoundTrip(tail);
      var rest := Join(" ", tail);
      assert Join(" ", parts) == head + " " + rest;
      SplitAfterToken(head, rest);
      assert SplitWords(Join(" ", parts)) == [head] + tail;
      assert parts == [head] + tail;
    }
  }

  /** A single word splits into itself. */
  lemma SplitToken(t: string)
    requires IsToken(t)
    ensures SplitWords(t) == [t]
  {
    assert StripLeft(t) == t;
    WordOfToken(t, []);
    assert t + [] == t;
    assert t[|t|..] == [];
  }

  /** A word followed by one space splits off as the first word. */
  lemma SplitAfterToken(t: string, rest: string)
    requires IsToken(t)
    ensures SplitWords(t + " " + rest) == [t] + SplitWords(rest)
  {
    assert t + " " + rest == t + (" " + rest);
    SplitTokenFirst(t, " " + rest);
    SplitSpaceFirst(rest);
  }

  lemma SplitTokenFirst(t: string, tail: string)
    requires IsToken(t) && tail != [] && IsSpace(tail[0])
    ensures SplitWords(t + tail) == [t] + SplitWords(tail)
  {
    var s := t + tail;
    assert s[0] == t[0];
    assert StripLeft(s) == s;
    WordOfToken(t, tail);
    assert s[|t|..] == tail;
  }

  lemma SplitSpaceFirst(rest: string)
    ensures SplitWords(" " + rest) == SplitWords(rest)
  {
    var s := " " + rest;
    assert s[1..] == rest;
    assert StripLeft(s) == StripLeft(rest);
  }

  // ---------------------------------------------------------------------------
  // Decimal numerals

  function DigitChar(d: nat): (c: char)
    requires d < 10
    ensures IsDigit(c)
  {
    ('0' as int + d) as char
  }

  /** The decimal numeral of `n`, as `str(n)` / `String(n)` print it. */
  function NatToString(n: nat): (r: string)
    ensures r != []
    ensures forall i :: 0 <= i < |r| ==> IsDigit(r[i])
  {
    if n < 10 then [DigitChar(n)] else NatToString(n / 10) + [DigitChar(n % 10)]
  }

  function IntToString(i: int): (r: string)
    ensures r != []
  {
    if i < 0 then "-" + NatToString(-i) else NatToString(i)
  }

  predicate AllDigits(s: string) {
    forall i :: 0 <= i < |s| ==> IsDigit(s[i])
  }

  /** The value of a string of decimal digits (Python `int` on such a string). */
  function DigitsValue(s: string): (r: nat)
    requires AllDigits(s)
  {
    if s == [] then 0 else DigitsValue(s[..|s| - 1]) * 10 + (s[|s| - 1] as int - '0' as int)
  }

  /** Reading back a printed numeral gives the number. */
  lemma {:induction false} NatToStringRoundTrip(n: nat)
    ensures DigitsValue(NatToString(n)) == n
  {
    if n >= 10 {
      var s := NatToString(n);
      assert s[..|s| - 1] == NatToString(n / 10);
      NatToStringRoundTrip(n / 10);
    }
  }
}

=== FILE: batch_dashboard.dfy ===
/** The metrics of the batch results dashboard
    (02_frontend/src/components/dashboard/ResultsDashboard.tsx lines 25-69
    and 199): the records kept, the average level of detail, the category
    tally and its six largest entries, and the share of each. */
module BatchDashboard {
  import opened Wrappers
  import opened AsciiText
  import opened Json

  // ---------------------------------------------------------------------------
  // Records (lines 25-27)

  /** `!!r && typeof r === 'object'`: objects and arrays. */
  predicate IsRecord(v: Json) {
    v.Obj? || v.Arr?
  }

  /** `safeResults`: nothing unless the input is an array, otherwise its
      records in order. */
  function SafeResults(results: Json): (r: seq<Json>)
    ensures !results.Arr? ==> r == []
    ensures results.Arr? ==> forall v :: v in r <==> v in results.items && IsRecord(v)
    ensures results.Arr? ==> |r| <= |results.items|
  {
    if results.Arr? then Records(results.items) else []
  }

  function Records(items: seq<Json>): (r: seq<Json>)
    ensures forall v :: v in r <==> v in items && IsRecord(v)
    ensures |r| <= |items|
  {
    if items == [] then []
    else (if IsRecord(items[0]) then [items[0]] else []) + Records(items[1..])
  }

  /** Filtering keeps order: it distributes over concatenation. */
  lemma {:induction false} RecordsAppend(a: seq<Json>, b: seq<Json>)
    ensures Records(a + b) == Records(a) + Records(b)
  {
    if a != [] {
      assert (a + b)[1..] == a[1..] + b;
      RecordsAppend(a[1..], b);
    } else {
      assert a + b == b;
    }
  }

  // ---------------------------------------------------------------------------
  // Level of detail (lines 37-54)

  /** `String(r.lod || r.lod_label || '').toLowerCase()`. */
  function LodText(r: Json): string {
    Lower(JsString(JsOr(JsOr(JsGet(r, "lod"), JsGet(r, "lod_label")), Some(Str("")))))
  }

  /** The first rule whose text occurs in `l`; 0 when none does. */
  function LodScore(l: string): (v: nat)
    ensures v in {0, 100, 200, 300, 350, 400}
    ensures v == 0 <==> (!Contains(l, "100") && !Contains(l, "low") && !Contains(l, "200") &&
      !Contains(l, "medium") && !Contains(l, "300") && !Contains(l, "350") && !Contains(l, "400") && !Contains(l, "high"))
    ensures Contains(l, "100") || Contains(l, "low") ==> v == 100
  {
    if Contains(l, "100") || Contains(l, "low") then 100
    else if Contains(l, "200") || Contains(l, "medium") then 200
    else if Contains(l, "300") then 300
    else if Contains(l, "350") then 350
    else if Contains(l, "400") || Contains(l, "high") then 400
    else 0
  }

  /** Rules are tried in order, so "medium-high" scores as medium and a text
      holding "low" wins over everything else. */
  lemma FirstRuleWins()
    ensures LodScore("medium-high") == 200
    ensures LodScore("low / high") == 100
  {
    MediumBeforeHigh();
    LowBeforeHigh();
  }

  lemma LowBeforeHigh()
    ensures LodScore("low / high") == 100
  {
    ContainsAt("low / high", "low", 0);
  }

  lemma MediumBeforeHigh()
    ensures LodScore("medium-high") == 200
  {
    var t := "medium-high";
    ContainsAt(t, "medium", 0);
    assert forall i :: 0 <= i < |t| ==> t[i] != '1' && t[i] != 'o';
    NotContainsChar(t, "100", 0);
    NotContainsChar(t, "low", 1);
  }

  /** The scored records' sum and count. */
  function LodTotals(records: seq<Json>): (t: (nat, nat))
    ensures 100 * t.1 <= t.0 <= 400 * t.1
    ensures t.1 <= |records|
    ensures records == [] ==> t == (0, 0)
    decreases |records|
  {
    if records == [] then (0, 0)
    else
      var n := |records| - 1;
      var t := LodTotals(records[..n]);
      AddScore(t, LodScore(LodText(records[n])))
  }

  /** A positive score joins the sum and the count; 0 leaves them alone. */
  function AddScore(t: (nat, nat), v: nat): (nat, nat) {
    if v > 0 then (t.0 + v, t.1 + 1) else t
  }

  /** A record adds its score to the running totals when it has one, and is
      skipped otherwise; with the empty case this fixes the totals. */
  lemma {:induction false} LodTotalsAppend(records: seq<Json>, x: Json)
    ensures LodTotals(records + [x]) ==
      (if LodScore(LodText(x)) > 0
       then (LodTotals(records).0 + LodScore(LodText(x)), LodTotals(records).1 + 1)
       else LodTotals(records))
  {
    LodTotalsLast(records + [x], records, x);
  }

  lemma LodTotalsLast(all: seq<Json>, records: seq<Json>, x: Json)
    requires all == records + [x]
    ensures LodTotals(all) == AddScore(LodTotals(records), LodScore(LodText(x)))
  {
    SplitLast(all, records, x);
  }

  lemma SplitLast(all: seq<Json>, records: seq<Json>, x: Json)
    requires all == records + [x]
    ensures all[..|all| - 1] == records && all[|all| - 1] == x
  {
  }

  /** `Math.round(sum / count)`, halves rounded up, for positive counts;
      0 when no record was scored. */
  function AverageLod(records: seq<Json>): (avg: nat)
    ensures LodTotals(records).1 > 0 ==> RoundsTo(LodTotals(records).0, LodTotals(records).1, avg)
    ensures LodTotals(records).1 == 0 ==> avg == 0
  {
    var t := LodTotals(records);
    if t.1 > 0 then
      RoundHalfUp(t.0, t.1);
      (2 * t.0 + t.1) / (2 * t.1)
    else 0
  }

  /** The average is the rounded mean of the scored records and nothing else. */
  lemma AverageLodIsRounded(records: seq<Json>, q: int)
    requires LodTotals(records).1 > 0
    requires RoundsTo(LodTotals(records).0, LodTotals(records).1, q)
    ensures AverageLod(records) == q
  {
    var t := LodTotals(records);
    RoundsToUnique(t.0, t.1, AverageLod(records), q);
  }

  /** The average lies between the lowest and the highest score whenever a
      record was scored, and is 0 exactly when none was. */
  lemma AverageLodBounds(records: seq<Json>)
    ensures LodTotals(records).1 > 0 ==> 100 <= AverageLod(records) <= 400
    ensures LodTotals(records).1 == 0 ==> AverageLod(records) == 0
  {
    var t := LodTotals(records);
    if t.1 > 0 {
      RoundedBetween(t.0, t.1);
    }
  }

  /** Rounding the mean of scores between 100 and 400 stays between them. */
  lemma RoundedBetween(sum: nat, count: nat)
    requires count > 0 && 100 * count <= sum <= 400 * count
    ensures 100 <= (2 * sum + count) / (2 * count) <= 400
  {
    assert 100 * (2 * count) == 200 * count;
    assert (400 + 1) * (2 * count) == 802 * count;
    DivBetween(2 * sum + count, 2 * count, 100, 400);
  }

  /** `q` is `Math.round(num / den)`: the integer nearest the quotient, a
      half rounded up, i.e. `q - 1/2 <= num / den < q + 1/2`. */
  predicate RoundsTo(num: int, den: int, q: int) {
    den * (2 * q - 1) <= 2 * num < den * (2 * q + 1)
  }

  /** Integer division of `2·num + den` by `2·den` rounds `num / den` half up. */
  lemma RoundHalfUp(num: nat, den: nat)
    requires den > 0
    ensures RoundsTo(num, den, (2 * num + den) / (2 * den))
  {
    var a, b := 2 * num + den, 2 * den;
    var q := a / b;
    assert a == q * b + a % b && 0 <= a % b < b;
    assert den * (2 * q - 1) == q * b - den;
    assert den * (2 * q + 1) == q * b + den;
  }

  /** A quotient rounds to one integer only, so `RoundsTo` pins the value down. */
  lemma RoundsToUnique(num: int, den: int, q1: int, q2: int)
    requires den > 0 && RoundsTo(num, den, q1) && RoundsTo(num, den, q2)
    ensures q1 == q2
  {
    MulLe(2 * q1 + 1, 2 * q2 - 1, den);
    MulLe(2 * q2 + 1, 2 * q1 - 1, den);
  }

  /** `lo <= a / b <= hi` from `lo * b <= a < (hi + 1) * b`. */
  lemma DivBetween(a: int, b: int, lo: int, hi: int)
    requires b > 0 && lo * b <= a < (hi + 1) * b
    ensures lo <= a / b <= hi
  {
    var q := a / b;
    assert a == q * b + a % b && 0 <= a % b < b;
    MulLe(q, lo - 1, b);
    MulLe(hi + 1, q, b);
  }

  lemma MulLe(x: int, y: int, b: int)
    requires b > 0
    ensures x <= y ==> x * b <= y * b
  {
  }

  // ---------------------------------------------------------------------------
  // Category tally (lines 57-61)

  /** `r.final_category || r.category || 'Uncategorized'` as a property key. */
  function CategoryKey(r: Json): string {
    JsString(JsOr(JsOr(JsGet(r, "final_category"), JsGet(r, "category")), Some(Str("Uncategorized"))))
  }

  /** How often `k` occurs in `keys`. */
  function Occ(keys: seq<string>, k: string): nat
    decreases |keys|
  {
    if keys == [] then 0 else Occ(keys[..|keys| - 1], k) + (if keys[|keys| - 1] == k then 1 else 0)
  }

  /** The count stored for `k`; 0 when absent. */
  function CountOf(es: seq<(string, nat)>, k: string): nat {
    if es == [] then 0 else if es[0].0 == k then es[0].1 else CountOf(es[1..], k)
  }

  function SumCounts(es: seq<(string, nat)>): nat {
    if es == [] then 0 else es[0].1 + SumCounts(es[1..])
  }

  predicate HasKey(es: seq<(string, nat)>, k: string) {
    exists p :: 0 <= p < |es| && es[p].0 == k
  }

  predicate DistinctKeys(es: seq<(string, nat)>) {
    forall a, b :: 0 <= a < b < |es| ==> es[a].0 != es[b].0
  }

  /** `catCounts[c] = (catCounts[c] || 0) + 1`: increment in place, or add
      the key at the end with count 1. */
  function Bump(es: seq<(string, nat)>, k: string): (r: seq<(string, nat)>)
    requires DistinctKeys(es)
    ensures DistinctKeys(r)
    ensures SumCounts(r) == SumCounts(es) + 1
    ensures CountOf(r, k) == CountOf(es, k) + 1
    ensures forall j :: j != k ==> CountOf(r, j) == CountOf(es, j)
    ensures forall j :: HasKey(r, j) <==> j == k || HasKey(es, j)
    ensures (forall p :: 0 <= p < |es| ==> es[p].1 >= 1) ==> forall p :: 0 <= p < |r| ==> r[p].1 >= 1
  {
    if es == [] then [(k, 1)]
    else if es[0].0 == k then
      var r := [(k, es[0].1 + 1)] + es[1..];
      BumpHeadFacts(es, k, r);
      r
    else
      var t := Bump(es[1..], k);
      var r := [es[0]] + t;
      BumpConsFacts(es, t, k, r);
      r
  }

  lemma BumpConsFacts(es: seq<(string, nat)>, t: seq<(string, nat)>, k: string, r: seq<(string, nat)>)
    requires DistinctKeys(es) && es != [] && es[0].0 != k && r == [es[0]] + t
    requires DistinctKeys(t)
    requires forall j :: HasKey(t, j) <==> j == k || HasKey(es[1..], j)
    ensures DistinctKeys(r)
    ensures forall j :: HasKey(r, j) <==> j == k || HasKey(es, j)
  {
    forall j
      ensures HasKey(es, j) <==> j == es[0].0 || HasKey(es[1..], j)
      ensures HasKey(r, j) <==> j == es[0].0 || HasKey(t, j)
    {
      if j == es[0].0 {
        assert r[0].0 == j;
      }
      if HasKey(es, j) {
        var p :| 0 <= p < |es| && es[p].0 == j;
        if p > 0 {
          assert es[1..][p - 1].0 == j;
        }
      }
      if HasKey(es[1..], j) {
        var p :| 0 <= p < |es[1..]| && es[1..][p].0 == j;
        assert es[p + 1].0 == j;
      }
      if HasKey(r, j) {
        var p :| 0 <= p < |r| && r[p].0 == j;
        if p > 0 {
          assert t[p - 1].0 == j;
        }
      }
      if HasKey(t, j) {
        var p :| 0 <= p < |t| && t[p].0 == j;
        assert r[p + 1].0 == j;
      }
    }
    forall a, b | 0 <= a < b < |r|
      ensures r[a].0 != r[b].0
    {
      if a == 0 {
        assert HasKey(t, r[b].0) by {
          assert t[b - 1].0 == r[b].0;
        }
        if r[b].0 != k {
          var p :| 0 <= p < |es[1..]| && es[1..][p].0 == r[b].0;
          assert es[p + 1].0 == r[b].0;
        }
      } else {
        assert r[a] == t[a - 1] && r[b] == t[b - 1];
      }
    }
  }

  /** In a list with distinct keys, the head's key is absent from the tail. */
  lemma BumpHeadFacts(es: seq<(string, nat)>, k: string, r: seq<(string, nat)>)
    requires DistinctKeys(es) && es != [] && es[0].0 == k && r == [(k, es[0].1 + 1)] + es[1..]
    ensures DistinctKeys(r) && CountOf(r, k) == CountOf(es, k) + 1
    ensures forall j :: j != k ==> CountOf(r, j) == CountOf(es, j)
    ensures forall j :: HasKey(r, j) <==> j == k || HasKey(es, j)
  {
    NotInTail(es, k);
    assert r[1..] == es[1..];
    assert forall p :: 0 <= p < |r| ==> r[p].0 == es[p].0;
  }

  lemma NotInTail(es: seq<(string, nat)>, k: string)
    requires DistinctKeys(es) && es != [] && es[0].0 == k
    ensures CountOf(es[1..], k) == 0
    ensures forall p :: 0 <= p < |es[1..]| ==> es[1..][p].0 != k
  {
    AbsentCountZero(es[1..], k);
  }

  lemma AbsentCountZero(es: seq<(string, nat)>, k: string)
    requires forall p :: 0 <= p < |es| ==> es[p].0 != k
    ensures CountOf(es, k) == 0
  {
  }

  /** `catCounts` as the list `Object.entries` reads it. */
  function Tally(keys: seq<string>): (es: seq<(string, nat)>)
    ensures DistinctKeys(es)
    ensures SumCounts(es) == |keys|
    ensures forall k :: CountOf(es, k) == Occ(keys, k)
    ensures forall p :: 0 <= p < |es| ==> es[p].1 >= 1
    decreases |keys|
  {
    if keys == [] then []
    else
      var n := |keys| - 1;
      var t := Tally(keys[..n]);
      Bump(t, keys[n])
  }

  /** The category of each record. */
  function CategoryKeys(records: seq<Json>): (keys: seq<string>)
    ensures |keys| == |records| && forall k :: 0 <= k < |records| ==> keys[k] == CategoryKey(records[k])
  {
    seq(|records|, k requires 0 <= k < |records| => CategoryKey(records[k]))
  }

  /** The tally counts every record exactly once: its counts add up to the
      number of records. */
  lemma TallyCoversRecords(records: seq<Json>)
    ensures SumCounts(Tally(CategoryKeys(records))) == |records|
  {
  }

  // ---------------------------------------------------------------------------
  // The six largest categories (lines 64-66)

  predicate NonIncreasing(es: seq<(string, nat)>) {
    forall a, b :: 0 <= a < b < |es| ==> es[a].1 >= es[b].1
  }

  /** One step of a stable sort on descending counts: `x` goes after every
      entry whose count is at least its own. */
  function InsertDesc(x: (string, nat), es: seq<(string, nat)>): (r: seq<(string, nat)>)
    requires NonIncreasing(es)
    ensures NonIncreasing(r)
    ensures |r| == |es| + 1
    ensures r[0] == if es != [] && es[0].1 >= x.1 then es[0] else x
  {
    if es == [] then [x]
    else if es[0].1 >= x.1 then
      var t := InsertDesc(x, es[1..]);
      assert t[0].1 <= es[0].1;
      var r := [es[0]] + t;
      assert forall b :: 1 <= b < |r| ==> r[b] == t[b - 1];
      r
    else
      [x] + es
  }

  /** Inserting adds `x` and loses nothing. */
  lemma {:induction false} InsertDescPerm(x: (string, nat), es: seq<(string, nat)>)
    requires NonIncreasing(es)
    ensures multiset(InsertDesc(x, es)) == multiset(es) + multiset{x}
  {
    if es != [] && es[0].1 >= x.1 {
      InsertDescPerm(x, es[1..]);
      assert es == [es[0]] + es[1..];
      assert InsertDesc(x, es) == [es[0]] + InsertDesc(x, es[1..]);
    }
  }

  function SortDesc(es: seq<(string, nat)>): (r: seq<(string, nat)>)
    ensures NonIncreasing(r)
    ensures multiset(r) == multiset(es)
    ensures |r| == |es|
    decreases |es|
  {
    if es == [] then []
    else
      var n := |es| - 1;
      assert es == es[..n] + [es[n]];
      InsertDescPerm(es[n], SortDesc(es[..n]));
      InsertDesc(es[n], SortDesc(es[..n]))
  }

  const TOP_CATEGORIES: nat := 6

  /** The first six entries of the tally sorted on descending counts. */
  function TopOf(es: seq<(string, nat)>): (top: seq<(string, nat)>)
    ensures |top| <= TOP_CATEGORIES
    ensures |top| == if |es| < TOP_CATEGORIES then |es| else TOP_CATEGORIES
    ensures NonIncreasing(top)
    ensures forall p :: 0 <= p < |top| ==> top[p] in es
  {
    var sorted := SortDesc(es);
    var cut := if |sorted| < TOP_CATEGORIES then |sorted| else TOP_CATEGORIES;
    PermutedMembers(sorted, es);
    var top := sorted[..cut];
    assert forall p :: 0 <= p < |top| ==> top[p] == sorted[p];
    top
  }

  /** Two orderings of the same entries hold the same members. */
  lemma PermutedMembers(a: seq<(string, nat)>, b: seq<(string, nat)>)
    requires multiset(a) == multiset(b)
    ensures forall p :: 0 <= p < |a| ==> a[p] in b
  {
    forall p | 0 <= p < |a|
      ensures a[p] in b
    {
      assert a[p] in multiset(a);
    }
  }

  /** `sortedCats`: at most six entries of the category tally, the largest
      counts, in non-increasing order. */
  function TopCategories(records: seq<Json>): (top: seq<(string, nat)>)
    ensures |top| <= TOP_CATEGORIES
    ensures NonIncreasing(top)
    ensures forall p :: 0 <= p < |top| ==> top[p] in Tally(CategoryKeys(records))
  {
    TopOf(Tally(CategoryKeys(records)))
  }

  /** No category left out of the six has a larger count than one shown:
      the cut keeps the largest. */
  lemma TopAreLargest(es: seq<(string, nat)>, p: nat, q: nat)
    requires p < TOP_CATEGORIES <= q < |SortDesc(es)|
    ensures SortDesc(es)[p].1 >= SortDesc(es)[q].1
  {
  }

  // ---------------------------------------------------------------------------
  // Shares (line 199)

  /** `Math.round(count / total * 100)`, taking the quotient as exact; 0 for
      an empty batch. */
  function Percentage(count: nat, total: nat): (pct: nat)
    requires count <= total
    ensures total > 0 ==> RoundsTo(100 * count, total, pct)
    ensures pct <= 100
    ensures total > 0 && count == total ==> pct == 100
    ensures count == 0 ==> pct == 0
  {
    if total > 0 then
      var a := 200 * count + total;
      var b := 2 * total;
      RoundHalfUp(100 * count, total);
      assert 0 * b <= a < 101 * b;
      DivBetween(a, b, 0, 100);
      if count == total then
        assert 100 * b <= a < 101 * b;
        DivBetween(a, b, 100, 100);
        a / b
      else if count == 0 then
        assert 0 * b <= a < 1 * b;
        DivBetween(a, b, 0, 0);
        a / b
      else a / b
    else 0
  }

  /** The share is the rounded percentage and nothing else. */
  lemma PercentageIsRounded(count: nat, total: nat, q: int)
    requires count <= total && total > 0 && RoundsTo(100 * count, total, q)
    ensures Percentage(count, total) == q
  {
    RoundsToUnique(100 * count, total, Percentage(count, total), q);
  }

  /** Every tallied count fits within the total, so every share is a
      percentage. */
  lemma CountWithinTotal(es: seq<(string, nat)>, p: nat)
    requires p < |es|
    ensures es[p].1 <= SumCounts(es)
  {
    if p > 0 {
      CountWithinTotal(es[1..], p - 1);
    }
  }
}

=== FILE: colors.dfy ===
/** `getCategoryColor` (02_frontend/src/lib/colors.ts): a 32-bit string hash
    picks one of thirty colours, memoised per category. */
module Colors {
  import opened Wrappers

  const TWO_32: int := 0x1_0000_0000
  const TWO_31: int := 0x8000_0000

  /** ToInt32 (section 7.1.6 of ECMA-262) on an integral number. */
  function ToInt32(x: int): (r: int)
    ensures -TWO_31 <= r < TWO_31
    ensures (x - r) % TWO_32 == 0
  {
    var m := x % TWO_32;
    if m >= TWO_31 then m - TWO_32 else m
  }

  /** ToInt32 is the identity on the 32-bit range, so applying it twice
      changes nothing. */
  lemma ToInt32Identity(x: int)
    requires -TWO_31 <= x < TWO_31
    ensures ToInt32(x) == x
  {
  }

  /** `h << 5` (section 13.9.1 of ECMA-262): both operand and result go through ToInt32. */
  function ShiftLeft5(h: int): (r: int)
    ensures -TWO_31 <= r < TWO_31
    ensures (r - ToInt32(h) * 32) % TWO_32 == 0
  {
    ToInt32(ToInt32(h) * 32)
  }

  /** The hash after the characters of `s`: per character c,
      `hash = c + ((hash << 5) - hash)`, in exact arithmetic. */
  function Hash(s: string): int
    decreases |s|
  {
    if s == [] then 0
    else
      var h := Hash(s[..|s| - 1]);
      (s[|s| - 1] as int) + (ShiftLeft5(h) - h)
  }

  /** The largest character code. */
  const MAX_CODE: int := 0x10FFFF

  /** Each character moves the hash by less than 2^31 + the largest code, so
      for any category shorter than a few million characters every value
      stays far below 2^53 and the double arithmetic of the source is exact. */
  lemma {:induction false} HashBound(s: string)
    ensures -|s| * (TWO_31 + MAX_CODE) <= Hash(s) <= |s| * (TWO_31 + MAX_CODE)
    decreases |s|
  {
    if s != [] {
      var t := s[..|s| - 1];
      HashBound(t);
      var h := Hash(t);
      var c := s[|s| - 1] as int;
      assert 0 <= c <= MAX_CODE;
      assert Hash(s) == c + ShiftLeft5(h) - h;
      assert -(|t| * (TWO_31 + MAX_CODE)) <= -h <= |t| * (TWO_31 + MAX_CODE);
      assert |s| * (TWO_31 + MAX_CODE) == |t| * (TWO_31 + MAX_CODE) + (TWO_31 + MAX_CODE);
    }
  }

  /** The loop of `getCategoryColor` that computes the hash. */
  method HashLoop(category: string) returns (hash: int)
    ensures hash == Hash(category)
  {
    hash := 0;
    var i := 0;
    while i < |category|
      invariant 0 <= i <= |category|
      invariant hash == Hash(category[..i])
    {
      assert category[..i + 1][..i] == category[..i];
      hash := (category[i] as int) + (ShiftLeft5(hash) - hash);
      i := i + 1;
    }
    assert category[..|category|] == category;
  }

  const Palette: seq<string> := [
    "#E63946", "#F4A261", "#2A9D8F", "#264653", "#A8DADC",
    "#D62828", "#F77F00", "#FCBF49", "#003049", "#FF9F1C",
    "#2EC4B6", "#FFBF69", "#FF99C8", "#9B5DE5", "#F15BB5",
    "#FEE440", "#00BBF9", "#00F5D4", "#4361EE", "#3A0CA3",
    "#7209B7", "#560BAD", "#480CA8", "#B5179E", "#F72585",
    "#4CC9F0", "#8338EC", "#FF006E", "#FB5607", "#3D5A40"
  ]

  const Fallback: string := "#E9E7E2"

  function Abs(x: int): nat { if x < 0 then -x else x }

  /** The colour of a category, computed afresh. */
  function ColorOf(category: Option<string>): (r: string)
    ensures category.None? || category.value == [] ==> r == Fallback
    ensures category.Some? && category.value != [] ==> r in Palette && r != Fallback
    ensures category.Some? && category.value != [] ==> r == Palette[Abs(Hash(category.value)) % |Palette|]
  {
    if category.None? || category.value == [] then Fallback
    else Palette[Abs(Hash(category.value)) % |Palette|]
  }

  /** A cache is sound when every stored colour is the one `ColorOf` computes. */
  predicate CacheSound(cache: map<string, string>) {
    forall k :: k in cache ==> cache[k] == ColorOf(Some(k))
  }

  /** `getCategoryColor` with the module-level cache made explicit: the colour
      returned and the cache afterwards. */
  function GetCategoryColor(cache: map<string, string>, category: Option<string>): (r: (string, map<string, string>))
    ensures category.None? || category.value == [] ==> r == (Fallback, cache)
    ensures category.Some? && category.value != [] ==>
      category.value in r.1 && r.0 == r.1[category.value] && cache.Keys <= r.1.Keys
  {
    if category.None? || category.value == [] then (Fallback, cache)
    else
      var c := category.value;
      var cache' := if c in cache then cache else cache[c := Palette[Abs(Hash(c)) % |Palette|]];
      (cache'[c], cache')
  }

  /** Caching never changes the answer: from a sound cache the colour is the
      freshly computed one and the cache stays sound. */
  lemma CachedColorIsPure(cache: map<string, string>, category: Option<string>)
    requires CacheSound(cache)
    ensures GetCategoryColor(cache, category).0 == ColorOf(category)
    ensures CacheSound(GetCategoryColor(cache, category).1)
  {
  }

  /** Asking twice gives the same colour, and the second ask leaves the cache alone. */
  lemma ColorStable(cache: map<string, string>, category: Option<string>)
    ensures var (c1, m1) := GetCategoryColor(cache, category);
      GetCategoryColor(m1, category) == (c1, m1)
  {
  }
}

=== FILE: config_loader.dfy ===
/** The configuration loader (04_config/config/loader.py): locating the
    repository root, coercing environment overrides and writing them into
    the nested configuration, and the process-wide cache of the result.
    The environment is a function from variable names to values, the file
    system a predicate telling which directories hold the marker file, and
    the parsed default configuration a function of the root. */
module ConfigLoader {
  import opened Wrappers
  import opened AsciiText
  import opened Json

  // ---------------------------------------------------------------------------
  // Coercing an override (lines 28-34)

  /** `lowered.isdigit()` or `-` followed by digits. */
  predicate IsNumeral(t: string) {
    (t != [] && AllDigits(t)) || (|t| >= 2 && t[0] == '-' && AllDigits(t[1..]))
  }

  function NumeralValue(t: string): int
    requires IsNumeral(t)
  {
    if t[0] == '-' then -(DigitsValue(t[1..]) as int) else DigitsValue(t)
  }

  /** `_coerce_env_value(value)`: a boolean for `true`/`false`, an integer for
      a numeral, both after trimming and lower-casing; any other value is
      kept as given, untrimmed. */
  function CoerceEnv(value: string): (r: Json)
    ensures r.Bool? <==> Lower(Strip(value)) == "true" || Lower(Strip(value)) == "false"
    ensures r.Bool? ==> (r.b <==> Lower(Strip(value)) == "true")
    ensures r.Int? <==> IsNumeral(Lower(Strip(value)))
    ensures r.Int? ==> r.i == NumeralValue(Lower(Strip(value)))
    ensures !r.Bool? && !r.Int? ==> r == Str(value)
  {
    var lowered := Lower(Strip(value));
    if lowered == "true" || lowered == "false" then
      WordNotNumeral(lowered);
      Bool(lowered == "true")
    else if IsNumeral(lowered) then Int(NumeralValue(lowered))
    else Str(value)
  }

  /** The boolean spellings start with a letter, so they are no numerals. */
  lemma WordNotNumeral(t: string)
    requires t == "true" || t == "false"
    ensures !IsNumeral(t)
  {
    assert t[0] == 't' || t[0] == 'f';
    assert !IsDigit(t[0]);
  }

  /** Text of digits and minus signs is left alone by trimming and
      lower-casing. */
  lemma PlainText(s: string)
    requires s != []
    requires forall k :: 0 <= k < |s| ==> IsDigit(s[k]) || s[k] == '-'
    ensures Lower(Strip(s)) == s
  {
    assert !IsSpace(s[0]) && !IsSpace(s[|s| - 1]);
    assert Strip(s) == s;
    var l := Lower(s);
    assert forall k :: 0 <= k < |s| ==> l[k] == LowerChar(s[k]) == s[k];
  }

  /** A numeral is already trimmed and lower-case, so it is read as its value. */
  lemma CoerceNumeral(s: string)
    requires IsNumeral(s)
    ensures CoerceEnv(s) == Int(NumeralValue(s))
  {
    if !AllDigits(s) {
      assert forall k :: 1 <= k < |s| ==> s[k] == s[1..][k - 1];
    }
    PlainText(s);
  }

  /** A printed integer comes back as that integer. */
  lemma {:induction false} CoerceIntRoundTrip(i: int)
    ensures CoerceEnv(IntToString(i)) == Int(i)
  {
    var n: nat := if i < 0 then -i else i;
    var digits := NatToString(n);
    NatToStringRoundTrip(n);
    var s := IntToString(i);
    if i < 0 {
      assert s == "-" + digits;
      assert s[1..] == digits;
      assert NumeralValue(s) == -(n as int);
    } else {
      assert s == digits;
    }
    CoerceNumeral(s);
  }

  /** The two spellings of a boolean, in any case and padding. */
  lemma CoerceBool(value: string, b: bool)
    requires Lower(Strip(value)) == (if b then "true" else "false")
    ensures CoerceEnv(value) == Bool(b)
  {
  }

  /** A lone minus sign, or nothing at all, is not a number. */
  lemma CoerceKeepsBareMinus(value: string)
    requires Lower(Strip(value)) == "-" || Lower(Strip(value)) == ""
    ensures CoerceEnv(value) == Str(value)
  {
  }

  // ---------------------------------------------------------------------------
  // Nested writes (lines 37-43)

  /** The value at `path` below `d`, when every step is an object. */
  function Resolve(d: PyDict, path: seq<string>): Option<Json>
    decreases |path|
  {
    if path == [] then Some(Obj(d))
    else if path[0] !in d then None
    else if |path| == 1 then Some(d[path[0]])
    else if d[path[0]].Obj? then Resolve(d[path[0]].fields, path[1..])
    else None
  }

  /** `_set_nested(data, key_path, value)`: missing or non-object
      intermediates become `{}`, and the last key takes the value. */
  function SetNested(d: PyDict, path: seq<string>, value: Json): (r: PyDict)
    requires path != []
    ensures r.Keys == d.Keys + {path[0]}
    ensures forall k :: k in d && k != path[0] ==> r[k] == d[k]
    ensures Resolve(r, path) == Some(value)
    decreases |path|
  {
    if |path| == 1 then d[path[0] := value]
    else
      var child := if path[0] in d && d[path[0]].Obj? then d[path[0]].fields else map[];
      d[path[0] := Obj(SetNested(child, path[1..], value))]
  }

  /** Neither path is a prefix of the other: they part at some step. */
  predicate Diverges(p: seq<string>, q: seq<string>) {
    exists j :: 0 <= j < |p| && j < |q| && p[..j] == q[..j] && p[j] != q[j]
  }

  /** A write leaves every path that parts from its own as it was. */
  lemma {:induction false} SetNestedElsewhere(d: PyDict, path: seq<string>, value: Json, q: seq<string>)
    requires path != [] && Diverges(q, path)
    ensures Resolve(SetNested(d, path, value), q) == Resolve(d, q)
    decreases |path|
  {
    var j :| 0 <= j < |q| && j < |path| && q[..j] == path[..j] && q[j] != path[j];
    if j > 0 {
      assert q[0] == q[..j][0] == path[..j][0] == path[0];
      var child := if path[0] in d && d[path[0]].Obj? then d[path[0]].fields else map[];
      assert Diverges(q[1..], path[1..]) by {
        assert q[1..][..j - 1] == q[..j][1..] == path[..j][1..] == path[1..][..j - 1];
        assert q[1..][j - 1] != path[1..][j - 1];
      }
      SetNestedElsewhere(child, path[1..], value, q[1..]);
      if !(path[0] in d && d[path[0]].Obj?) {
        assert Resolve(child, q[1..]) == None;
      }
    }
  }

  // ---------------------------------------------------------------------------
  // Environment overrides (lines 46-74)

  /** `os.getenv`: `None` when the variable is not set. */
  type Env = string -> Option<string>

  /** The overridable settings, in the order they are applied. */
  const EnvMap: seq<(string, seq<string>)> := [
    ("LOD_PATH_DATA_ROOT", ["paths", "data_root"]),
    ("LOD_PATH_VECTORS_DIR", ["paths", "vectors_dir"]),
    ("LOD_PATH_IMAGES_DIR", ["paths", "images_dir"]),
    ("LOD_PATH_CATEGORIES_JSON", ["paths", "categories_json"]),
    ("LOD_PATH_PIPELINE_OPTIMIZED", ["paths", "pipeline_optimized"]),
    ("LOD_PATH_PIPELINE_LEGACY", ["paths", "pipeline_legacy"]),
    ("LOD_PATH_DATA_TOOLS", ["paths", "data_tools"]),
    ("LOD_PATH_GRAPH_PREP", ["paths", "graph_prep"]),
    ("LOD_PATH_BACKEND_DIR", ["paths", "backend_dir"]),
    ("LOD_PATH_FRONTEND_DIR", ["paths", "frontend_dir"]),
    ("LOD_PATH_VENV_PYTHON_WINDOWS", ["paths", "venv_python_windows"]),
    ("LOD_MODEL_SIGLIP", ["models", "siglip"]),
    ("LOD_MODEL_BLIP2", ["models", "blip2"]),
    ("LOD_MODEL_RMBG", ["models", "rmbg"]),
    ("LOD_MODEL_GDINO", ["models", "gdino"]),
    ("LOD_MODEL_SAM", ["models", "sam"]),
    ("LOD_MODEL_SENTENCE_TRANSFORMER", ["models", "sentence_transformer"]),
    ("LOD_MODEL_OPENAI", ["models", "openai_model"])]

  predicate PathsNonEmpty(entries: seq<(string, seq<string>)>) {
    forall i :: 0 <= i < |entries| ==> entries[i].1 != []
  }

  /** One setting: when its variable is set, the coerced value is written
      at its path. */
  function Override(before: PyDict, setting: (string, seq<string>), env: Env): (r: PyDict)
    requires setting.1 != []
    ensures env(setting.0).None? ==> r == before
    ensures env(setting.0).Some? ==> Resolve(r, setting.1) == Some(CoerceEnv(env(setting.0).value))
  {
    match env(setting.0)
    case None => before
    case Some(v) => SetNested(before, setting.1, CoerceEnv(v))
  }

  /** The overrides of `entries` applied in order to `cfg`. Values are
      immutable here, so the deep copy the source takes first is implicit:
      the caller's configuration is never changed. */
  function ApplyEntries(cfg: PyDict, entries: seq<(string, seq<string>)>, env: Env): (r: PyDict)
    requires PathsNonEmpty(entries)
    decreases |entries|
  {
    if entries == [] then cfg
    else
      var n := |entries| - 1;
      assert forall i :: 0 <= i < n ==> entries[..n][i] == entries[i];
      Override(ApplyEntries(cfg, entries[..n], env), entries[n], env)
  }

  /** A setting leaves every path that parts from its own as it was. */
  lemma OverrideElsewhere(before: PyDict, setting: (string, seq<string>), env: Env, q: seq<string>)
    requires setting.1 != []
    requires env(setting.0).Some? ==> Diverges(q, setting.1)
    ensures Resolve(Override(before, setting, env), q) == Resolve(before, q)
  {
    if env(setting.0).Some? {
      SetNestedElsewhere(before, setting.1, CoerceEnv(env(setting.0).value), q);
    }
  }

  /** `_apply_env_overrides(cfg)`. */
  function ApplyEnvOverrides(cfg: PyDict, env: Env): (r: PyDict)
    ensures (forall i :: 0 <= i < |EnvMap| ==> env(EnvMap[i].0).None?) ==> r == cfg
  {
    EnvMapIndependent();
    UnsetChangesNothing(cfg, EnvMap, env);
    ApplyEntries(cfg, EnvMap, env)
  }

  /** With no variable set, the configuration comes back as it was. */
  lemma {:induction false} UnsetChangesNothing(cfg: PyDict, entries: seq<(string, seq<string>)>, env: Env)
    requires PathsNonEmpty(entries)
    ensures (forall i :: 0 <= i < |entries| ==> env(entries[i].0).None?) ==> ApplyEntries(cfg, entries, env) == cfg
    decreases |entries|
  {
    if entries != [] {
      var n := |entries| - 1;
      assert forall i :: 0 <= i < n ==> entries[..n][i] == entries[i];
      UnsetChangesNothing(cfg, entries[..n], env);
    }
  }

  /** A path that parts from the path of every variable that is set keeps
      its value. */
  lemma {:induction false} OverridesOnlySetPaths(cfg: PyDict, entries: seq<(string, seq<string>)>, env: Env, q: seq<string>)
    requires PathsNonEmpty(entries)
    requires forall i :: 0 <= i < |entries| && env(entries[i].0).Some? ==> Diverges(q, entries[i].1)
    ensures Resolve(ApplyEntries(cfg, entries, env), q) == Resolve(cfg, q)
    decreases |entries|
  {
    if entries != [] {
      var n := |entries| - 1;
      var prefix := entries[..n];
      assert forall i :: 0 <= i < n ==> prefix[i] == entries[i];
      OverridesOnlySetPaths(cfg, prefix, env, q);
      OverrideElsewhere(ApplyEntries(cfg, prefix, env), entries[n], env, q);
    }
  }

  /** Any two paths of `entries` part at some step. */
  predicate Independent(entries: seq<(string, seq<string>)>) {
    forall i, j :: 0 <= i < j < |entries| ==> PathsPart(entries, i, j)
  }

  predicate PathsPart(entries: seq<(string, seq<string>)>, i: nat, j: nat)
    requires i < |entries| && j < |entries|
  {
    Diverges(entries[i].1, entries[j].1)
  }

  lemma DivergesSymmetric(p: seq<string>, q: seq<string>)
    requires Diverges(p, q)
    ensures Diverges(q, p)
  {
    var j :| 0 <= j < |p| && j < |q| && p[..j] == q[..j] && p[j] != q[j];
  }

  /** With independent paths, a set variable's path holds its coerced value
      once all overrides are applied. */
  lemma {:induction false} OverrideLands(cfg: PyDict, entries: seq<(string, seq<string>)>, env: Env, i: nat)
    requires PathsNonEmpty(entries) && Independent(entries)
    requires i < |entries| && env(entries[i].0).Some?
    ensures Resolve(ApplyEntries(cfg, entries, env), entries[i].1) == Some(CoerceEnv(env(entries[i].0).value))
    decreases |entries|, 1
  {
    if i < |entries| - 1 {
      EarlierLands(cfg, entries, env, i);
    } else {
      LastLands(cfg, entries, env);
    }
  }

  /** The last setting's value is what its path holds at the end. */
  lemma LastLands(cfg: PyDict, entries: seq<(string, seq<string>)>, env: Env)
    requires PathsNonEmpty(entries) && entries != []
    requires env(entries[|entries| - 1].0).Some?
    ensures Resolve(ApplyEntries(cfg, entries, env), entries[|entries| - 1].1) ==
      Some(CoerceEnv(env(entries[|entries| - 1].0).value))
  {
    var n := |entries| - 1;
    var prefix := entries[..n];
    assert forall k :: 0 <= k < n ==> prefix[k] == entries[k];
    var before := ApplyEntries(cfg, prefix, env);
    assert ApplyEntries(cfg, entries, env) == Override(before, entries[n], env);
  }

  /** A setting before the last one: its value survives the last one. */
  lemma {:induction false} EarlierLands(cfg: PyDict, entries: seq<(string, seq<string>)>, env: Env, i: nat)
    requires PathsNonEmpty(entries) && Independent(entries)
    requires i < |entries| - 1 && env(entries[i].0).Some?
    ensures Resolve(ApplyEntries(cfg, entries, env), entries[i].1) == Some(CoerceEnv(env(entries[i].0).value))
    decreases |entries|, 0
  {
    var n := |entries| - 1;
    var prefix := entries[..n];
    PrefixKeeps(entries, n);
    assert prefix[i] == entries[i];
    OverrideLands(cfg, prefix, env, i);
    assert PathsPart(entries, i, n);
    LaterOverrideMisses(ApplyEntries(cfg, prefix, env), entries, env, i);
    ApplyEntriesLast(cfg, entries, env);
  }

  /** The last setting is applied on top of all the others. */
  lemma ApplyEntriesLast(cfg: PyDict, entries: seq<(string, seq<string>)>, env: Env)
    requires PathsNonEmpty(entries) && entries != []
    ensures PathsNonEmpty(entries[..|entries| - 1])
    ensures ApplyEntries(cfg, entries, env) ==
      Override(ApplyEntries(cfg, entries[..|entries| - 1], env), entries[|entries| - 1], env)
  {
  }

  /** The last setting does not disturb the path of an earlier one. */
  lemma LaterOverrideMisses(before: PyDict, entries: seq<(string, seq<string>)>, env: Env, i: nat)
    requires PathsNonEmpty(entries)
    requires i < |entries| - 1 && Diverges(entries[i].1, entries[|entries| - 1].1)
    ensures Resolve(Override(before, entries[|entries| - 1], env), entries[i].1) == Resolve(before, entries[i].1)
  {
    var n := |entries| - 1;
    if env(entries[n].0).Some? {
      DivergesSymmetric(entries[i].1, entries[n].1);
    }
    OverrideElsewhere(before, entries[n], env, entries[i].1);
  }

  /** A prefix of the settings keeps both properties. */
  lemma PrefixKeeps(entries: seq<(string, seq<string>)>, n: nat)
    requires n <= |entries|
    requires PathsNonEmpty(entries) && Independent(entries)
    ensures PathsNonEmpty(entries[..n]) && Independent(entries[..n])
  {
    var prefix := entries[..n];
    assert forall k :: 0 <= k < n ==> prefix[k] == entries[k];
    forall i, j | 0 <= i < j < n
      ensures PathsPart(prefix, i, j)
    {
      assert PathsPart(entries, i, j);
    }
  }

  /** Two-step paths with different sections or different keys part. */
  lemma PairDiverges(p: seq<string>, q: seq<string>)
    requires |p| == 2 && |q| == 2 && p != q
    ensures Diverges(p, q)
  {
    if p[0] != q[0] {
      assert p[..0] == q[..0];
    } else {
      assert p[..1] == q[..1];
    }
  }

  /** The settings' paths are two keys long and pairwise distinct. */
  lemma EnvMapPathsDistinct()
    ensures forall i :: 0 <= i < |EnvMap| ==> |EnvMap[i].1| == 2
    ensures forall i, j :: 0 <= i < j < |EnvMap| ==> EnvMap[i].1 != EnvMap[j].1
  {
  }

  lemma EnvMapIndependent()
    ensures PathsNonEmpty(EnvMap) && Independent(EnvMap)
  {
    EnvMapPathsDistinct();
    forall i, j | 0 <= i < j < |EnvMap|
      ensures PathsPart(EnvMap, i, j)
    {
      PairDiverges(EnvMap[i].1, EnvMap[j].1);
    }
  }

  /** Every set variable's setting holds its coerced value after
      `_apply_env_overrides`. */
  lemma EnvOverrideLands(cfg: PyDict, env: Env, i: nat)
    requires i < |EnvMap| && env(EnvMap[i].0).Some?
    ensures Resolve(ApplyEnvOverrides(cfg, env), EnvMap[i].1) == Some(CoerceEnv(env(EnvMap[i].0).value))
  {
    EnvMapIndependent();
    OverrideLands(cfg, EnvMap, env, i);
  }

  // ---------------------------------------------------------------------------
  // The repository root (lines 12-20)

  /** An absolute path as its components; the parent of the root is the
      root. */
  type Path = seq<string>

  function Parent(p: Path): Path {
    if p == [] then [] else p[..|p| - 1]
  }

  /** `p` is `current` or one of its ancestors. */
  predicate AncestorOf(p: Path, current: Path) {
    |p| <= |current| && current[..|p|] == p
  }

  /** The candidates `[current, *current.parents]` tried in order. */
  function FirstMarked(current: Path, marked: Path -> bool): (r: Option<Path>)
    ensures r.Some? ==> marked(r.value) && AncestorOf(r.value, current)
    ensures r.Some? ==> forall k :: |r.value| < k <= |current| ==> !marked(current[..k])
    ensures r.None? <==> forall k :: 0 <= k <= |current| ==> !marked(current[..k])
    decreases |current|
  {
    if marked(current) then
      assert current[..|current|] == current;
      Some(current)
    else if current == [] then
      assert current[..0] == current;
      None
    else
      var up := FirstMarked(Parent(current), marked);
      assert forall k :: 0 <= k <= |current| - 1 ==> Parent(current)[..k] == current[..k];
      assert current[..|current|] == current;
      up
  }

  /** `find_repo_root(start)`: the nearest directory, from the start path
      (its directory when it is a file) upwards, holding the marker file;
      a failure when none does. */
  function FindRepoRoot(start: Path, isFile: bool, marked: Path -> bool): (r: Result<Path, string>)
    ensures r.Success? ==> marked(r.value) && AncestorOf(r.value, if isFile then Parent(start) else start)
    ensures r.Failure? <==>
      var current := if isFile then Parent(start) else start;
      forall k :: 0 <= k <= |current| ==> !marked(current[..k])
  {
    var current := if isFile then Parent(start) else start;
    match FirstMarked(current, marked)
    case Some(p) => Success(p)
    case None => Failure("Could not locate repo root containing 04_config/config/default.yaml")
  }

  // ---------------------------------------------------------------------------
  // Loading with the cache (lines 77-87)

  function PathText(p: Path): string {
    if p == [] then "/" else JoinPath(p)
  }

  function JoinPath(p: Path): string {
    if p == [] then [] else JoinPath(p[..|p| - 1]) + "/" + p[|p| - 1]
  }

  /** What `load_config` may consult besides the cache. */
  datatype World = World(start: Path, isFile: bool, marked: Path -> bool, readDefault: Path -> PyDict, env: Env)

  /** `load_config(start_path)` with the module cache: the configuration
      and the cache afterwards. A failure leaves the cache empty. */
  function LoadConfig(cache: Option<PyDict>, w: World): (r: Result<(PyDict, Option<PyDict>), string>)
    ensures cache.Some? ==> r == Success((cache.value, cache))
    ensures r.Success? ==> r.value.1 == Some(r.value.0)
    ensures cache.None? && r.Success? ==> "repo_root" in r.value.0
    ensures cache.None? ==> (r.Failure? <==> FindRepoRoot(w.start, w.isFile, w.marked).Failure?)
  {
    if cache.Some? then Success((cache.value, cache))
    else
      match FindRepoRoot(w.start, w.isFile, w.marked)
      case Failure(e) => Failure(e)
      case Success(root) =>
        var cfg := ApplyEnvOverrides(w.readDefault(root), w.env)["repo_root" := Str(PathText(root))];
        Success((cfg, Some(cfg)))
  }

  /** Once a load succeeded, every later call returns the same object,
      whatever its start path or environment. */
  lemma CacheSticks(w1: World, w2: World)
    requires LoadConfig(None, w1).Success?
    ensures var first := LoadConfig(None, w1).value;
      LoadConfig(first.1, w2) == Success(first)
  {
  }

  /** A fresh load records the root it found and keeps every setting the
      environment does not override. */
  lemma FreshLoad(w: World, q: seq<string>)
    requires FindRepoRoot(w.start, w.isFile, w.marked).Success?
    requires q != [] && q[0] != "repo_root"
    requires forall i :: 0 <= i < |EnvMap| && w.env(EnvMap[i].0).Some? ==> Diverges(q, EnvMap[i].1)
    ensures var root := FindRepoRoot(w.start, w.isFile, w.marked).value;
      var cfg := LoadConfig(None, w).value.0;
      cfg["repo_root"] == Str(PathText(root)) &&
      Resolve(cfg, q) == Resolve(w.readDefault(root), q)
  {
    var root := FindRepoRoot(w.start, w.isFile, w.marked).value;
    EnvMapIndependent();
    OverridesOnlySetPaths(w.readDefault(root), EnvMap, w.env, q);
  }
}

=== FILE: data_tools.dfy ===
/** The master-registry consolidation of the image pipeline
    (`consolidate_jsons` in 01_backend/img_pipeline/Step09_DataTools.py
    lines 25-109): the records of the existing master, of the batch files
    and of stray JSON files are merged in that order, then deduplicated by
    a key, keeping each key where it first appeared with the last record
    that had it. Reading and writing the files is left to the caller: the
    inputs are the parsed file contents. */
module DataTools {
  import opened Wrappers
  import opened AsciiText
  import opened Json
  import InsertionOrder

  // ---------------------------------------------------------------------------
  // Merging (lines 33-81)

  /** The `extend` of every batch file that holds a list; others are skipped. */
  function BatchRecords(batches: seq<Json>): (r: seq<Json>)
    ensures batches == [] ==> r == []
    ensures |batches| == 1 ==> r == (if batches[0].Arr? then batches[0].items else [])
  {
    if batches == [] then []
    else
      var rest := BatchRecords(batches[1..]);
      assert |batches| == 1 ==> rest == [];
      (if batches[0].Arr? then batches[0].items else []) + rest
  }

  /** The batch files are read one after the other, in order. */
  lemma {:induction false} BatchRecordsAppend(a: seq<Json>, b: seq<Json>)
    ensures BatchRecords(a + b) == BatchRecords(a) + BatchRecords(b)
  {
    if a != [] {
      assert (a + b)[1..] == a[1..] + b;
      BatchRecordsAppend(a[1..], b);
    } else {
      assert a + b == b;
    }
  }

  /** A stray JSON file: its name, the name of its folder and its content. */
  datatype Stray = Stray(name: string, folder: string, data: Json)

  predicate Skipped(f: Stray) {
    f.name in ["classification_manifest.json", "master_registry.json", "Categories.json"] || f.folder == "vectors"
  }

  /** What one stray file adds: a dict that looks like an image record, or
      every element of a list. */
  function StrayRecords(f: Stray): (r: seq<Json>)
    ensures Skipped(f) ==> r == []
    ensures !Skipped(f) && f.data.Arr? ==> r == f.data.items
    ensures !Skipped(f) && f.data.Obj? ==> (r == [f.data] <==> "id" in f.data.fields || "name_of_file" in f.data.fields)
    ensures !f.data.Arr? ==> r == [] || r == [f.data]
  {
    if Skipped(f) then []
    else match f.data
      case Obj(fields) => if "id" in fields || "name_of_file" in fields then [f.data] else []
      case Arr(items) => items
      case _ => []
  }

  function AllStrays(strays: seq<Stray>): seq<Json> {
    if strays == [] then [] else StrayRecords(strays[0]) + AllStrays(strays[1..])
  }

  /** The stray scan works file by file. */
  lemma {:induction false} AllStraysAppend(a: seq<Stray>, b: seq<Stray>)
    ensures AllStrays(a + b) == AllStrays(a) + AllStrays(b)
  {
    if a != [] {
      assert (a + b)[1..] == a[1..] + b;
      AllStraysAppend(a[1..], b);
    } else {
      assert a + b == b;
    }
  }

  /** Skipped files and dicts without `id` or `name_of_file` add nothing. */
  lemma {:induction false} IgnoredStrays(strays: seq<Stray>)
    requires forall i :: 0 <= i < |strays| ==> Ignored(strays[i])
    ensures AllStrays(strays) == []
  {
    if strays != [] {
      IgnoredAddsNothing(strays[0]);
      var tail := strays[1..];
      assert forall i :: 0 <= i < |tail| ==> tail[i] == strays[i + 1];
      IgnoredStrays(tail);
    }
  }

  /** A skipped file, or a dict with neither `id` nor `name_of_file`. */
  predicate Ignored(f: Stray) {
    Skipped(f) || (f.data.Obj? && "id" !in f.data.fields && "name_of_file" !in f.data.fields)
  }

  lemma IgnoredAddsNothing(f: Stray)
    requires Ignored(f)
    ensures StrayRecords(f) == []
  {
  }

  /** `all_records` before deduplication: master, batches, strays. A master
      file that is missing or unreadable is given as []. */
  function Merge(master: seq<Json>, batches: seq<Json>, strays: seq<Stray>): (r: seq<Json>)
    ensures |master| + |BatchRecords(batches)| <= |r|
    ensures r[..|master|] == master
    ensures r[|master|..|master| + |BatchRecords(batches)|] == BatchRecords(batches)
    ensures r[|master| + |BatchRecords(batches)|..] == AllStrays(strays)
  {
    master + BatchRecords(batches) + AllStrays(strays)
  }

  // ---------------------------------------------------------------------------
  // Deduplication (lines 83-90), for any key function

  function Keyed<K>(records: seq<Json>, key: (Json, nat) -> K): (r: seq<(K, Json)>)
    ensures |r| == |records|
    ensures forall i :: 0 <= i < |records| ==> r[i] == (key(records[i], i), records[i])
  {
    seq(|records|, i requires 0 <= i < |records| => (key(records[i], i), records[i]))
  }

  /** `unique_records[key] = rec` over `enumerate(records)`, then the values. */
  function DedupBy<K(==)>(records: seq<Json>, key: (Json, nat) -> K): (r: seq<Json>)
    ensures |r| <= |records|
    ensures |r| == |InsertionOrder.Fill(Keyed(records, key))|
  {
    InsertionOrder.FillLength(Keyed(records, key));
    InsertionOrder.Values(InsertionOrder.Fill(Keyed(records, key)))
  }

  /** The position of the record that ends up in slot `k`: the last one with
      the slot's key. */
  function Winner<K(==)>(records: seq<Json>, key: (Json, nat) -> K, k: nat): (w: nat)
    requires k < |InsertionOrder.Fill(Keyed(records, key))|
    ensures w < |records| && key(records[w], w) == InsertionOrder.Fill(Keyed(records, key))[k].0
    ensures forall j :: w < j < |records| ==> key(records[j], j) != key(records[w], w)
  {
    var items := Keyed(records, key);
    InsertionOrder.FillMeetsSpec(items);
    var es := InsertionOrder.Fill(items);
    assert InsertionOrder.HasKey(items, es[k].0);
    InsertionOrder.LastPos(items, es[k].0)
  }

  /** The position where the key of slot `k` first appeared. */
  function Opener<K(==)>(records: seq<Json>, key: (Json, nat) -> K, k: nat): (w: nat)
    requires k < |InsertionOrder.Fill(Keyed(records, key))|
    ensures w < |records| && key(records[w], w) == InsertionOrder.Fill(Keyed(records, key))[k].0
    ensures forall j :: 0 <= j < w ==> key(records[j], j) != key(records[w], w)
  {
    var items := Keyed(records, key);
    InsertionOrder.FillMeetsSpec(items);
    var es := InsertionOrder.Fill(items);
    assert InsertionOrder.HasKey(items, es[k].0);
    InsertionOrder.FirstPos(items, es[k].0)
  }

  /** Slot `k` holds the record at position `Winner(records, key, k)`. */
  ghost predicate SlotsHoldWinners<K>(records: seq<Json>, key: (Json, nat) -> K) {
    var r := DedupBy(records, key);
    forall k :: 0 <= k < |r| ==> r[k] == records[Winner(records, key, k)]
  }

  /** No two slots share a key. */
  ghost predicate SlotKeysDistinct<K>(records: seq<Json>, key: (Json, nat) -> K) {
    var r := DedupBy(records, key);
    forall a, b :: 0 <= a < b < |r| ==>
      key(records[Winner(records, key, a)], Winner(records, key, a)) != key(records[Winner(records, key, b)], Winner(records, key, b))
  }

  /** The slots follow the order in which their keys first appeared. */
  ghost predicate SlotsInFirstOrder<K>(records: seq<Json>, key: (Json, nat) -> K) {
    var r := DedupBy(records, key);
    forall a, b :: 0 <= a < b < |r| ==> Opener(records, key, a) < Opener(records, key, b)
  }

  /** Every record's key has a slot, filled from that record or a later one. */
  ghost predicate KeysCovered<K>(records: seq<Json>, key: (Json, nat) -> K) {
    var r := DedupBy(records, key);
    forall j :: 0 <= j < |records| ==> exists k :: (0 <= k < |r| && Winner(records, key, k) >= j &&
      key(records[Winner(records, key, k)], Winner(records, key, k)) == key(records[j], j))
  }

  /** The deduplicated list holds, per key, the last record with that key;
      no key twice; every input key has its slot; and the slots are ordered
      by where their key first appeared. */
  lemma DedupBySpec<K>(records: seq<Json>, key: (Json, nat) -> K)
    ensures SlotsHoldWinners(records, key) && SlotKeysDistinct(records, key)
    ensures SlotsInFirstOrder(records, key) && KeysCovered(records, key)
  {
    DedupHoldsWinners(records, key);
    DedupKeysDistinct(records, key);
    DedupFirstAppearance(records, key);
    DedupCoversKeys(records, key);
  }

  lemma DedupHoldsWinners<K>(records: seq<Json>, key: (Json, nat) -> K)
    ensures SlotsHoldWinners(records, key)
  {
    var items := Keyed(records, key);
    InsertionOrder.FillMeetsSpec(items);
  }

  lemma DedupKeysDistinct<K>(records: seq<Json>, key: (Json, nat) -> K)
    ensures SlotKeysDistinct(records, key)
  {
    var items := Keyed(records, key);
    InsertionOrder.FillMeetsSpec(items);
  }

  lemma DedupFirstAppearance<K>(records: seq<Json>, key: (Json, nat) -> K)
    ensures SlotsInFirstOrder(records, key)
  {
    var items := Keyed(records, key);
    InsertionOrder.FillMeetsSpec(items);
    var es := InsertionOrder.Fill(items);
    var r := DedupBy(records, key);
    forall a, b | 0 <= a < b < |r|
      ensures Opener(records, key, a) < Opener(records, key, b)
    {
      assert InsertionOrder.KeyBefore(items, es[a].0, es[b].0);
    }
  }

  lemma DedupCoversKeys<K>(records: seq<Json>, key: (Json, nat) -> K)
    ensures KeysCovered(records, key)
  {
    var items := Keyed(records, key);
    InsertionOrder.FillMeetsSpec(items);
    var es := InsertionOrder.Fill(items);
    var r := DedupBy(records, key);
    forall j | 0 <= j < |records|
      ensures exists k :: (0 <= k < |r| && Winner(records, key, k) >= j &&
        key(records[Winner(records, key, k)], Winner(records, key, k)) == key(records[j], j))
    {
      assert items[j].0 == key(records[j], j);
      assert InsertionOrder.HasKey(es, items[j].0);
      var k :| 0 <= k < |es| && es[k].0 == items[j].0;
      var w := Winner(records, key, k);
      assert key(records[w], w) == key(records[j], j);
    }
  }

  /** The slot that carries the key of record `j`. */
  lemma SlotOf<K>(records: seq<Json>, key: (Json, nat) -> K, j: nat) returns (k: nat)
    requires j < |records|
    ensures k < |DedupBy(records, key)| && Winner(records, key, k) >= j
    ensures key(records[Winner(records, key, k)], Winner(records, key, k)) == key(records[j], j)
    ensures DedupBy(records, key)[k] == records[Winner(records, key, k)]
  {
    DedupCoversKeys(records, key);
    DedupHoldsWinners(records, key);
    var r := DedupBy(records, key);
    k :| 0 <= k < |r| && Winner(records, key, k) >= j &&
      key(records[Winner(records, key, k)], Winner(records, key, k)) == key(records[j], j);
  }

  // ---------------------------------------------------------------------------
  // The key as written (line 88)

  /** A value as a dict key: Python's `True` and `1` are the same key. */
  function AsKey(v: Json): Json {
    if v.Bool? then Int(if v.b then 1 else 0) else v
  }

  /** The field the key is read from: the first truthy of the four. */
  function KeyField(fields: PyDict): Option<Json> {
    if PyTruthy(PyGet(fields, "original_path")) then Some(PyGet(fields, "original_path"))
    else if PyTruthy(PyGet(fields, "name_of_file")) then Some(PyGet(fields, "name_of_file"))
    else if PyTruthy(PyGet(fields, "filename")) then Some(PyGet(fields, "filename"))
    else if PyTruthy(PyGet(fields, "id")) then Some(PyGet(fields, "id"))
    else None
  }

  /** `rec.get("original_path") or ... or str(i)`. */
  function SourceKey(rec: Json, i: nat): Json {
    var f := if rec.Obj? then KeyField(rec.fields) else None;
    if f.Some? then AsKey(f.value) else Str(NatToString(i))
  }

  /** The loop needs every record to be a dict (`rec.get`) and every key
      field it picks to be hashable (not a list or dict). */
  predicate Consolidatable(records: seq<Json>) {
    forall i :: 0 <= i < |records| ==> (records[i].Obj? &&
      (KeyField(records[i].fields).Some? ==> !KeyField(records[i].fields).value.Arr? && !KeyField(records[i].fields).value.Obj?))
  }

  /** The registry `consolidate_jsons` writes, as written. */
  function ConsolidateAsWritten(master: seq<Json>, batches: seq<Json>, strays: seq<Stray>): (r: seq<Json>)
    requires Consolidatable(Merge(master, batches, strays))
    ensures |r| <= |Merge(master, batches, strays)|
  {
    DedupBy(Merge(master, batches, strays), SourceKey)
  }

  /** A record without any key field is keyed by its position, and that
      string can equal a literal id: here the record with id "1" is lost to
      the key-less record at position 1. */
  lemma PositionCollidesWithId()
    ensures var withId := Obj(map["id" := Str("1")]);
      ConsolidateAsWritten([withId, Obj(map[])], [], []) == [Obj(map[])] &&
      withId !in ConsolidateAsWritten([withId, Obj(map[])], [], [])
  {
    var withId := Obj(map["id" := Str("1")]);
    var records := [withId, Obj(map[])];
    assert Merge([withId, Obj(map[])], [], []) == records;
    assert NatToString(1) == "1";
    var items := Keyed(records, SourceKey);
    assert items == [(Str("1"), withId), (Str("1"), Obj(map[]))];
    assert items[..1] == [(Str("1"), withId)];
    assert InsertionOrder.Fill(items[..1]) == [(Str("1"), withId)] by {
      assert items[..1][..0] == [];
    }
    assert InsertionOrder.Fill(items) == [(Str("1"), Obj(map[]))];
  }

  // ---------------------------------------------------------------------------
  // The key with the fallback kept apart

  /** A key read from a field, or a position: the two never compare equal. */
  datatype RecordKey = Named(v: Json) | Position(i: nat)

  function TaggedKey(rec: Json, i: nat): RecordKey {
    var f := if rec.Obj? then KeyField(rec.fields) else None;
    if f.Some? then Named(AsKey(f.value)) else Position(i)
  }

  /** The registry with position keys that cannot collide with field keys. */
  function Consolidate(master: seq<Json>, batches: seq<Json>, strays: seq<Stray>): (r: seq<Json>)
    requires Consolidatable(Merge(master, batches, strays))
    ensures |r| <= |Merge(master, batches, strays)|
  {
    DedupBy(Merge(master, batches, strays), TaggedKey)
  }

  /** With tagged keys every record that has no key field survives. */
  lemma KeylessRecordsSurvive(master: seq<Json>, batches: seq<Json>, strays: seq<Stray>, j: nat)
    requires Consolidatable(Merge(master, batches, strays))
    requires j < |Merge(master, batches, strays)| && KeyField(Merge(master, batches, strays)[j].fields).None?
    ensures Merge(master, batches, strays)[j] in Consolidate(master, batches, strays)
  {
    var records := Merge(master, batches, strays);
    var r := DedupBy(records, TaggedKey);
    var k := SlotOf(records, TaggedKey, j);
    var w := Winner(records, TaggedKey, k);
    assert TaggedKey(records[j], j) == Position(j);
    assert w == j;
    assert r[k] == records[j];
  }

  /** Records that carry a key field are keyed the same way by both. */
  lemma SameKeysForNamedRecords(rec: Json, i: nat, j: nat)
    requires rec.Obj? && KeyField(rec.fields).Some?
    ensures TaggedKey(rec, i) == Named(SourceKey(rec, j))
  {
  }
}

=== FILE: detail_panel.dfy ===
/** The delete action of the details panel
    (02_frontend/src/components/layout/DetailPanel.tsx lines 26-48). The
    panel's related strip and metadata buttons are the `RelatedNodes` and
    `MetadataCards` modules. */
module DetailPanel {
  import opened Wrappers
  import opened AsciiText
  import opened GraphModel

  /** `(node.img || '').split('/').pop() || node.id`: the file name of the
      picture, or the node id when the picture path is missing or ends in
      '/'. */
  function DeleteFilename(node: GraphNode): (r: string)
    ensures r == node.id || (r != [] && node.img.Some? && EndsWith(node.img.value, r))
    ensures r != node.id ==> forall i :: 0 <= i < |r| ==> r[i] != '/'
    ensures node.img.None? ==> r == node.id
  {
    var path := node.img.GetOr([]);
    var f := AfterLastSlash(path);
    if f != [] then f else node.id
  }

  /** When the picture path names a file, the name sent is the part after
      its last '/', and the path ends in '/' followed by that name whenever
      it holds a '/' at all. */
  lemma DeleteFilenameOfPath(node: GraphNode, dir: string, name: string)
    requires name != [] && forall i :: 0 <= i < |name| ==> name[i] != '/'
    requires node.img == Some(dir + "/" + name)
    ensures DeleteFilename(node) == name
    ensures EndsWith(node.img.value, "/" + DeleteFilename(node))
  {
    var path := dir + "/" + name;
    assert name == path[|path| - |name|..];
    assert path[|path| - |name| - 1] == '/';
    LastSegmentUnique(path, IsSlash, name);
    assert path[|path| - |name| - 1..] == "/" + name;
  }

  /** How the DELETE request ended. */
  datatype Outcome = Ok | Refused | Threw

  /** What the handler does, in order. */
  datatype Effect =
    | SendDelete(filename: string)
    | DeleteNode(id: string)
    | Close
    | Alert(message: string)

  /** `isDeleting` and `showConfirm`. */
  datatype PanelState = PanelState(deleting: bool, confirming: bool)

  /** `handleDelete`: the request goes out with the file name; an ok answer
      removes the node from the graph, closes the panel and hides the
      confirmation; anything else alerts and leaves the confirmation up.
      Either way the panel stops showing the spinner. */
  function HandleDelete(s: PanelState, node: GraphNode, outcome: Outcome): (r: (PanelState, seq<Effect>))
    ensures !r.0.deleting
    ensures |r.1| >= 2 && r.1[0] == SendDelete(DeleteFilename(node))
    ensures outcome == Ok ==> r.1[1..] == [DeleteNode(node.id), Close] && !r.0.confirming
    ensures outcome != Ok ==> r.0.confirming == s.confirming && |r.1| == 2 && r.1[1].Alert?
  {
    var send := SendDelete(DeleteFilename(node));
    match outcome
    case Ok => (PanelState(false, false), [send, DeleteNode(node.id), Close])
    case Refused => (PanelState(false, s.confirming), [send, Alert("Failed to delete image.")])
    case Threw => (PanelState(false, s.confirming), [send, Alert("Error deleting image.")])
  }

  /** The node is removed only after a successful request, and then the
      panel closes right after. */
  lemma DeleteThenClose(s: PanelState, node: GraphNode, outcome: Outcome, k: nat)
    requires k < |HandleDelete(s, node, outcome).1| && HandleDelete(s, node, outcome).1[k] == DeleteNode(node.id)
    ensures outcome == Ok && k == 1
    ensures k + 1 < |HandleDelete(s, node, outcome).1| && HandleDelete(s, node, outcome).1[k + 1] == Close
  {
  }
}

=== FILE: graph_backend.dfy ===
/** The graph bookkeeping of the backend server (run_viz.py): the neighbor
    lists rebuilt after a picture is deleted (lines 344-373), the filter
    choosing the nodes that survive (line 543), the rewritten registry and
    graph meta (lines 530 and 547-549), dropping a record from the
    in-memory search index (lines 273-290), the batch LOD average (lines
    385-399) and the query-expansion cache (lines 187-215). Nodes and
    records are the dicts `json.load` returns. */
module GraphBackend {
  import opened Wrappers
  import opened AsciiText
  import opened Json
  import GraphModel
  import DetailPanel
  import BatchDashboard

  /** `isinstance(v, int)` with the value: Python booleans are the ints 1 and 0. */
  function PyInt(v: Json): (r: Option<int>)
    ensures r.Some? <==> v.Int? || v.Bool?
    ensures v.Int? ==> r == Some(v.i)
  {
    match v
    case Int(i) => Some(i)
    case Bool(b) => Some(if b then 1 else 0)
    case _ => None
  }

  // ---------------------------------------------------------------------------
  // Rebuilding the neighbor lists (lines 344-373)

  /** `node.get("neighbors", [])`, with anything but a list read as []. */
  function RawNeighborList(node: PyDict): seq<Json> {
    if "neighbors" in node && node["neighbors"].Arr? then node["neighbors"].items else []
  }

  /** `old_to_new.get(i)`: the comprehension over `enumerate(kept)` leaves
      each old index mapped to the last position that holds it. */
  function NewIndex(kept: seq<int>, i: int): (r: Option<nat>)
    ensures r.Some? ==> r.value < |kept| && kept[r.value] == i
    ensures r.Some? ==> forall p :: r.value < p < |kept| ==> kept[p] != i
    ensures r.None? <==> i !in kept
  {
    if kept == [] then None
    else
      var n := |kept| - 1;
      assert kept == kept[..n] + [kept[n]];
      if kept[n] == i then Some(n) else NewIndex(kept[..n], i)
  }

  /** Where one raw neighbor entry points after the deletion, if anywhere. */
  function Target(kept: seq<int>, v: Json): Option<nat> {
    if PyInt(v).Some? then NewIndex(kept, PyInt(v).value) else None
  }

  /** The new positions of all raw entries that still point at a kept node,
      in raw order and with repetitions. */
  function Mapped(raw: seq<Json>, kept: seq<int>): (r: seq<nat>)
    ensures forall k :: 0 <= k < |r| ==> r[k] < |kept|
  {
    if raw == [] then []
    else
      var n := |raw| - 1;
      var t := Target(kept, raw[n]);
      Mapped(raw[..n], kept) + (if t.Some? then [t.value] else [])
  }

  /** A position is among the mapped ones exactly when some raw entry points
      at the node now standing there. */
  lemma {:induction false} MappedMeans(raw: seq<Json>, kept: seq<int>, t: nat)
    ensures t in Mapped(raw, kept) <==> exists j :: 0 <= j < |raw| && Target(kept, raw[j]) == Some(t)
  {
    if raw != [] {
      var n := |raw| - 1;
      MappedMeans(raw[..n], kept, t);
      if exists j :: 0 <= j < n && Target(kept, raw[..n][j]) == Some(t) {
        var j :| 0 <= j < n && Target(kept, raw[..n][j]) == Some(t);
        assert raw[j] == raw[..n][j];
      }
      if exists j :: 0 <= j < |raw| && Target(kept, raw[j]) == Some(t) {
        var j :| 0 <= j < |raw| && Target(kept, raw[j]) == Some(t);
        if j < n {
          assert raw[..n][j] == raw[j];
        }
      }
    }
  }

  /** Position of the first occurrence of `t` in `s`. */
  function FirstAt(s: seq<nat>, t: nat): (p: nat)
    requires t in s
    ensures p < |s| && s[p] == t && forall q :: 0 <= q < p ==> s[q] != t
  {
    if s[0] == t then 0 else 1 + FirstAt(s[1..], t)
  }

  lemma FirstAtPrefix(s: seq<nat>, extra: seq<nat>, t: nat)
    requires t in s
    ensures t in s + extra && FirstAt(s + extra, t) == FirstAt(s, t)
  {
    var p := FirstAt(s, t);
    assert forall q :: 0 <= q < |s| ==> (s + extra)[q] == s[q];
    assert (s + extra)[p] == t;
  }

  /** The loop over one raw list: skip entries that are not ints, that point
      at a removed node, at the node itself (`me`) or at a node already
      listed; keep the rest in order. */
  function Remap(raw: seq<Json>, kept: seq<int>, me: nat): (r: seq<nat>)
    ensures forall k :: 0 <= k < |r| ==> r[k] < |kept| && r[k] != me
    ensures forall a, b :: 0 <= a < b < |r| ==> r[a] != r[b]
    ensures forall t :: t in r <==> t != me && t in Mapped(raw, kept)
  {
    if raw == [] then []
    else
      var n := |raw| - 1;
      var r := Remap(raw[..n], kept, me);
      var t := Target(kept, raw[n]);
      if t.Some? && t.value != me && t.value !in r then r + [t.value] else r
  }

  /** The kept entries follow the raw order: each one is listed where its
      target first appears among the mapped positions. */
  lemma {:induction false} RemapOrder(raw: seq<Json>, kept: seq<int>, me: nat)
    ensures forall a, b :: 0 <= a < b < |Remap(raw, kept, me)| ==>
      Remap(raw, kept, me)[a] in Mapped(raw, kept) && Remap(raw, kept, me)[b] in Mapped(raw, kept) &&
      FirstAt(Mapped(raw, kept), Remap(raw, kept, me)[a]) < FirstAt(Mapped(raw, kept), Remap(raw, kept, me)[b])
  {
    if raw != [] {
      var n := |raw| - 1;
      var prev := Remap(raw[..n], kept, me);
      var pm := Mapped(raw[..n], kept);
      var t := Target(kept, raw[n]);
      RemapOrder(raw[..n], kept, me);
      assert Mapped(raw, kept) == pm + (if t.Some? then [t.value] else []);
      if t.Some? && t.value != me && t.value !in prev {
        assert Remap(raw, kept, me) == prev + [t.value];
        RemapOrderAppend(pm, Mapped(raw, kept), prev);
      } else {
        assert Remap(raw, kept, me) == prev;
        RemapOrderKeep(pm, Mapped(raw, kept), prev);
      }
    } else {
      assert Remap(raw, kept, me) == [];
    }
  }

  /** Positions already mapped keep their first place when more are mapped. */
  lemma PrefixFirstAt(pm: seq<nat>, m: seq<nat>)
    requires |pm| <= |m| && m[..|pm|] == pm
    ensures forall t :: t in pm ==> t in m && FirstAt(m, t) == FirstAt(pm, t)
  {
    var extra := m[|pm|..];
    assert m == pm + extra;
    forall t | t in pm
      ensures t in m && FirstAt(m, t) == FirstAt(pm, t)
    {
      FirstAtPrefix(pm, extra, t);
    }
  }

  /** A raw entry that adds nothing keeps the order. */
  lemma RemapOrderKeep(pm: seq<nat>, m: seq<nat>, prev: seq<nat>)
    requires |pm| <= |m| && m[..|pm|] == pm
    requires forall a :: 0 <= a < |prev| ==> prev[a] in pm
    requires forall a, b :: 0 <= a < b < |prev| ==> FirstAt(pm, prev[a]) < FirstAt(pm, prev[b])
    ensures forall a, b :: 0 <= a < b < |prev| ==> prev[a] in m && prev[b] in m && FirstAt(m, prev[a]) < FirstAt(m, prev[b])
  {
    PrefixFirstAt(pm, m);
  }

  /** A raw entry whose target is new lists it last, where it first appears. */
  lemma RemapOrderAppend(pm: seq<nat>, m: seq<nat>, prev: seq<nat>)
    requires |pm| < |m| && m[..|pm|] == pm && m[|pm|] !in pm
    requires forall a :: 0 <= a < |prev| ==> prev[a] in pm
    requires forall a, b :: 0 <= a < b < |prev| ==> FirstAt(pm, prev[a]) < FirstAt(pm, prev[b])
    ensures var r := prev + [m[|pm|]];
      forall a, b :: 0 <= a < b < |r| ==> r[a] in m && r[b] in m && FirstAt(m, r[a]) < FirstAt(m, r[b])
  {
    var t := m[|pm|];
    var r := prev + [t];
    PrefixFirstAt(pm, m);
    assert m == pm + m[|pm|..];
    FirstAtAfter(pm, m[|pm|..], t);
    forall a, b | 0 <= a < b < |r|
      ensures r[a] in m && r[b] in m && FirstAt(m, r[a]) < FirstAt(m, r[b])
    {
      assert r[a] == prev[a];
      if b < |prev| {
        assert r[b] == prev[b];
      }
    }
  }

  lemma FirstAtAfter(s: seq<nat>, extra: seq<nat>, t: nat)
    requires extra != [] && extra[0] == t && t !in s
    ensures t in s + extra && FirstAt(s + extra, t) == |s|
  {
    if s != [] {
      assert (s + extra)[1..] == s[1..] + extra;
      FirstAtAfter(s[1..], extra, t);
    } else {
      assert s + extra == extra;
    }
  }

  /** The raw entries may only index the node list where it lies in range;
      Python would wrap a negative index and raise past the end. */
  predicate KeptInRange(nodes: seq<PyDict>, kept: seq<int>) {
    forall k :: 0 <= k < |kept| ==> 0 <= kept[k] < |nodes|
  }

  predicate Distinct(kept: seq<int>) {
    forall a, b :: 0 <= a < b < |kept| ==> kept[a] != kept[b]
  }

  /** `old_to_new[old_idx]` for the `k`-th kept index. */
  function SelfIndex(kept: seq<int>, k: nat): (r: nat)
    requires k < |kept|
    ensures r < |kept| && kept[r] == kept[k]
    ensures Distinct(kept) ==> r == k
  {
    NewIndex(kept, kept[k]).value
  }

  /** The neighbor list rebuilt for the `k`-th kept node. */
  function NewNeighbors(nodes: seq<PyDict>, kept: seq<int>, k: nat): seq<nat>
    requires KeptInRange(nodes, kept) && k < |kept|
  {
    Remap(RawNeighborList(nodes[kept[k]]), kept, SelfIndex(kept, k))
  }

  function IntList(s: seq<nat>): (r: seq<Json>)
    ensures |r| == |s| && forall i :: 0 <= i < |s| ==> r[i] == Int(s[i])
  {
    seq(|s|, i requires 0 <= i < |s| => Int(s[i]))
  }

  /** The shallow copy of one kept node with its new `neighbors` and `idx`. */
  function RebuildNode(nodes: seq<PyDict>, kept: seq<int>, k: nat): PyDict
    requires KeptInRange(nodes, kept) && k < |kept|
  {
    nodes[kept[k]]["neighbors" := Arr(IntList(NewNeighbors(nodes, kept, k)))]["idx" := Int(SelfIndex(kept, k))]
  }

  /** `_rebuild_graph_neighbors_after_deletion(nodes, kept)`: one node per
      kept index, each a copy of its old node with every other field as it
      was. */
  function RebuildAfterDeletion(nodes: seq<PyDict>, kept: seq<int>): (r: seq<PyDict>)
    requires KeptInRange(nodes, kept)
    ensures |r| == |kept|
    ensures forall k :: 0 <= k < |r| ==>
      "idx" in r[k] && "neighbors" in r[k] && r[k]["neighbors"] == Arr(IntList(NewNeighbors(nodes, kept, k)))
    ensures Distinct(kept) ==> forall k :: 0 <= k < |r| ==> r[k]["idx"] == Int(k)
    ensures forall k, f :: 0 <= k < |r| && f != "neighbors" && f != "idx" ==>
      (f in r[k] <==> f in nodes[kept[k]]) && (f in r[k] ==> r[k][f] == nodes[kept[k]][f])
  {
    seq(|kept|, k requires 0 <= k < |kept| => RebuildNode(nodes, kept, k))
  }

  /** Every rebuilt neighbor indexes the new list, is not the node itself
      and is listed once. */
  lemma RebuiltNeighborsValid(nodes: seq<PyDict>, kept: seq<int>, k: nat)
    requires KeptInRange(nodes, kept) && Distinct(kept) && k < |kept|
    ensures var ns := NewNeighbors(nodes, kept, k);
      (forall a :: 0 <= a < |ns| ==> ns[a] < |RebuildAfterDeletion(nodes, kept)| && ns[a] != k) &&
      (forall a, b :: 0 <= a < b < |ns| ==> ns[a] != ns[b])
  {
  }

  /** Identity survives the deletion: a rebuilt entry `t` of node `k` holds
      the new position of a node the old list pointed at, and every old
      entry pointing at another kept node is carried over. */
  lemma RebuiltNeighborsKeepTargets(nodes: seq<PyDict>, kept: seq<int>, k: nat, t: nat)
    requires KeptInRange(nodes, kept) && Distinct(kept) && k < |kept|
    ensures var raw := RawNeighborList(nodes[kept[k]]);
      t in NewNeighbors(nodes, kept, k) <==>
        t != k && t < |kept| && exists j :: 0 <= j < |raw| && PyInt(raw[j]) == Some(kept[t])
  {
    var raw := RawNeighborList(nodes[kept[k]]);
    MappedMeans(raw, kept, t);
    if t < |kept| {
      forall j | 0 <= j < |raw|
        ensures Target(kept, raw[j]) == Some(t) <==> PyInt(raw[j]) == Some(kept[t])
      {
        if PyInt(raw[j]) == Some(kept[t]) {
          var p := NewIndex(kept, kept[t]);
          assert p.Some? && kept[p.value] == kept[t];
        }
      }
    }
  }

  /** A node whose `neighbors` is missing or not a list gets []. */
  lemma NonListNeighborsEmpty(nodes: seq<PyDict>, kept: seq<int>, k: nat)
    requires KeptInRange(nodes, kept) && k < |kept|
    requires "neighbors" !in nodes[kept[k]] || !nodes[kept[k]]["neighbors"].Arr?
    ensures RebuildAfterDeletion(nodes, kept)[k]["neighbors"] == Arr([])
  {
    assert NewNeighbors(nodes, kept, k) == [];
  }

  // ---------------------------------------------------------------------------
  // The nodes that survive a deletion (line 543)

  /** Nodes that passed validation hold a string or `None` under `img`. */
  predicate ImgValidated(node: PyDict) {
    "img" !in node || node["img"].Str? || node["img"].Null?
  }

  /** `str(node.get("img", ""))` on a validated node. */
  function ImgText(node: PyDict): string
    requires ImgValidated(node)
  {
    if "img" !in node then "" else if node["img"].Str? then node["img"].s else "None"
  }

  /** The node's picture is the deleted file. */
  predicate Deleted(node: PyDict, filename: string)
    requires ImgValidated(node)
  {
    EndsWith(ImgText(node), "/" + filename)
  }

  /** How many flags are not set. */
  function Unset(dropped: seq<bool>): (c: nat)
    ensures c <= |dropped|
  {
    if dropped == [] then 0 else Unset(dropped[..|dropped| - 1]) + (if dropped[|dropped| - 1] then 0 else 1)
  }

  /** Every flag is clear exactly when all of them are counted. */
  lemma {:induction false} UnsetAll(dropped: seq<bool>)
    ensures Unset(dropped) == |dropped| <==> forall i :: 0 <= i < |dropped| ==> !dropped[i]
  {
    if dropped != [] {
      var n := |dropped| - 1;
      UnsetAll(dropped[..n]);
      assert forall i :: 0 <= i < n ==> dropped[..n][i] == dropped[i];
    }
  }

  /** The positions whose flag is not set, in ascending order. */
  function Survivors(dropped: seq<bool>): (r: seq<int>)
    ensures forall i :: i in r <==> 0 <= i < |dropped| && !dropped[i]
    ensures forall a, b :: 0 <= a < b < |r| ==> r[a] < r[b]
    ensures forall k :: 0 <= k < |r| ==> 0 <= r[k] < |dropped|
    ensures |r| == Unset(dropped)
  {
    if dropped == [] then []
    else
      var n := |dropped| - 1;
      var prev := Survivors(dropped[..n]);
      assert forall i :: 0 <= i < n ==> dropped[..n][i] == dropped[i];
      if dropped[n] then prev
      else
        assert forall i :: i in prev + [n] <==> i in prev || i == n;
        prev + [n]
  }

  /** Which nodes name the deleted file. */
  function DeletedFlags(nodes: seq<PyDict>, filename: string): (r: seq<bool>)
    requires forall i :: 0 <= i < |nodes| ==> ImgValidated(nodes[i])
    ensures |r| == |nodes| && forall i :: 0 <= i < |nodes| ==> r[i] == Deleted(nodes[i], filename)
  {
    seq(|nodes|, i requires 0 <= i < |nodes| => Deleted(nodes[i], filename))
  }

  /** `[i for i, node in enumerate(nodes) if not ...endswith("/" + filename)]`. */
  function KeptIndices(nodes: seq<PyDict>, filename: string): (r: seq<int>)
    requires forall i :: 0 <= i < |nodes| ==> ImgValidated(nodes[i])
    ensures forall i :: i in r <==> 0 <= i < |nodes| && !Deleted(nodes[i], filename)
    ensures forall a, b :: 0 <= a < b < |r| ==> r[a] < r[b]
    ensures KeptInRange(nodes, r) && |r| <= |nodes|
  {
    Survivors(DeletedFlags(nodes, filename))
  }

  lemma KeptDistinct(nodes: seq<PyDict>, filename: string)
    requires forall i :: 0 <= i < |nodes| ==> ImgValidated(nodes[i])
    ensures Distinct(KeptIndices(nodes, filename))
  {
  }

  /** The kept list is as long as the node list exactly when no node is
      dropped. */
  lemma KeptFull(nodes: seq<PyDict>, filename: string)
    requires forall i :: 0 <= i < |nodes| ==> ImgValidated(nodes[i])
    ensures |KeptIndices(nodes, filename)| == |nodes| <==> forall i :: 0 <= i < |nodes| ==> !Deleted(nodes[i], filename)
  {
    UnsetAll(DeletedFlags(nodes, filename));
  }

  /** The graph after `delete_image`: rewritten, with the rebuilt nodes, only
      when some node was dropped; `None` leaves the file as it was. */
  function GraphAfterDelete(nodes: seq<PyDict>, filename: string): (r: Option<seq<PyDict>>)
    requires forall i :: 0 <= i < |nodes| ==> ImgValidated(nodes[i])
    ensures r.None? <==> forall i :: 0 <= i < |nodes| ==> !Deleted(nodes[i], filename)
    ensures r.Some? ==> |r.value| < |nodes|
  {
    var kept := KeptIndices(nodes, filename);
    KeptFull(nodes, filename);
    if |kept| < |nodes| then Some(RebuildAfterDeletion(nodes, kept)) else None
  }

  /** `graph_data["meta"]` after a deletion that dropped nodes: a meta that
      is not a dict is replaced by `{}`, and `count` is set to the new
      number of nodes. */
  function MetaAfterDelete(meta: Option<Json>, count: nat): (r: PyDict)
    ensures "count" in r && r["count"] == Int(count)
    ensures meta.Some? && meta.value.Obj? ==> r.Keys == meta.value.fields.Keys + {"count"}
    ensures meta.Some? && meta.value.Obj? ==>
      forall k :: k in meta.value.fields && k != "count" ==> r[k] == meta.value.fields[k]
    ensures !(meta.Some? && meta.value.Obj?) ==> r.Keys == {"count"}
  {
    var base: PyDict := if meta.Some? && meta.value.Obj? then meta.value.fields else map[];
    assert base == map[] ==> base["count" := Int(count)].Keys == {"count"};
    base["count" := Int(count)]
  }

  // ---------------------------------------------------------------------------
  // The registry file (line 530)

  /** `[r for r in reg_data if r.get("name_of_file") != filename]`. */
  function WithoutNamed(reg: seq<PyDict>, filename: string): (r: seq<PyDict>)
    ensures |r| <= |reg|
    ensures forall x :: x in r <==> x in reg && !NamesFile(x, filename)
    ensures |r| == |reg| <==> forall j :: 0 <= j < |reg| ==> !NamesFile(reg[j], filename)
    ensures |reg| == 1 ==> r == (if NamesFile(reg[0], filename) then [] else reg)
  {
    if reg == [] then []
    else
      var rest := WithoutNamed(reg[1..], filename);
      assert forall j :: 1 <= j < |reg| ==> reg[j] == reg[1..][j - 1];
      assert forall x :: x in reg <==> x == reg[0] || x in reg[1..];
      if NamesFile(reg[0], filename) then rest else [reg[0]] + rest
  }

  /** The comprehension keeps the surviving records in their order: it
      distributes over concatenation. */
  lemma {:induction false} WithoutNamedAppend(a: seq<PyDict>, b: seq<PyDict>, filename: string)
    ensures WithoutNamed(a + b, filename) == WithoutNamed(a, filename) + WithoutNamed(b, filename)
  {
    if a != [] {
      assert (a + b)[1..] == a[1..] + b;
      WithoutNamedAppend(a[1..], b, filename);
    } else {
      assert a + b == b;
    }
  }

  /** The registry file is rewritten, without every record naming the file,
      only when some record does; `None` leaves it as it was. */
  function RegistryAfterDelete(reg: seq<PyDict>, filename: string): (r: Option<seq<PyDict>>)
    ensures r.None? <==> forall j :: 0 <= j < |reg| ==> !NamesFile(reg[j], filename)
    ensures r.Some? ==> |r.value| < |reg| && forall x :: x in r.value <==> x in reg && !NamesFile(x, filename)
  {
    var kept := WithoutNamed(reg, filename);
    if |kept| < |reg| then Some(kept) else None
  }

  /** The panel's delete reaches the graph file: when the picture path is
      `dir/name`, the node carrying it is dropped, and so is every other node
      whose picture has the same file name in any folder. */
  lemma PanelDeleteDropsNode(fnode: GraphModel.GraphNode, nodes: seq<PyDict>, dir: string, name: string, i: nat)
    requires name != [] && forall c :: 0 <= c < |name| ==> name[c] != '/'
    requires fnode.img == Some(dir + "/" + name)
    requires forall j :: 0 <= j < |nodes| ==> ImgValidated(nodes[j])
    requires i < |nodes| && "img" in nodes[i] && nodes[i]["img"] == Str(dir + "/" + name)
    ensures i !in KeptIndices(nodes, DetailPanel.DeleteFilename(fnode))
    ensures forall j :: 0 <= j < |nodes| && EndsWith(ImgText(nodes[j]), "/" + name) ==>
      j !in KeptIndices(nodes, DetailPanel.DeleteFilename(fnode))
  {
    DetailPanel.DeleteFilenameOfPath(fnode, dir, name);
  }

  /** A picture path without '/' is sent whole and matches no node, so the
      graph file keeps the node the panel removed. */
  lemma SlashlessPictureStays(fnode: GraphModel.GraphNode, nodes: seq<PyDict>, i: nat)
    requires fnode.img.Some? && fnode.img.value != [] && forall c :: 0 <= c < |fnode.img.value| ==> fnode.img.value[c] != '/'
    requires forall j :: 0 <= j < |nodes| ==> ImgValidated(nodes[j])
    requires i < |nodes| && "img" in nodes[i] && nodes[i]["img"] == Str(fnode.img.value)
    ensures i in KeptIndices(nodes, DetailPanel.DeleteFilename(fnode))
  {
    var p := fnode.img.value;
    LastSegmentNoSep(p, IsSlash);
    var f := DetailPanel.DeleteFilename(fnode);
    assert f == p;
  }

  // ---------------------------------------------------------------------------
  // The in-memory search index (lines 273-290)

  /** One embedding row. */
  type Row = seq<real>

  /** The loaded registry and its embedding matrix (`None` before loading). */
  datatype Memory = Memory(registry: seq<PyDict>, embeddings: Option<seq<Row>>)

  predicate NamesFile(rec: PyDict, filename: string) {
    PyGet(rec, "name_of_file") == Str(filename)
  }

  /** Position of the first record whose `name_of_file` is `filename`. */
  function FirstNamed(registry: seq<PyDict>, filename: string): (r: Option<nat>)
    ensures r.Some? ==> r.value < |registry| && NamesFile(registry[r.value], filename)
    ensures r.Some? ==> forall j :: 0 <= j < r.value ==> !NamesFile(registry[j], filename)
    ensures r.None? <==> forall j :: 0 <= j < |registry| ==> !NamesFile(registry[j], filename)
  {
    if registry == [] then None
    else if NamesFile(registry[0], filename) then Some(0)
    else
      var t := FirstNamed(registry[1..], filename);
      assert forall j :: 1 <= j < |registry| ==> registry[j] == registry[1..][j - 1];
      if t.Some? then Some(t.value + 1) else None
  }

  /** The old position of what sits at position `k` after removing `p`. */
  function Shift(p: nat, k: nat): nat {
    if k < p then k else k + 1
  }

  /** `remove_from_memory(filename)`: whether a record was removed, and the
      memory afterwards. */
  function RemoveFromMemory(m: Memory, filename: string): (r: (bool, Memory))
    ensures !r.0 <==> m.registry == [] || m.embeddings.None? || FirstNamed(m.registry, filename).None?
    ensures !r.0 ==> r.1 == m
    ensures r.0 ==> |r.1.registry| + 1 == |m.registry| && r.1.embeddings.Some?
    ensures r.0 ==> var p := FirstNamed(m.registry, filename).value;
      (forall k :: 0 <= k < |r.1.registry| ==> r.1.registry[k] == m.registry[Shift(p, k)]) &&
      (p < |m.embeddings.value| ==> (|r.1.embeddings.value| + 1 == |m.embeddings.value| &&
        forall k :: 0 <= k < |r.1.embeddings.value| ==> r.1.embeddings.value[k] == m.embeddings.value[Shift(p, k)])) &&
      (p >= |m.embeddings.value| ==> r.1.embeddings == m.embeddings)
  {
    if m.registry == [] || m.embeddings.None? then (false, m)
    else match FirstNamed(m.registry, filename)
      case None => (false, m)
      case Some(p) =>
        var reg := m.registry[..p] + m.registry[p + 1..];
        var emb := m.embeddings.value;
        var emb' := if p < |emb| then emb[..p] + emb[p + 1..] else emb;
        (true, Memory(reg, Some(emb')))
  }

  /** Rows and records stay paired: when every record had its row, every
      remaining record still has the row it had. */
  lemma RemoveKeepsAlignment(m: Memory, filename: string)
    requires m.embeddings.Some? && |m.embeddings.value| == |m.registry|
    ensures var r := RemoveFromMemory(m, filename).1;
      r.embeddings.Some? && |r.embeddings.value| == |r.registry| &&
      forall k :: 0 <= k < |r.registry| ==>
        exists q :: 0 <= q < |m.registry| && r.registry[k] == m.registry[q] && r.embeddings.value[k] == m.embeddings.value[q]
  {
    var r := RemoveFromMemory(m, filename);
    if r.0 {
      var p := FirstNamed(m.registry, filename).value;
      forall k | 0 <= k < |r.1.registry|
        ensures exists q :: 0 <= q < |m.registry| && r.1.registry[k] == m.registry[q] && r.1.embeddings.value[k] == m.embeddings.value[q]
      {
        var q := Shift(p, k);
        assert r.1.registry[k] == m.registry[q];
      }
    } else {
      forall k | 0 <= k < |r.1.registry|
        ensures exists q :: 0 <= q < |m.registry| && r.1.registry[k] == m.registry[q] && r.1.embeddings.value[k] == m.embeddings.value[q]
      {
        assert r.1.registry[k] == m.registry[k];
      }
    }
  }

  /** The registry file drops every record naming the file, the memory only
      the first: a second record with the same name stays searchable. */
  lemma MemoryKeepsLaterDuplicates(a: PyDict, b: PyDict, row: Row, filename: string)
    requires NamesFile(a, filename) && NamesFile(b, filename)
    ensures var r := RemoveFromMemory(Memory([a, b], Some([row, row])), filename);
      r.0 && r.1.registry == [b]
    ensures RegistryAfterDelete([a, b], filename) == Some([])
  {
    assert FirstNamed([a, b], filename) == Some(0);
    assert WithoutNamed([b], filename) == [];
  }

  // ---------------------------------------------------------------------------
  // The batch LOD average (lines 385-399)

  /** `str(v)` for the values a JSON list holds; the printing of nested lists
      and dicts is given by `repr`. */
  function PyStr(v: Json, repr: Json -> string): string {
    match v
    case Null => "None"
    case Bool(b) => if b then "True" else "False"
    case Int(i) => IntToString(i)
    case Str(s) => s
    case _ => repr(v)
  }

  /** The first rule matching the lowered text; unmatched texts are skipped. */
  function BatchBucket(s: string): (r: Option<nat>)
    ensures r.Some? ==> r.value in {100, 200, 300, 400}
    ensures r.None? <==> (!Contains(s, "100") && !Contains(s, "low") && !Contains(s, "200") &&
      !Contains(s, "medium") && !Contains(s, "300") && !Contains(s, "400") && !Contains(s, "high"))
    ensures Contains(s, "100") || Contains(s, "low") ==> r == Some(100)
  {
    if Contains(s, "100") || Contains(s, "low") then Some(100)
    else if Contains(s, "200") || Contains(s, "medium") then Some(200)
    else if Contains(s, "300") then Some(300)
    else if Contains(s, "400") || Contains(s, "high") then Some(400)
    else None
  }

  /** `vals`: the bucket of every entry that matched, in order. */
  function BatchValues(lods: seq<Json>, repr: Json -> string): (r: seq<nat>)
    ensures |r| <= |lods|
    ensures forall k :: 0 <= k < |r| ==> 100 <= r[k] <= 400
  {
    if lods == [] then []
    else
      var n := |lods| - 1;
      var b := BatchBucket(Lower(PyStr(lods[n], repr)));
      BatchValues(lods[..n], repr) + (if b.Some? then [b.value] else [])
  }

  function Sum(vals: seq<nat>): nat {
    if vals == [] then 0 else Sum(vals[..|vals| - 1]) + vals[|vals| - 1]
  }

  lemma {:induction false} SumBounds(vals: seq<nat>, lo: nat, hi: nat)
    requires forall k :: 0 <= k < |vals| ==> lo <= vals[k] <= hi
    ensures lo * |vals| <= Sum(vals) <= hi * |vals|
  {
    if vals != [] {
      var n := |vals| - 1;
      var prefix := vals[..n];
      assert forall k :: 0 <= k < n ==> prefix[k] == vals[k];
      SumBounds(prefix, lo, hi);
      assert Sum(vals) == Sum(prefix) + vals[n];
      MulSucc(lo, n);
      MulSucc(hi, n);
    }
  }

  lemma MulSucc(a: nat, n: nat)
    ensures a * (n + 1) == a * n + a
  {
  }

  /** What the prompt reports: no analysis for an empty list, otherwise the
      average score, `None` standing for 'N/A'. */
  datatype Analysis = NoData | Analyzed(average: Option<int>)

  /** `int(sum(vals) / len(vals))`; the quotient of two non-negative
      integers truncates to its floor. */
  function AnalyzeLods(lods: seq<Json>, repr: Json -> string): (r: Analysis)
    ensures r.NoData? <==> lods == []
    ensures r.Analyzed? ==> (r.average.None? <==> BatchValues(lods, repr) == [])
    ensures r.Analyzed? && r.average.Some? ==> 100 <= r.average.value <= 400
    ensures r.Analyzed? && r.average.Some? ==> IsFloorOf(Sum(BatchValues(lods, repr)), |BatchValues(lods, repr)|, r.average.value)
  {
    if lods == [] then NoData
    else
      var vals := BatchValues(lods, repr);
      if vals == [] then Analyzed(None)
      else
        AverageIsFloor(vals);
        Analyzed(Some(Sum(vals) / |vals|))
  }

  lemma AverageIsFloor(vals: seq<nat>)
    requires vals != [] && forall k :: 0 <= k < |vals| ==> 100 <= vals[k] <= 400
    ensures 100 <= Sum(vals) / |vals| <= 400
    ensures IsFloorOf(Sum(vals), |vals|, Sum(vals) / |vals|)
  {
    AverageInRange(vals);
    FloorQuotient(Sum(vals), |vals|);
  }

  /** `q` is the floor of `num / den`. */
  predicate IsFloorOf(num: int, den: int, q: int) {
    q * den <= num < (q + 1) * den
  }

  /** The quotient of two non-negative integers is the floor of their ratio. */
  lemma FloorQuotient(num: nat, den: nat)
    requires den > 0
    ensures (num / den) * den <= num < (num / den + 1) * den
  {
  }

  /** Scores between 100 and 400 average to a score in that range. */
  lemma AverageInRange(vals: seq<nat>)
    requires vals != [] && forall k :: 0 <= k < |vals| ==> 100 <= vals[k] <= 400
    ensures 100 <= Sum(vals) / |vals| <= 400
  {
    SumBounds(vals, 100, 400);
    BatchDashboard.DivBetween(Sum(vals), |vals|, 100, 400);
  }

  /** An entry that matches no rule leaves the average as it was. */
  lemma UnmatchedIgnored(lods: seq<Json>, v: Json, repr: Json -> string)
    requires lods != [] && BatchBucket(Lower(PyStr(v, repr))).None?
    ensures BatchValues(lods + [v], repr) == BatchValues(lods, repr)
    ensures AnalyzeLods(lods + [v], repr) == AnalyzeLods(lods, repr)
  {
    assert (lods + [v])[..|lods|] == lods;
    assert (lods + [v])[|lods|] == v;
    assert BatchValues(lods + [v], repr) == BatchValues(lods, repr);
  }

  /** Every matched entry counts once, whatever rule it matched. */
  lemma MatchedCounted(lods: seq<Json>, v: Json, repr: Json -> string)
    requires BatchBucket(Lower(PyStr(v, repr))).Some?
    ensures BatchValues(lods + [v], repr) == BatchValues(lods, repr) + [BatchBucket(Lower(PyStr(v, repr))).value]
  {
    assert (lods + [v])[..|lods|] == lods;
    assert (lods + [v])[|lods|] == v;
  }

  // ---------------------------------------------------------------------------
  // The query-expansion cache (lines 187-215)

  type QueryCache = map<string, string>

  /** `user_query.strip().lower()`. */
  function QueryKey(q: string): string {
    Lower(Strip(q))
  }

  /** `expand_query(q)`: a cached answer when the key is known; otherwise
      the model's answer (`Some`, stripped and stored) or, when the call
      fails, the query itself, storing nothing. */
  function ExpandQuery(cache: QueryCache, q: string, answer: Option<string>): (r: (string, QueryCache))
    ensures QueryKey(q) in cache ==> r.0 == cache[QueryKey(q)]
    ensures r.1.Keys >= cache.Keys && forall k :: k in cache ==> r.1[k] == cache[k]
    ensures QueryKey(q) !in cache && answer.None? ==> r.0 == q && r.1 == cache
    ensures r.1 != cache ==> r.1 == cache[QueryKey(q) := r.0]
  {
    var key := QueryKey(q);
    if key in cache then (cache[key], cache)
    else if answer.Some? then
      var e := Strip(answer.value);
      (e, cache[key := e])
    else (q, cache)
  }

  /** After a successful expansion, any query with the same key (differing
      only in case or surrounding whitespace) gets the same text, whatever
      the model would answer now. */
  lemma SameKeyHits(cache: QueryCache, q1: string, q2: string, a1: string, a2: Option<string>)
    requires QueryKey(q1) == QueryKey(q2)
    ensures var first := ExpandQuery(cache, q1, Some(a1));
      ExpandQuery(first.1, q2, a2) == (first.0, first.1)
  {
  }

  /** A failed call is retried next time: nothing was stored for it. */
  lemma FailureRetried(cache: QueryCache, q: string, a: string)
    requires QueryKey(q) !in cache
    ensures ExpandQuery(ExpandQuery(cache, q, None).1, q, Some(a)).0 == Strip(a)
  {
  }
}

=== FILE: graph_model.dfy ===
/** The frontend's graph records. A node's `neighbors` list holds indices into
    the very list the node lives in; entries may be malformed. */
module GraphModel {
  import opened Wrappers

  /** One raw neighbor entry: an integer (JavaScript `Number.isInteger`
      holds of it) or anything else (a fraction, a string, `null`, ...). */
  datatype NeighborEntry = Index(i: int) | NotInteger

  /** A graph node. Optional fields are `None` when absent (`undefined`);
      `neighbors` is `None` when the property is missing or not an array. */
  datatype GraphNode = GraphNode(
    id: string,
    name: string,
    finalCategory: Option<string>,
    lodLabel: Option<string>,
    provider: Option<string>,
    img: Option<string>,
    nameOfFile: Option<string>,
    x: Option<real>,
    y: Option<real>,
    neighbors: Option<seq<NeighborEntry>>)

  /** The four layouts of the graph view. */
  datatype LayoutMode = Similarity | Category | Lod | Provider

  /** A 2-D position. */
  datatype Point = Point(x: real, y: real)

  /** `Array.isArray(node.neighbors) ? node.neighbors : []`. */
  function RawNeighbors(n: GraphNode): seq<NeighborEntry> {
    if n.neighbors.Some? then n.neighbors.value else []
  }

  /** `isValidNodeIndex`: an integer in `[0, total)`. */
  predicate IsValidNodeIndex(e: NeighborEntry, total: int) {
    e.Index? && 0 <= e.i < total
  }

  /** `(n.x ?? 0, n.y ?? 0)`. */
  function StoredPoint(n: GraphNode): Point {
    Point(n.x.GetOr(0.0), n.y.GetOr(0.0))
  }

  /** Position of the first node with id `id`, as `Array.find`/`findIndex` see it. */
  function FindById(nodes: seq<GraphNode>, id: string): (r: Option<nat>)
    ensures r.Some? ==> r.value < |nodes| && nodes[r.value].id == id
    ensures r.Some? ==> forall j :: 0 <= j < r.value ==> nodes[j].id != id
    ensures r.None? ==> forall j :: 0 <= j < |nodes| ==> nodes[j].id != id
  {
    if nodes == [] then None
    else if nodes[0].id == id then Some(0)
    else
      var t := FindById(nodes[1..], id);
      if t.Some? then Some(t.value + 1)
      else
        assert forall j :: 1 <= j < |nodes| ==> nodes[j] == nodes[1..][j - 1];
        None
  }

  /** Position of the first node with id `id`, or `|nodes|` when there is none. */
  function FirstIndexOf(nodes: seq<GraphNode>, id: string): (r: nat)
    ensures r <= |nodes|
    ensures r < |nodes| <==> FindById(nodes, id).Some?
    ensures r < |nodes| ==> r == FindById(nodes, id).value
  {
    if FindById(nodes, id).Some? then FindById(nodes, id).value else |nodes|
  }

  /** Position of the last node with id `id`: what a `Map` filled by
      `nodes.forEach((n, i) => m.set(n.id, i))` answers for `id`. */
  function LastIndexById(nodes: seq<GraphNode>, id: string): (r: Option<nat>)
    ensures r.Some? ==> r.value < |nodes| && nodes[r.value].id == id
    ensures r.Some? ==> forall j :: r.value < j < |nodes| ==> nodes[j].id != id
    ensures r.None? <==> forall j :: 0 <= j < |nodes| ==> nodes[j].id != id
  {
    if nodes == [] then None
    else if nodes[|nodes| - 1].id == id then Some(|nodes| - 1)
    else
      var t := LastIndexById(nodes[..|nodes| - 1], id);
      if t.Some? then Some(t.value)
      else
        assert forall j :: 0 <= j < |nodes| - 1 ==> nodes[j] == nodes[..|nodes| - 1][j];
        None
  }

  predicate IdsDistinct(nodes: seq<GraphNode>) {
    forall a, b :: 0 <= a < b < |nodes| ==> nodes[a].id != nodes[b].id
  }
}

=== FILE: graph_node_ops.dfy ===
/** Node-list operations of 02_frontend/src/lib/graphNodeOps.ts: dropping
    duplicate ids, and deleting a node while re-pointing every neighbor list
    at the shifted positions. */
module GraphNodeOps {
  import opened Wrappers
  import opened GraphModel
  import InsertionOrder

  // ---------------------------------------------------------------------------
  // dedupeNodes

  /** `nodes.map(n => [n.id, n])`. */
  function Keyed(nodes: seq<GraphNode>): (r: seq<(string, GraphNode)>)
    ensures |r| == |nodes| && forall j :: 0 <= j < |nodes| ==> r[j] == (nodes[j].id, nodes[j])
  {
    if nodes == [] then [] else [(nodes[0].id, nodes[0])] + Keyed(nodes[1..])
  }

  /** `Array.from(new Map(nodes.map(n => [n.id, n])).values())`. */
  function DedupeNodes(nodes: seq<GraphNode>): seq<GraphNode> {
    InsertionOrder.Values(InsertionOrder.Fill(Keyed(nodes)))
  }

  lemma {:induction false} KeyedHasKey(nodes: seq<GraphNode>, k: string)
    ensures InsertionOrder.HasKey(Keyed(nodes), k) <==> FindById(nodes, k).Some?
  {
    if InsertionOrder.HasKey(Keyed(nodes), k) {
      var j :| 0 <= j < |nodes| && Keyed(nodes)[j].0 == k;
    }
  }

  lemma {:induction false} KeyedFind(nodes: seq<GraphNode>, k: string)
    requires FindById(nodes, k).Some?
    ensures InsertionOrder.HasKey(Keyed(nodes), k)
    ensures InsertionOrder.FirstPos(Keyed(nodes), k) == FindById(nodes, k).value
  {
    KeyedHasKey(nodes, k);
  }

  lemma {:induction false} KeyedLast(nodes: seq<GraphNode>, k: string)
    requires FindById(nodes, k).Some?
    ensures InsertionOrder.HasKey(Keyed(nodes), k)
    ensures LastIndexById(nodes, k).Some?
    ensures InsertionOrder.LastPos(Keyed(nodes), k) == LastIndexById(nodes, k).value
  {
    KeyedHasKey(nodes, k);
    assert nodes[FindById(nodes, k).value].id == k;
  }

  lemma {:induction false} DedupeEntry(nodes: seq<GraphNode>, i: int)
    requires InsertionOrder.FillSpec(Keyed(nodes), InsertionOrder.Fill(Keyed(nodes)))
    requires 0 <= i < |InsertionOrder.Fill(Keyed(nodes))|
    ensures var e := InsertionOrder.Fill(Keyed(nodes))[i];
      e.1.id == e.0 && FindById(nodes, e.0).Some? &&
      LastIndexById(nodes, e.0).Some? && e.1 == nodes[LastIndexById(nodes, e.0).value]
  {
    var items := Keyed(nodes);
    var k := InsertionOrder.Fill(items)[i].0;
    assert InsertionOrder.HasKey(items, k);
    KeyedHasKey(nodes, k);
    KeyedLast(nodes, k);
    var p := InsertionOrder.LastPos(items, k);
    assert items[p] == (nodes[p].id, nodes[p]);
  }

  lemma {:induction false} DedupeOrder(nodes: seq<GraphNode>, a: int, b: int)
    requires InsertionOrder.FillSpec(Keyed(nodes), InsertionOrder.Fill(Keyed(nodes)))
    requires 0 <= a < b < |InsertionOrder.Fill(Keyed(nodes))|
    ensures var es := InsertionOrder.Fill(Keyed(nodes));
      es[a].0 != es[b].0 && FindById(nodes, es[a].0).Some? && FindById(nodes, es[b].0).Some? &&
      FindById(nodes, es[a].0).value < FindById(nodes, es[b].0).value
  {
    var es := InsertionOrder.Fill(Keyed(nodes));
    var ea, eb := es[a], es[b];
    KeyedHasKey(nodes, ea.0);
    KeyedHasKey(nodes, eb.0);
    KeyedFind(nodes, ea.0);
    KeyedFind(nodes, eb.0);
  }

  lemma {:induction false} DedupeCovers(nodes: seq<GraphNode>, j: int)
    requires InsertionOrder.FillSpec(Keyed(nodes), InsertionOrder.Fill(Keyed(nodes)))
    requires 0 <= j < |nodes|
    ensures exists i :: 0 <= i < |InsertionOrder.Fill(Keyed(nodes))| && InsertionOrder.Fill(Keyed(nodes))[i].0 == nodes[j].id
  {
    var items := Keyed(nodes);
    assert items[j].0 == nodes[j].id;
    assert InsertionOrder.Covers(items, InsertionOrder.Fill(items));
  }

  /** The deduplicated nodes are the values of the filled map, each stored
      under its own id. */
  lemma {:induction false} DedupeValues(nodes: seq<GraphNode>)
    ensures InsertionOrder.FillSpec(Keyed(nodes), InsertionOrder.Fill(Keyed(nodes)))
    ensures |DedupeNodes(nodes)| == |InsertionOrder.Fill(Keyed(nodes))|
    ensures forall i :: 0 <= i < |DedupeNodes(nodes)| ==>
      DedupeNodes(nodes)[i] == InsertionOrder.Fill(Keyed(nodes))[i].1 &&
      DedupeNodes(nodes)[i].id == InsertionOrder.Fill(Keyed(nodes))[i].0
  {
    var items := Keyed(nodes);
    InsertionOrder.FillMeetsSpec(items);
    var es := InsertionOrder.Fill(items);
    var r := InsertionOrder.Values(es);
    assert r == DedupeNodes(nodes);
    forall i | 0 <= i < |r|
      ensures r[i].id == es[i].0
    {
      DedupeEntry(nodes, i);
    }
  }

  /** The ids of `r` appear in the order of their first occurrence in `nodes`. */
  predicate FirstOccurrenceOrdered(nodes: seq<GraphNode>, r: seq<GraphNode>) {
    forall a, b :: 0 <= a < b < |r| ==>
      FirstIndexOf(nodes, r[a].id) < FirstIndexOf(nodes, r[b].id) < |nodes|
  }

  /** One node per distinct id, never more nodes than given, and the ids keep
      the order of their first occurrences. */
  lemma {:induction false} DedupeNodesOrder(nodes: seq<GraphNode>)
    ensures |DedupeNodes(nodes)| <= |nodes|
    ensures IdsDistinct(DedupeNodes(nodes))
    ensures FirstOccurrenceOrdered(nodes, DedupeNodes(nodes))
  {
    DedupeOrderAll(nodes, DedupeNodes(nodes));
    DedupeValues(nodes);
    InsertionOrder.FillLength(Keyed(nodes));
  }

  lemma {:induction false} DedupeOrderAll(nodes: seq<GraphNode>, r: seq<GraphNode>)
    requires r == DedupeNodes(nodes)
    ensures IdsDistinct(r) && FirstOccurrenceOrdered(nodes, r)
  {
    forall a, b | 0 <= a < b < |r|
      ensures r[a].id != r[b].id && FirstIndexOf(nodes, r[a].id) < FirstIndexOf(nodes, r[b].id) < |nodes|
    {
      DedupeValues(nodes);
      DedupeOrder(nodes, a, b);
    }
  }

  /** Every id of the input survives, and the node kept for it is the last
      node carrying it. */
  lemma {:induction false} DedupeNodesLastWins(nodes: seq<GraphNode>)
    ensures forall j :: 0 <= j < |nodes| ==> exists i :: 0 <= i < |DedupeNodes(nodes)| && DedupeNodes(nodes)[i].id == nodes[j].id
    ensures forall i :: 0 <= i < |DedupeNodes(nodes)| ==>
      LastIndexById(nodes, DedupeNodes(nodes)[i].id).Some? &&
      DedupeNodes(nodes)[i] == nodes[LastIndexById(nodes, DedupeNodes(nodes)[i].id).value]
  {
    DedupeValues(nodes);
    var r := DedupeNodes(nodes);
    var es := InsertionOrder.Fill(Keyed(nodes));
    forall i | 0 <= i < |r|
      ensures LastIndexById(nodes, r[i].id).Some? && r[i] == nodes[LastIndexById(nodes, r[i].id).value]
    {
      DedupeEntry(nodes, i);
    }
    forall j | 0 <= j < |nodes|
      ensures exists i :: 0 <= i < |r| && r[i].id == nodes[j].id
    {
      DedupeCovers(nodes, j);
      var i :| 0 <= i < |es| && es[i].0 == nodes[j].id;
      assert r[i].id == nodes[j].id;
    }
  }

  // ---------------------------------------------------------------------------
  // removeNodeAndRebuildNeighbors

  /** `prev.filter(n => n.id !== id)`. */
  function WithoutId(prev: seq<GraphNode>, id: string): (r: seq<GraphNode>)
    ensures |r| <= |prev|
    ensures forall n :: n in r <==> n in prev && n.id != id
  {
    if prev == [] then []
    else
      var rest := WithoutId(prev[1..], id);
      assert forall n :: n in prev <==> n == prev[0] || n in prev[1..];
      if prev[0].id != id then [prev[0]] + rest else rest
  }

  /** The filter keeps relative order: it distributes over concatenation. */
  lemma {:induction false} WithoutIdAppend(a: seq<GraphNode>, b: seq<GraphNode>, id: string)
    ensures WithoutId(a + b, id) == WithoutId(a, id) + WithoutId(b, id)
  {
    if a != [] {
      assert (a + b)[1..] == a[1..] + b;
      WithoutIdAppend(a[1..], b, id);
    } else {
      assert a + b == b;
    }
  }

  /** Where a raw entry of the node with id `selfId` points after the
      deletion, before the duplicate check: nowhere for a non-integer, an
      index outside `prev`, the node itself, or the deleted node (its id is
      missing from `filtered`). */
  function Target(prev: seq<GraphNode>, filtered: seq<GraphNode>, selfId: string, e: NeighborEntry): (r: Option<nat>)
    ensures r.Some? ==> r.value < |filtered| && filtered[r.value].id != selfId
  {
    if !e.Index? || e.i < 0 || e.i >= |prev| then None
    else if prev[e.i].id == selfId then None
    else LastIndexById(filtered, prev[e.i].id)
  }

  predicate NoDuplicates(s: seq<int>) {
    forall a, b :: 0 <= a < b < |s| ==> s[a] != s[b]
  }

  /** The loop over the raw neighbor entries: each new target is appended
      unless it is already in the list. */
  function Rebuild(prev: seq<GraphNode>, filtered: seq<GraphNode>, selfId: string, raw: seq<NeighborEntry>): (r: seq<int>)
    ensures NoDuplicates(r)
    ensures forall x :: x in r ==> 0 <= x < |filtered| && filtered[x].id != selfId
    ensures forall x :: x in r <==> exists j :: 0 <= j < |raw| && Target(prev, filtered, selfId, raw[j]) == Some(x)
    decreases |raw|
  {
    if raw == [] then []
    else
      var n := |raw| - 1;
      var acc := Rebuild(prev, filtered, selfId, raw[..n]);
      var t := Target(prev, filtered, selfId, raw[n]);
      assert forall j :: 0 <= j < n ==> raw[j] == raw[..n][j];
      if t.None? || t.value in acc then acc else acc + [t.value]
  }

  /** The same entry list, as `number[]`. */
  function AsEntries(s: seq<int>): (r: seq<NeighborEntry>)
    ensures |r| == |s| && forall j :: 0 <= j < |s| ==> r[j] == Index(s[j])
  {
    if s == [] then [] else [Index(s[0])] + AsEntries(s[1..])
  }

  /** `removeNodeAndRebuildNeighbors(prev, id)`. */
  function RemoveNode(prev: seq<GraphNode>, id: string): (r: seq<GraphNode>)
    ensures |r| == |WithoutId(prev, id)|
    ensures forall k :: 0 <= k < |r| ==> r[k].id != id
    ensures forall k :: 0 <= k < |r| ==> r[k] == WithoutId(prev, id)[k].(neighbors := r[k].neighbors)
    ensures forall k :: 0 <= k < |r| ==> r[k].neighbors.Some?
  {
    var filtered := WithoutId(prev, id);
    seq(|filtered|, k requires 0 <= k < |filtered| =>
      filtered[k].(neighbors := Some(AsEntries(Rebuild(prev, filtered, filtered[k].id, RawNeighbors(filtered[k]))))))
  }

  /** Whether some raw entry is an index into `prev` at a node with id `target`. */
  predicate PointsAt(prev: seq<GraphNode>, raw: seq<NeighborEntry>, target: string) {
    exists j :: 0 <= j < |raw| && raw[j].Index? && 0 <= raw[j].i < |prev| && prev[raw[j].i].id == target
  }

  lemma {:induction false} LastIndexSameIds(a: seq<GraphNode>, b: seq<GraphNode>, id: string)
    requires |a| == |b| && forall k :: 0 <= k < |a| ==> a[k].id == b[k].id
    ensures LastIndexById(a, id) == LastIndexById(b, id)
  {
  }

  /** Every neighbor list after a deletion is clean: integer entries that are
      valid positions of the new list, never the node itself by id, never
      twice the same. */
  lemma {:induction false} RemoveNodeClean(prev: seq<GraphNode>, id: string, k: int)
    requires 0 <= k < |RemoveNode(prev, id)|
    ensures var r := RemoveNode(prev, id);
      var nb := r[k].neighbors.value;
      (forall j :: 0 <= j < |nb| ==> nb[j].Index? && 0 <= nb[j].i < |r| && r[nb[j].i].id != r[k].id) &&
      (forall a, b :: 0 <= a < b < |nb| ==> nb[a] != nb[b])
  {
    var filtered := WithoutId(prev, id);
    RemoveNodeEntry(prev, id, k);
    RemoveNodeIds(prev, id);
    RebuildClean(prev, filtered, filtered[k].id, RawNeighbors(filtered[k]));
  }

  /** The new list of node `k` is its rebuilt list. */
  lemma RemoveNodeEntry(prev: seq<GraphNode>, id: string, k: int)
    requires 0 <= k < |WithoutId(prev, id)|
    ensures var filtered := WithoutId(prev, id);
      RemoveNode(prev, id)[k].neighbors ==
        Some(AsEntries(Rebuild(prev, filtered, filtered[k].id, RawNeighbors(filtered[k]))))
  {
  }

  /** The deletion keeps the ids of the filtered list, position by position. */
  lemma RemoveNodeIds(prev: seq<GraphNode>, id: string)
    ensures forall x :: 0 <= x < |RemoveNode(prev, id)| ==> RemoveNode(prev, id)[x].id == WithoutId(prev, id)[x].id
  {
  }

  /** A rebuilt list, as entries: valid positions of the filtered list, never
      a node with the owner's id, no position twice. */
  lemma RebuildClean(prev: seq<GraphNode>, filtered: seq<GraphNode>, selfId: string, raw: seq<NeighborEntry>)
    ensures var nb := AsEntries(Rebuild(prev, filtered, selfId, raw));
      (forall j :: 0 <= j < |nb| ==> nb[j].Index? && 0 <= nb[j].i < |filtered| && filtered[nb[j].i].id != selfId) &&
      (forall a, b :: 0 <= a < b < |nb| ==> nb[a] != nb[b])
  {
    var s := Rebuild(prev, filtered, selfId, raw);
    assert forall j :: 0 <= j < |s| ==> s[j] in s;
  }

  /** Which positions the rebuilt list of a node holds, in terms of ids. */
  lemma {:induction false} RebuildMembers(prev: seq<GraphNode>, filtered: seq<GraphNode>, selfId: string, raw: seq<NeighborEntry>, x: int)
    ensures x in Rebuild(prev, filtered, selfId, raw) <==>
      0 <= x < |filtered| && filtered[x].id != selfId && LastIndexById(filtered, filtered[x].id) == Some(x) &&
      PointsAt(prev, raw, filtered[x].id)
  {
    if x in Rebuild(prev, filtered, selfId, raw) {
      var j :| 0 <= j < |raw| && Target(prev, filtered, selfId, raw[j]) == Some(x);
      assert filtered[x].id == prev[raw[j].i].id;
    }
    if 0 <= x < |filtered| && filtered[x].id != selfId && LastIndexById(filtered, filtered[x].id) == Some(x) &&
      PointsAt(prev, raw, filtered[x].id) {
      var j :| 0 <= j < |raw| && raw[j].Index? && 0 <= raw[j].i < |prev| && prev[raw[j].i].id == filtered[x].id;
      assert Target(prev, filtered, selfId, raw[j]) == Some(x);
    }
  }

  /** Identity survives the deletion: the new list of node k holds x exactly
      when node x is not node k, is the last node carrying its id, and some
      old entry of node k pointed at a node with that id. */
  lemma {:induction false} RemoveNodeKeepsTargets(prev: seq<GraphNode>, id: string, k: int, x: int)
    requires 0 <= k < |RemoveNode(prev, id)|
    ensures var r := RemoveNode(prev, id);
      Index(x) in r[k].neighbors.value <==>
        0 <= x < |r| && r[x].id != r[k].id && LastIndexById(r, r[x].id) == Some(x) &&
        PointsAt(prev, RawNeighbors(WithoutId(prev, id)[k]), r[x].id)
  {
    var r := RemoveNode(prev, id);
    var filtered := WithoutId(prev, id);
    var raw := RawNeighbors(filtered[k]);
    var s := Rebuild(prev, filtered, filtered[k].id, raw);
    assert r[k].neighbors.value == AsEntries(s);
    assert Index(x) in AsEntries(s) <==> x in s;
    RebuildMembers(prev, filtered, filtered[k].id, raw, x);
    if 0 <= x < |r| {
      LastIndexSameIds(r, filtered, r[x].id);
    }
  }

  /** Deleting an id that no node carries keeps every node but still
      sanitises the neighbor lists. */
  lemma {:induction false} RemoveAbsentKeepsNodes(prev: seq<GraphNode>, id: string)
    requires forall k :: 0 <= k < |prev| ==> prev[k].id != id
    ensures |RemoveNode(prev, id)| == |prev|
    ensures forall k :: 0 <= k < |prev| ==> RemoveNode(prev, id)[k] == prev[k].(neighbors := RemoveNode(prev, id)[k].neighbors)
  {
    WithoutIdNoMatch(prev, id);
  }

  lemma {:induction false} WithoutIdNoMatch(prev: seq<GraphNode>, id: string)
    requires forall k :: 0 <= k < |prev| ==> prev[k].id != id
    ensures WithoutId(prev, id) == prev
  {
    if prev != [] {
      WithoutIdNoMatch(prev[1..], id);
    }
  }

  /** So on malformed input deleting an absent id is not the identity. */
  lemma {:induction false} RemoveAbsentNotIdentity()
    ensures var prev := [GraphNode("a", "a", None, None, None, None, None, None, None, Some([NotInteger]))];
      RemoveNode(prev, "b") != prev
  {
    var prev := [GraphNode("a", "a", None, None, None, None, None, None, None, Some([NotInteger]))];
    var filtered := WithoutId(prev, "b");
    assert filtered == prev;
    var s := Rebuild(prev, filtered, "a", [NotInteger]);
    assert s == [];
    assert RemoveNode(prev, "b")[0].neighbors == Some([]);
  }
}

=== FILE: graph_page.dfy ===
/** The graph page (02_frontend/src/pages/GraphPage.tsx): which nodes the
    view shows, the selected node, the guarded layout switch and the
    toolbar's horizontal offset. */
module GraphPage {
  import opened Wrappers
  import opened GraphModel
  import GraphView

  // ---------------------------------------------------------------------------
  // Filtering (lines 42-51 and 62-68)

  /** The indices, in ascending order, of the nodes whose id is in `ids`. */
  function IndicesWithId(nodes: seq<GraphNode>, ids: set<string>): (r: seq<int>)
    ensures forall k :: 0 <= k < |r| ==> 0 <= r[k] < |nodes| && nodes[r[k]].id in ids
    ensures forall i :: 0 <= i < |nodes| && nodes[i].id in ids ==> i in r
    ensures forall a, b :: 0 <= a < b < |r| ==> r[a] < r[b]
    decreases |nodes|
  {
    if nodes == [] then []
    else
      var n := |nodes| - 1;
      var prev := IndicesWithId(nodes[..n], ids);
      assert forall i :: 0 <= i < n ==> nodes[..n][i] == nodes[i];
      if nodes[n].id in ids then prev + [n] else prev
  }

  /** `filteredIndices`: every index without a filter, otherwise the nodes
      whose id the filter holds. A filter that is an empty set hides every
      node; only `None` lifts the filter. */
  function FilteredIndices(nodes: seq<GraphNode>, filter: Option<set<string>>): (r: seq<int>)
    ensures filter.None? ==> |r| == |nodes| && forall i :: 0 <= i < |nodes| ==> r[i] == i
    ensures filter.Some? ==> forall i :: i in r <==> 0 <= i < |nodes| && nodes[i].id in filter.value
    ensures forall a, b :: 0 <= a < b < |r| ==> r[a] < r[b]
  {
    if filter.None? then GraphView.Range(|nodes|) else IndicesWithId(nodes, filter.value)
  }

  /** `handleFilterGraph`: a list of ids (even an empty one) installs the set
      of its ids, `null` clears the filter. */
  function HandleFilterGraph(ids: Option<seq<string>>): (r: Option<set<string>>)
    ensures r.None? <==> ids.None?
    ensures r.Some? ==> forall x :: x in r.value <==> x in ids.value
  {
    if ids.Some? then Some(set x | x in ids.value) else None
  }

  /** A search filter shows exactly the nodes whose id the search returned,
      each once and in the order of the node list. */
  lemma FilterShowsResults(nodes: seq<GraphNode>, ids: seq<string>, i: int)
    ensures var f := FilteredIndices(nodes, HandleFilterGraph(Some(ids)));
      (i in f <==> 0 <= i < |nodes| && nodes[i].id in ids) &&
      GraphView.ActiveIndices(|nodes|, Some(f)) == f
  {
  }

  /** An empty result list hides the whole graph, while clearing the filter
      shows all of it. */
  lemma EmptyResultsHideAll(nodes: seq<GraphNode>)
    ensures FilteredIndices(nodes, HandleFilterGraph(Some([]))) == []
    ensures FilteredIndices(nodes, HandleFilterGraph(None)) == GraphView.Range(|nodes|)
  {
    NoMembersEmpty(FilteredIndices(nodes, HandleFilterGraph(Some([]))));
  }

  lemma NoMembersEmpty(f: seq<int>)
    ensures f == [] || f[0] in f
  {
  }

  // ---------------------------------------------------------------------------
  // The selected node (lines 53-55)

  /** The first node carrying the selected id; no selection, the empty id or
      an unknown id give `None`. */
  function SelectedNode(nodes: seq<GraphNode>, selectedId: Option<string>): (r: Option<GraphNode>)
    ensures r.Some? ==> selectedId.Some? && selectedId.value != [] && r.value in nodes && r.value.id == selectedId.value
    ensures selectedId.Some? && selectedId.value != [] && (exists i :: 0 <= i < |nodes| && nodes[i].id == selectedId.value) ==> r.Some?
  {
    if selectedId.Some? && selectedId.value != [] then
      var k := FindById(nodes, selectedId.value);
      if k.Some? then Some(nodes[k.value]) else None
    else None
  }

  /** When several nodes share the id, the first one is selected. */
  lemma SelectedIsFirst(nodes: seq<GraphNode>, id: string, j: nat)
    requires id != [] && j < |nodes| && nodes[j].id == id
    requires forall k :: 0 <= k < j ==> nodes[k].id != id
    ensures SelectedNode(nodes, Some(id)) == Some(nodes[j])
  {
    var k := FindById(nodes, id);
    assert k.Some?;
  }

  // ---------------------------------------------------------------------------
  // The guarded layout switch (lines 70-91)

  /** The page's layout mode, the switch lock, the mode of the pending
      120 ms debounce timer and whether the 450 ms unlock timer is pending.
      The parent is taken to apply every `onLayoutChange` it receives. */
  datatype LockState = LockState(mode: LayoutMode, locked: bool, pending: Option<LayoutMode>, unlockPending: bool)

  datatype LockEvent =
    /** A toolbar click asking for a layout mode. */
    | Request(m: LayoutMode)
    | DebounceFires
    | UnlockFires
    /** The graph reports that its layout has settled. */
    | Stabilized
    /** A metadata card of the details panel (line 175) asks the parent for
        a mode directly, past the debounce, the lock and the same-mode check. */
    | DirectChange(m: LayoutMode)

  /** `handleLayoutChangeSafe`: a request for the current mode, or one made
      while the switch is locked, is dropped; otherwise it replaces the
      pending request and restarts the debounce timer. */
  function OnRequest(s: LockState, m: LayoutMode): (r: LockState)
    ensures r.mode == s.mode && r.locked == s.locked && r.unlockPending == s.unlockPending
    ensures r.pending != s.pending ==> r.pending == Some(m) && m != s.mode && !s.locked
    ensures m != s.mode && !s.locked ==> r.pending == Some(m)
  {
    if m == s.mode || s.locked then s else s.(pending := Some(m))
  }

  /** The debounce timer: lock, apply the pending mode and (re)start the
      unlock fallback. */
  function OnDebounce(s: LockState): (r: LockState)
    ensures r.pending.None?
    ensures s.pending.Some? ==> r.mode == s.pending.value && r.locked && LockInv(r)
    ensures s.pending.None? ==> r == s
  {
    match s.pending
    case Some(m) => LockState(m, true, None, true)
    case None => s
  }

  function LockStep(s: LockState, e: LockEvent): LockState {
    match e
    case Request(m) => OnRequest(s, m)
    case DebounceFires => OnDebounce(s)
    case UnlockFires => if s.unlockPending then s.(locked := false, unlockPending := false) else s
    case Stabilized => s.(locked := false)
    case DirectChange(m) => s.(mode := m)
  }

  function LockRun(s: LockState, events: seq<LockEvent>): LockState
    decreases |events|
  {
    if events == [] then s else LockRun(LockStep(s, events[0]), events[1..])
  }

  /** A locked switch always has the fallback timer pending, so it cannot
      stay locked when the graph never reports that it settled. */
  predicate LockInv(s: LockState) {
    s.locked ==> s.unlockPending
  }

  lemma {:induction false} LockInvKept(s: LockState, events: seq<LockEvent>)
    requires LockInv(s)
    ensures LockInv(LockRun(s, events))
    decreases |events|
  {
    if events != [] {
      var t := LockStep(s, events[0]);
      assert LockInv(t);
      LockInvKept(t, events[1..]);
    }
  }

  /** Through the toolbar the mode changes only when a debounce timer
      fires, and then to the mode last requested; the only other way is a
      direct change from the details panel. */
  lemma ModeChange(s: LockState, e: LockEvent)
    ensures LockStep(s, e).mode != s.mode ==>
      (e == DebounceFires && s.pending == Some(LockStep(s, e).mode)) || e == DirectChange(LockStep(s, e).mode)
  {
  }

  /** A direct change applies even while the switch is locked, and leaves
      the lock and a pending toolbar request as they were. */
  lemma DirectBypassesLock(s: LockState, m: LayoutMode)
    ensures LockStep(s, DirectChange(m)).mode == m
    ensures LockStep(s, DirectChange(m)).locked == s.locked
    ensures LockStep(s, DirectChange(m)).pending == s.pending
  {
  }

  /** A toolbar request still pending when a card is clicked wins once its
      timer fires. */
  lemma PendingOverridesDirect(s: LockState, m: LayoutMode, p: LayoutMode)
    requires s.pending == Some(p)
    ensures LockRun(s, [DirectChange(m), DebounceFires]).mode == p
  {
    var s1 := LockStep(s, DirectChange(m));
    assert LockRun(s, [DirectChange(m), DebounceFires]) == LockRun(s1, [DebounceFires]);
  }

  /** Two clicks within the debounce window apply only the second one. */
  lemma LastRequestWins(mode: LayoutMode, a: LayoutMode, b: LayoutMode)
    requires a != mode && b != mode
    ensures LockRun(LockState(mode, false, None, false), [Request(a), Request(b), DebounceFires]).mode == b
  {
    var s0 := LockState(mode, false, None, false);
    var s1 := LockStep(s0, Request(a));
    var s2 := LockStep(s1, Request(b));
    assert LockRun(s0, [Request(a), Request(b), DebounceFires]) == LockRun(s1, [Request(b), DebounceFires]);
    assert LockRun(s1, [Request(b), DebounceFires]) == LockRun(s2, [DebounceFires]);
  }

  /** While the switch is locked no click has any effect. */
  lemma LockedIgnoresRequests(s: LockState, m: LayoutMode)
    requires s.locked
    ensures LockStep(s, Request(m)) == s
  {
  }

  /** Clicking back to the current mode inside the debounce window does not
      cancel the pending switch. */
  lemma RevertDoesNotCancel(mode: LayoutMode, a: LayoutMode)
    requires a != mode
    ensures LockRun(LockState(mode, false, None, false), [Request(a), Request(mode), DebounceFires]).mode == a
  {
    var s0 := LockState(mode, false, None, false);
    var s1 := LockStep(s0, Request(a));
    assert LockRun(s0, [Request(a), Request(mode), DebounceFires]) == LockRun(s1, [Request(mode), DebounceFires]);
    assert LockRun(s1, [Request(mode), DebounceFires]) == LockRun(s1, [DebounceFires]);
  }

  // ---------------------------------------------------------------------------
  // Toolbar offset (lines 109-118)

  /** The width of the left results panel: none without results. */
  function LeftWidth(aiResultCount: Option<nat>, collapsed: bool): int {
    if aiResultCount.Some? && aiResultCount.value > 0 then (if collapsed then 48 else 96) else 0
  }

  /** The width of the right details panel. */
  function RightWidth(hasSelected: bool, detailsOpen: bool): int {
    if hasSelected && detailsOpen then 444 else 0
  }

  /** `centerOffset`: half the difference of the two panel widths. */
  function CenterOffset(aiResultCount: Option<nat>, collapsed: bool, hasSelected: bool, detailsOpen: bool): (r: real)
    ensures r > 0.0 <==> LeftWidth(aiResultCount, collapsed) > 0 && !(hasSelected && detailsOpen)
    ensures r < 0.0 <==> hasSelected && detailsOpen
    ensures r in {0.0, 24.0, 48.0, -222.0, -198.0, -174.0}
  {
    (LeftWidth(aiResultCount, collapsed) - RightWidth(hasSelected, detailsOpen)) as real / 2.0
  }
}

=== FILE: graph_utils.dfy ===
/** Neighbor sanitising, link building and layout grouping keys
    (02_frontend/src/components/graph/graphUtils.ts). */
module GraphUtils {
  import opened Wrappers
  import opened GraphModel
  import opened Helpers

  /** The valid indices among `raw`, in order: the reference filter. */
  function ValidIndices(raw: seq<NeighborEntry>, total: int): (r: seq<int>)
    ensures |r| <= |raw|
    ensures forall x :: x in r <==> 0 <= x < total && Index(x) in raw
  {
    if raw == [] then []
    else
      var rest := ValidIndices(raw[1..], total);
      assert forall e :: e in raw <==> e == raw[0] || e in raw[1..];
      if IsValidNodeIndex(raw[0], total) then [raw[0].i] + rest else rest
  }

  /** Filtering distributes over concatenation, so the filter keeps order. */
  lemma {:induction false} ValidIndicesAppend(a: seq<NeighborEntry>, b: seq<NeighborEntry>, total: int)
    ensures ValidIndices(a + b, total) == ValidIndices(a, total) + ValidIndices(b, total)
  {
    if a != [] {
      assert (a + b)[1..] == a[1..] + b;
      ValidIndicesAppend(a[1..], b, total);
    } else {
      assert a + b == b;
    }
  }

  /** `Math.min(neighbors.length, limit)` as a loop bound: no iteration when
      the limit is not positive. */
  function PrefixLength(len: nat, limit: int): (m: nat)
    ensures m <= len && (limit >= 0 ==> m <= limit)
  {
    if limit <= 0 then 0 else if len < limit then len else limit
  }

  /** `getSafeNeighbors(node, totalNodes, limit)`: only the first
      `min(|neighbors|, limit)` raw entries are looked at, and the invalid
      ones among them are skipped without being replaced. */
  function SafeNeighbors(n: GraphNode, total: int, limit: int): (r: seq<int>)
    ensures limit >= 0 ==> |r| <= limit
    ensures forall x :: x in r ==> 0 <= x < total
    ensures forall x :: x in r <==>
      0 <= x < total && Index(x) in RawNeighbors(n)[..PrefixLength(|RawNeighbors(n)|, limit)]
  {
    var raw := RawNeighbors(n);
    ValidIndices(raw[..PrefixLength(|raw|, limit)], total)
  }

  /** The loop of `getSafeNeighbors`, step by step. */
  method SafeNeighborsLoop(n: GraphNode, total: int, limit: int) returns (out: seq<int>)
    ensures out == SafeNeighbors(n, total, limit)
  {
    var neighbors := RawNeighbors(n);
    var m := PrefixLength(|neighbors|, limit);
    out := [];
    var i := 0;
    while i < m
      invariant 0 <= i <= m
      invariant out == ValidIndices(neighbors[..i], total)
    {
      var idx := neighbors[i];
      assert neighbors[..i + 1] == neighbors[..i] + [idx];
      ValidIndicesAppend(neighbors[..i], [idx], total);
      if !IsValidNodeIndex(idx, total) {
        i := i + 1;
        continue;
      }
      out := out + [idx.i];
      i := i + 1;
    }
  }

  /** A node without a neighbors array has no safe neighbors. */
  lemma NoArrayNoNeighbors(n: GraphNode, total: int, limit: int)
    requires n.neighbors.None?
    ensures SafeNeighbors(n, total, limit) == []
  {
  }

  /** Entries past the limit never matter. */
  lemma SafeNeighborsIgnoresTail(n: GraphNode, n': GraphNode, total: int, limit: int)
    requires limit >= 0
    requires |RawNeighbors(n)| >= limit && |RawNeighbors(n')| >= limit
    requires RawNeighbors(n)[..limit] == RawNeighbors(n')[..limit]
    ensures SafeNeighbors(n, total, limit) == SafeNeighbors(n', total, limit)
  {
  }

  /** The result reaches the limit only when every inspected entry is valid:
      an invalid entry in the window is not made up for by a later one. */
  lemma {:induction false} ValidIndicesFull(raw: seq<NeighborEntry>, total: int)
    ensures |ValidIndices(raw, total)| == |raw| <==>
      forall j :: 0 <= j < |raw| ==> IsValidNodeIndex(raw[j], total)
  {
    if raw != [] {
      ValidIndicesFull(raw[1..], total);
      assert forall j :: 1 <= j < |raw| ==> raw[j] == raw[1..][j - 1];
    }
  }

  /** `buildActiveLinks`: in the similarity layout, one link (i, t) for every
      active source i and every safe neighbor t of it that is itself active,
      grouped by source in active order and then in neighbor order; no links
      in the other layouts. `activeIndices` are valid indices (a `nodes[i]`
      beyond the list would throw). */
  function BuildActiveLinks(nodes: seq<GraphNode>, active: seq<int>, mode: LayoutMode): (r: seq<(int, int)>)
    requires forall k :: 0 <= k < |active| ==> 0 <= active[k] < |nodes|
    ensures mode != Similarity ==> r == []
    ensures mode == Similarity ==> r == LinksFrom(nodes, active, active)
  {
    if mode != Similarity then [] else LinksFrom(nodes, active, active)
  }

  /** The links contributed by the sources `srcs`, keeping only targets in `active`. */
  function LinksFrom(nodes: seq<GraphNode>, srcs: seq<int>, active: seq<int>): (r: seq<(int, int)>)
    requires forall k :: 0 <= k < |srcs| ==> 0 <= srcs[k] < |nodes|
    ensures forall p :: p in r ==> p.0 in srcs && p.1 in active && p.1 in SafeNeighbors(nodes[p.0], |nodes|, 10)
  {
    if srcs == [] then []
    else
      var i := srcs[0];
      TargetsOf(i, SafeNeighbors(nodes[i], |nodes|, 10), active) + LinksFrom(nodes, srcs[1..], active)
  }

  /** The links from one source `i` to its active targets, in neighbor order. */
  function TargetsOf(i: int, targets: seq<int>, active: seq<int>): (r: seq<(int, int)>)
    ensures forall p :: p in r <==> p.0 == i && p.1 in targets && p.1 in active
  {
    if targets == [] then []
    else
      var rest := TargetsOf(i, targets[1..], active);
      assert forall t :: t in targets <==> t == targets[0] || t in targets[1..];
      if targets[0] in active then [(i, targets[0])] + rest else rest
  }

  /** Every possible link is produced: a pair is a link exactly when both ends
      are active and the target is a safe neighbor of the source. */
  lemma {:induction false} LinksComplete(nodes: seq<GraphNode>, srcs: seq<int>, active: seq<int>, s: int, t: int)
    requires forall k :: 0 <= k < |srcs| ==> 0 <= srcs[k] < |nodes|
    requires 0 <= s < |nodes|
    ensures (s, t) in LinksFrom(nodes, srcs, active) <==>
      s in srcs && t in active && t in SafeNeighbors(nodes[s], |nodes|, 10)
  {
    if srcs != [] {
      LinksComplete(nodes, srcs[1..], active, s, t);
      assert forall x :: x in srcs <==> x == srcs[0] || x in srcs[1..];
    }
  }

  /** Links are grouped by source: the sources of a concatenation contribute
      in turn. */
  lemma {:induction false} LinksFromAppend(nodes: seq<GraphNode>, a: seq<int>, b: seq<int>, active: seq<int>)
    requires forall k :: 0 <= k < |a| ==> 0 <= a[k] < |nodes|
    requires forall k :: 0 <= k < |b| ==> 0 <= b[k] < |nodes|
    ensures LinksFrom(nodes, a + b, active) == LinksFrom(nodes, a, active) + LinksFrom(nodes, b, active)
  {
    if a != [] {
      assert (a + b)[1..] == a[1..] + b;
      LinksFromAppend(nodes, a[1..], b, active);
    } else {
      assert a + b == b;
    }
  }

  /** `getLayoutGroupingKey(mode)(n)`. */
  function GroupingKey(mode: LayoutMode, n: GraphNode): (r: string)
    ensures mode == Category ==> r == n.finalCategory.GetOr("")
    ensures mode == Lod ==> r == GetLodLabel(n.lodLabel)
    ensures mode == Similarity || mode == Provider ==> r != []
    ensures (mode == Similarity || mode == Provider) && n.provider.Some? && n.provider.value != [] ==> r == n.provider.value
  {
    match mode
    case Category => n.finalCategory.GetOr("")
    case Lod => GetLodLabel(n.lodLabel)
    case _ => if n.provider.Some? && n.provider.value != [] then n.provider.value else "Unknown"
  }

  /** The level-of-detail key is already a label: grouping by it again changes nothing. */
  lemma LodKeyStable(n: GraphNode)
    ensures GetLodLabel(Some(GroupingKey(Lod, n))) == GroupingKey(Lod, n)
  {
    GetLodLabelIdempotent(n.lodLabel);
  }
}

=== FILE: graph_view.dfy ===
/** The discrete bookkeeping of the graph canvas
    (02_frontend/src/components/graph/SemanticGraph.tsx): the active index
    list, the id → index map, where nodes start when the node list is
    replaced, the layout cache, the set of nodes that react to the pointer
    and the zoom clamp. Positions are pairs of reals; the source keeps them
    in flat `Float32Array`s of twice the length. */
module GraphView {
  import opened Wrappers
  import opened AsciiText
  import opened GraphModel
  import opened GraphUtils
  import Colors
  import GraphNodeOps

  // ---------------------------------------------------------------------------
  // Active indices

  /** `[0, 1, ..., n - 1]`. */
  function Range(n: nat): (r: seq<int>)
    ensures |r| == n && forall i :: 0 <= i < n ==> r[i] == i
  {
    seq(n, i => i)
  }

  /** `filteredIndices || nodes.map((_, i) => i)`. An array is truthy even
      when it is empty, so a filter that hides everything stays in force. */
  function ActiveIndices(count: nat, filtered: Option<seq<int>>): (r: seq<int>)
    ensures filtered.Some? ==> r == filtered.value
    ensures filtered.None? ==> |r| == count && forall i :: 0 <= i < count ==> r[i] == i
  {
    if filtered.Some? then filtered.value else Range(count)
  }

  /** Without a filter every node is active, each exactly once. */
  lemma ActiveWithoutFilter(count: nat, x: int)
    ensures x in ActiveIndices(count, None) <==> 0 <= x < count
  {
    var r := ActiveIndices(count, None);
    if 0 <= x < count {
      assert r[x] == x;
    }
  }

  // ---------------------------------------------------------------------------
  // The id → index map

  /** The map filled by `nodes.forEach((n, i) => map.set(n.id, i))`: a
      later node with the same id overwrites an earlier one. */
  function IndexMap(nodes: seq<GraphNode>): (m: map<string, nat>)
    ensures forall k :: k in m ==> m[k] < |nodes| && nodes[m[k]].id == k
    ensures forall j :: 0 <= j < |nodes| ==> nodes[j].id in m
    decreases |nodes|
  {
    if nodes == [] then map[]
    else
      var n := |nodes| - 1;
      var m := IndexMap(nodes[..n]);
      assert forall j :: 0 <= j < n ==> nodes[..n][j] == nodes[j];
      m[nodes[n].id := n]
  }

  /** The map answers exactly what `LastIndexById` answers. */
  lemma {:induction false} IndexMapIsLastIndex(nodes: seq<GraphNode>, k: string)
    ensures k in IndexMap(nodes) <==> LastIndexById(nodes, k).Some?
    ensures k in IndexMap(nodes) ==> IndexMap(nodes)[k] == LastIndexById(nodes, k).value
  {
    if nodes != [] {
      var n := |nodes| - 1;
      IndexMapIsLastIndex(nodes[..n], k);
    }
  }

  /** With distinct ids each node maps to its own position. */
  lemma IndexMapDistinct(nodes: seq<GraphNode>, j: int)
    requires IdsDistinct(nodes) && 0 <= j < |nodes|
    ensures nodes[j].id in IndexMap(nodes) && IndexMap(nodes)[nodes[j].id] == j
  {
  }

  // ---------------------------------------------------------------------------
  // Position carry-over when the node list changes (lines 159-200)

  /** The refs the layout effect keeps between runs: current positions,
      target positions and the id → index map of the previous node list.
      All three start empty. */
  datatype ViewState = ViewState(current: seq<Point>, target: seq<Point>, indexMap: map<string, nat>)

  const InitialState: ViewState := ViewState([], [], map[])

  /** Where node `n` starts after a node-count change: its old position when
      its id had an index inside the old buffer, else `(x ?? 0, y ?? 0)`.
      The source's test `oldIdx * 2 < oldPositions.length` on a buffer of
      twice the length is `oldIdx < |oldPts|`. */
  function StartPoint(n: GraphNode, oldPts: seq<Point>, oldMap: map<string, nat>): Point {
    if n.id in oldMap && oldMap[n.id] < |oldPts| then oldPts[oldMap[n.id]] else StoredPoint(n)
  }

  function Zeros(n: nat): (r: seq<Point>)
    ensures |r| == n && forall i :: 0 <= i < n ==> r[i] == Point(0.0, 0.0)
  {
    seq(n, i => Point(0.0, 0.0))
  }

  /** The first part of the layout effect. `None` when the node list is
      empty (the effect returns at once); otherwise the new refs and whether
      the node count changed. */
  function Reconcile(s: ViewState, nodes: seq<GraphNode>): (r: Option<(ViewState, bool)>)
    ensures r.None? <==> nodes == []
    ensures r.Some? ==> r.value.1 == (|s.current| != |nodes|)
    ensures r.Some? && r.value.1 ==>
      |r.value.0.current| == |nodes| && r.value.0.target == Zeros(|nodes|) &&
      forall i :: 0 <= i < |nodes| ==>
        r.value.0.current[i] ==
          (if nodes[i].id in s.indexMap && s.indexMap[nodes[i].id] < |s.current|
           then s.current[s.indexMap[nodes[i].id]] else StoredPoint(nodes[i]))
    ensures r.Some? && !r.value.1 ==> r.value.0.current == s.current && r.value.0.target == s.target
    ensures r.Some? ==> forall k :: k in r.value.0.indexMap ==> r.value.0.indexMap[k] < |nodes|
    ensures r.Some? ==> forall j :: 0 <= j < |nodes| ==>
      nodes[j].id in r.value.0.indexMap && nodes[r.value.0.indexMap[nodes[j].id]].id == nodes[j].id
  {
    if nodes == [] then None
    else if |s.current| != |nodes| then
      var current := seq(|nodes|, i requires 0 <= i < |nodes| => StartPoint(nodes[i], s.current, s.indexMap));
      Some((ViewState(current, Zeros(|nodes|), IndexMap(nodes)), true))
    else
      Some((s.(indexMap := IndexMap(nodes)), false))
  }

  /** Buffers that the effect has sized agree in length with each other. */
  predicate Sized(s: ViewState) {
    |s.current| == |s.target|
  }

  /** After a run on a non-empty list both buffers hold one position per node. */
  lemma ReconcileSizes(s: ViewState, nodes: seq<GraphNode>)
    requires Sized(s) && nodes != []
    ensures var r := Reconcile(s, nodes).value.0;
      Sized(r) && |r.current| == |nodes|
  {
  }

  /** Removing a node id that is present shrinks the list. */
  lemma {:induction false} WithoutIdShrinks(prev: seq<GraphNode>, id: string, j: int)
    requires 0 <= j < |prev| && prev[j].id == id
    ensures |GraphNodeOps.WithoutId(prev, id)| < |prev|
  {
    if j > 0 {
      WithoutIdShrinks(prev[1..], id, j - 1);
    }
  }

  /** The position carry-over and the deletion of a node fit together: after
      `removeNodeAndRebuildNeighbors` every surviving node starts exactly
      where it was drawn before. */
  lemma {:induction false} DeletionKeepsPositions(s: ViewState, prev: seq<GraphNode>, id: string, k: int)
    requires IdsDistinct(prev)
    requires |s.current| == |prev| && s.indexMap == IndexMap(prev)
    requires exists d :: 0 <= d < |prev| && prev[d].id == id
    requires 0 <= k < |GraphNodeOps.RemoveNode(prev, id)|
    ensures var after := GraphNodeOps.RemoveNode(prev, id);
      var r := Reconcile(s, after);
      r.Some? && r.value.1 &&
      exists j :: 0 <= j < |prev| && prev[j] == GraphNodeOps.WithoutId(prev, id)[k] && r.value.0.current[k] == s.current[j]
  {
    var after := GraphNodeOps.RemoveNode(prev, id);
    var filtered := GraphNodeOps.WithoutId(prev, id);
    var d :| 0 <= d < |prev| && prev[d].id == id;
    WithoutIdShrinks(prev, id, d);
    var node := filtered[k];
    assert node in filtered;
    assert node in prev;
    var j :| 0 <= j < |prev| && prev[j] == node;
    IndexMapDistinct(prev, j);
    assert after[k].id == node.id;
    var r := Reconcile(s, after);
    assert r.value.0.current[k] == s.current[j];
  }

  // ---------------------------------------------------------------------------
  // The layout cache key (lines 81-88, 206)

  /** ToUint32 (section 7.1.7 of ECMA-262) on an integral number. */
  function ToUint32(x: int): (r: int)
    ensures 0 <= r < Colors.TWO_32
    ensures (x - r) % Colors.TWO_32 == 0
  {
    x % Colors.TWO_32
  }

  /** `a ^ b` on two numbers (section 13.12 of ECMA-262): both go through
      ToInt32, and the result is a signed 32-bit integer. */
  function Xor32(a: int, b: int): (r: int)
    ensures -Colors.TWO_31 <= r < Colors.TWO_31
  {
    Colors.ToInt32(((ToUint32(a) as bv32) ^ (ToUint32(b) as bv32)) as int)
  }

  /** `h << k` for `k < 32`. */
  function Shl(h: int, k: nat): (r: int)
    requires k < 32
    ensures -Colors.TWO_31 <= r < Colors.TWO_31
  {
    Colors.ToInt32(Colors.ToInt32(h) * Pow2(k))
  }

  function Pow2(k: nat): (r: nat)
    ensures r >= 1
  {
    if k == 0 then 1 else 2 * Pow2(k - 1)
  }

  /** The running hash over the active indices: it starts at 2166136261
      and, per index, is XORed with `idx + 1` and then has
      `(h << 1) + (h << 4) + (h << 7) + (h << 8) + (h << 24)` added in
      exact arithmetic. */
  function ActiveHash(active: seq<int>): (r: int)
    ensures active != [] ==> -6 * Colors.TWO_31 <= r < 6 * Colors.TWO_31
    decreases |active|
  {
    if active == [] then 2166136261
    else MixIndex(ActiveHash(active[..|active| - 1]), active[|active| - 1])
  }

  /** One round of the loop. Every shifted term is a 32-bit integer, so the
      sum stays far below 2^53 and the double arithmetic of the source is
      exact. */
  function MixIndex(hash: int, idx: int): (r: int)
    ensures -6 * Colors.TWO_31 <= r < 6 * Colors.TWO_31
  {
    var h := Xor32(hash, idx + 1);
    h + (Shl(h, 1) + Shl(h, 4) + Shl(h, 7) + Shl(h, 8) + Shl(h, 24))
  }

  /** The `useMemo` loop: the hash is folded over the indices from the
      first to the last, and the key is built from it. */
  method ComputeActiveKey(active: seq<int>) returns (key: string)
    ensures key == ActiveKey(active)
  {
    var hash := 2166136261;
    var i := 0;
    while i < |active|
      invariant 0 <= i <= |active|
      invariant hash == ActiveHash(active[..i])
    {
      ActiveHashStep(active, i);
      hash := MixIndex(hash, active[i]);
      i := i + 1;
    }
    assert active[..i] == active;
    key := NatToString(|active|) + "-" + NatToString(ToUint32(hash));
  }

  lemma ActiveHashStep(active: seq<int>, i: nat)
    requires i < |active|
    ensures ActiveHash(active[..i + 1]) == MixIndex(ActiveHash(active[..i]), active[i])
  {
    assert active[..i + 1][..i] == active[..i];
  }

  /** `${activeIndices.length}-${hash >>> 0}`: the decimal count of active
      nodes, a '-', and the decimal unsigned 32-bit value of the hash. */
  function ActiveKey(active: seq<int>): (r: string)
    ensures var c := NatToString(|active|);
      |c| + 1 < |r| && r[|c|] == '-' && AllDigits(r[..|c|]) && AllDigits(r[|c| + 1..])
    ensures var c := NatToString(|active|);
      DigitsValue(r[..|c|]) == |active| && DigitsValue(r[|c| + 1..]) == ToUint32(ActiveHash(active))
  {
    var c := NatToString(|active|);
    var u := NatToString(ToUint32(ActiveHash(active)));
    NatToStringRoundTrip(|active|);
    NatToStringRoundTrip(ToUint32(ActiveHash(active)));
    var r := c + "-" + u;
    assert r[..|c|] == c && r[|c| + 1..] == u;
    r
  }

  /** A digit string followed by '-' differs from a longer digit string
      followed by '-': they differ where the shorter one has its '-'. */
  lemma DashPosition(a: string, b: string, ra: string, rb: string)
    requires AllDigits(a) && AllDigits(b)
    ensures |a| != |b| ==> a + "-" + ra != b + "-" + rb
  {
    if |a| < |b| {
      assert (a + "-" + ra)[|a|] != (b + "-" + rb)[|a|];
    } else if |b| < |a| {
      assert (a + "-" + ra)[|b|] != (b + "-" + rb)[|b|];
    }
  }

  /** Two digit strings followed by '-' can only agree when the digit strings do. */
  lemma DigitPrefix(a: string, b: string, ra: string, rb: string)
    requires AllDigits(a) && AllDigits(b)
    requires a + "-" + ra == b + "-" + rb
    ensures a == b
  {
    DashPosition(a, b, ra, rb);
    var s := a + "-" + ra;
    assert a == s[..|a|] == b;
  }

  /** The key names the number of active nodes: equal keys mean equally many
      active nodes, so a cached layout is never reused across active sets of
      different sizes. Sets of equal size may still collide on the hash. */
  lemma ActiveKeyLength(a: seq<int>, b: seq<int>)
    requires ActiveKey(a) == ActiveKey(b)
    ensures |a| == |b|
  {
    DigitPrefix(NatToString(|a|), NatToString(|b|),
      NatToString(ToUint32(ActiveHash(a))), NatToString(ToUint32(ActiveHash(b))));
    NatToStringRoundTrip(|a|);
    NatToStringRoundTrip(|b|);
  }

  /** The string a layout mode is spelled as. */
  function ModeName(mode: LayoutMode): string {
    match mode
    case Similarity => "similarity"
    case Category => "category"
    case Lod => "lod"
    case Provider => "provider"
  }

  /** `layoutMode === 'similarity' ? layoutMode : `${layoutMode}:${activeIndicesKey}``. */
  function CacheKey(mode: LayoutMode, activeKey: string): (r: string)
    ensures mode == Similarity ==> r == "similarity"
    ensures mode != Similarity ==> r == ModeName(mode) + ":" + activeKey
  {
    if mode == Similarity then ModeName(mode) else ModeName(mode) + ":" + activeKey
  }

  /** Grouped layouts are cached per mode and active set, the similarity
      layout once for all active sets: two keys agree exactly when both are
      similarity keys or both name the same grouped mode and active key. */
  lemma CacheKeyInjective(m1: LayoutMode, k1: string, m2: LayoutMode, k2: string)
    ensures CacheKey(m1, k1) == CacheKey(m2, k2) <==>
      (m1 == Similarity && m2 == Similarity) || (m1 == m2 && m1 != Similarity && k1 == k2)
  {
    var a, b := CacheKey(m1, k1), CacheKey(m2, k2);
    if a == b {
      assert a[0] == b[0];
      if m1 != Similarity && m2 != Similarity {
        assert m1 == m2 by {
          if m1 != m2 {
          }
        }
        var p := ModeName(m1) + ":";
        assert a == p + k1 && b == p + k2;
        assert k1 == a[|p|..] == b[|p|..] == k2;
      }
    }
  }

  /** The targets installed by the effect (lines 209-252) and the updated
      cache. A cached buffer is reused when it fits the target buffer;
      otherwise it is evicted and the freshly computed layout `computed` is
      stored in its place. */
  function InstallTargets(cache: map<string, seq<Point>>, key: string, target: seq<Point>, computed: seq<Point>): (r: (seq<Point>, map<string, seq<Point>>))
    requires |computed| == |target|
    ensures |r.0| == |target|
    ensures key in cache && |cache[key]| == |target| ==> r.0 == cache[key] && r.1 == cache
    ensures !(key in cache && |cache[key]| == |target|) ==> r.0 == computed
    ensures key in r.1 && r.1[key] == r.0
    ensures forall k :: k != key ==> (k in r.1 <==> k in cache)
    ensures forall k :: k != key && k in cache ==> r.1[k] == cache[k]
  {
    if key in cache && |cache[key]| == |target| then (cache[key], cache)
    else (computed, cache[key := computed])
  }

  /** Installing the same key twice for the same node count gives the same
      targets, whatever the second computation would have produced. */
  lemma CacheReplay(cache: map<string, seq<Point>>, key: string, target: seq<Point>, computed1: seq<Point>, computed2: seq<Point>)
    requires |computed1| == |target| && |computed2| == |target|
    ensures var (t1, c1) := InstallTargets(cache, key, target, computed1);
      InstallTargets(c1, key, target, computed2) == (t1, c1)
  {
  }

  /** Similarity targets: every node at its stored `(x ?? 0, y ?? 0)` (lines 221-225). */
  function SimilarityTargets(nodes: seq<GraphNode>): (r: seq<Point>)
    ensures |r| == |nodes|
    ensures forall i :: 0 <= i < |nodes| ==> r[i] == Point(nodes[i].x.GetOr(0.0), nodes[i].y.GetOr(0.0))
  {
    seq(|nodes|, i requires 0 <= i < |nodes| => StoredPoint(nodes[i]))
  }

  // ---------------------------------------------------------------------------
  // Interactive set (lines 490-500)

  /** The indices the pointer may pick. With a selection (a non-empty id):
      the selected node's index and its first ten safe neighbors, or nothing
      when the id is unknown; without one: the active indices. */
  function InteractiveSet(nodes: seq<GraphNode>, active: seq<int>, selectedId: Option<string>): (r: set<int>)
    ensures selectedId.None? || selectedId.value == [] ==> forall x :: x in r <==> x in active
  {
    if selectedId.Some? && selectedId.value != [] then
      var m := IndexMap(nodes);
      var id := selectedId.value;
      if id in m && 0 <= m[id] < |nodes| then
        {m[id] as int} + set x | x in SafeNeighbors(nodes[m[id]], |nodes|, 10)
      else {}
    else set x | x in active
  }

  /** With a selection, the interactive set is the last node carrying the
      selected id plus its safe neighbors; an unknown id leaves it empty. */
  lemma InteractiveWithSelection(nodes: seq<GraphNode>, active: seq<int>, id: string, x: int)
    requires id != []
    ensures var l := LastIndexById(nodes, id);
      x in InteractiveSet(nodes, active, Some(id)) <==>
        l.Some? && (x == l.value || x in SafeNeighbors(nodes[l.value], |nodes|, 10))
    ensures x in InteractiveSet(nodes, active, Some(id)) ==> 0 <= x < |nodes|
  {
    IndexMapIsLastIndex(nodes, id);
  }

  // ---------------------------------------------------------------------------
  // Wheel zoom (line 595)

  const MIN_SCALE: real := 10.0
  const MAX_SCALE: real := 500000.0

  /** `Math.max(10, Math.min(500000, s))`. */
  function ClampScale(s: real): (r: real)
    ensures MIN_SCALE <= r <= MAX_SCALE
    ensures MIN_SCALE <= s <= MAX_SCALE ==> r == s
    ensures s < MIN_SCALE ==> r == MIN_SCALE
    ensures s > MAX_SCALE ==> r == MAX_SCALE
  {
    var m := if s < MAX_SCALE then s else MAX_SCALE;
    if m > MIN_SCALE then m else MIN_SCALE
  }

  /** The new scale after a wheel step: `factor` stands for
      `Math.pow(1.002, -deltaY)`, a positive number. */
  function WheelScale(oldScale: real, factor: real): (r: real)
    requires factor > 0.0
    ensures MIN_SCALE <= r <= MAX_SCALE
  {
    ClampScale(oldScale * factor)
  }

  /** Scrolling up (`factor >= 1`) never zooms out and scrolling down never
      zooms in. */
  lemma WheelDirection(oldScale: real, factor: real)
    requires factor > 0.0 && oldScale >= 0.0
    ensures factor >= 1.0 ==> WheelScale(oldScale, factor) >= ClampScale(oldScale)
    ensures factor <= 1.0 ==> WheelScale(oldScale, factor) <= ClampScale(oldScale)
  {
    var p := oldScale * factor;
    if factor >= 1.0 {
      ScaleProduct(oldScale, factor, p);
      ClampMonotone(oldScale, p);
    }
    if factor <= 1.0 {
      ScaleProduct(oldScale, factor, p);
      ClampMonotone(p, oldScale);
    }
  }

  lemma ScaleProduct(s: real, f: real, p: real)
    requires f > 0.0 && s >= 0.0 && p == s * f
    ensures f >= 1.0 ==> p >= s
    ensures f <= 1.0 ==> p <= s
  {
    assert p - s == s * (f - 1.0);
  }

  /** Clamping keeps the order of scales. */
  lemma ClampMonotone(a: real, b: real)
    ensures a <= b ==> ClampScale(a) <= ClampScale(b)
  {
  }

  /** Zoom steps compose without drift out of range: clamping twice is
      clamping once. */
  lemma ClampIdempotent(s: real)
    ensures ClampScale(ClampScale(s)) == ClampScale(s)
  {
  }
}

=== FILE: grouped_layout.dfy ===
/** The grouped layouts of the graph view (category, level of detail,
    provider; 02_frontend/src/components/graph/SemanticGraph.tsx lines
    227-248). The active nodes are partitioned by their grouping key and the
    keys sorted. Group `k` gets the outer cell `(k mod cols, k div cols)` of a
    `cols × cols` grid with `cols = ⌈√#groups⌉`; member `j` of a group of size
    `s` gets the inner cell `(j mod c, j div c)` with `c = ⌈√s⌉`. Cells are
    integers here; the source scales them to floats. */
module GroupedLayout {
  import opened GraphModel
  import opened GraphUtils
  import opened StringOrder
  import GraphView

  /** `getLayoutGroupingKey(layoutMode)`: the key the loops group by. The
      members below take the key function as a parameter, as the source does. */
  function KeyFnFor(mode: LayoutMode): GraphNode -> string {
    n => GroupingKey(mode, n)
  }

  /** Every active entry indexes a node. */
  predicate ValidActive(nodes: seq<GraphNode>, active: seq<int>) {
    forall k :: 0 <= k < |active| ==> 0 <= active[k] < |nodes|
  }

  lemma ValidPrefix(nodes: seq<GraphNode>, active: seq<int>, n: nat)
    requires ValidActive(nodes, active) && n <= |active|
    ensures ValidActive(nodes, active[..n])
  {
    assert forall k :: 0 <= k < n ==> active[..n][k] == active[k];
  }

  // ---------------------------------------------------------------------------
  // The group map

  /** `Array.from(groups.keys())`: every key once, in order of first appearance. */
  function GroupKeys(nodes: seq<GraphNode>, keyFn: GraphNode -> string, active: seq<int>): (r: seq<string>)
    requires ValidActive(nodes, active)
    ensures Distinct(r)
    ensures forall k :: k in r ==> exists i :: 0 <= i < |active| && keyFn(nodes[active[i]]) == k
    ensures forall i :: 0 <= i < |active| ==> keyFn(nodes[active[i]]) in r
    decreases |active|
  {
    if active == [] then []
    else
      var n := |active| - 1;
      ValidPrefix(nodes, active, n);
      assert forall i :: 0 <= i < n ==> active[..n][i] == active[i];
      var acc := GroupKeys(nodes, keyFn, active[..n]);
      var k := keyFn(nodes[active[n]]);
      if k in acc then acc else acc + [k]
  }

  /** `groups.get(key)`: the active indices whose node has `key`, in active order. */
  function Members(nodes: seq<GraphNode>, keyFn: GraphNode -> string, active: seq<int>, key: string): (r: seq<int>)
    requires ValidActive(nodes, active)
    ensures |r| <= |active|
    ensures ValidActive(nodes, r)
    ensures forall x :: x in r <==> x in active && 0 <= x < |nodes| && keyFn(nodes[x]) == key
    ensures Distinct(active) ==> Distinct(r)
    decreases |active|
  {
    if active == [] then []
    else
      var n := |active| - 1;
      ValidPrefix(nodes, active, n);
      assert active == active[..n] + [active[n]];
      var acc := Members(nodes, keyFn, active[..n], key);
      if keyFn(nodes[active[n]]) == key then
        assert Distinct(active) ==> active[n] !in active[..n];
        acc + [active[n]]
      else acc
  }

  // ---------------------------------------------------------------------------
  // Grid arithmetic

  /** `Math.ceil(Math.sqrt(n))` on a whole number: the least `c` with `c·c >= n`. */
  function CeilSqrt(n: nat): (c: nat)
    ensures c * c >= n
    ensures c == 0 || (c - 1) * (c - 1) < n
  {
    CeilSqrtFrom(n, 0)
  }

  function CeilSqrtFrom(n: nat, c: nat): (r: nat)
    requires c == 0 || (c - 1) * (c - 1) < n
    ensures r * r >= n
    ensures r == 0 || (r - 1) * (r - 1) < n
    decreases n - c
  {
    if c * c >= n then c
    else
      assert c < n by {
        if c >= 1 {
          assert c <= c * c;
        }
      }
      CeilSqrtFrom(n, c + 1)
  }

  lemma SquareMonotone(a: nat, b: nat)
    requires a <= b
    ensures a * a <= b * b
  {
    assert a * a <= a * b <= b * b;
  }

  /** No smaller grid holds `n` cells. */
  lemma CeilSqrtLeast(n: nat, c: nat)
    requires c * c >= n
    ensures CeilSqrt(n) <= c
  {
    var r := CeilSqrt(n);
    if c < r {
      SquareMonotone(c, r - 1);
    }
  }

  lemma CeilSqrtPositive(n: nat)
    requires n > 0
    ensures CeilSqrt(n) > 0
  {
  }

  datatype Cell = Cell(col: nat, row: nat)

  /** Cell `k` of a grid `cols` wide, filled row by row. */
  function CellOf(k: nat, cols: nat): Cell
    requires cols > 0
  {
    Cell(k % cols, k / cols)
  }

  /** Different positions get different cells. */
  lemma CellInjective(a: nat, b: nat, cols: nat)
    requires cols > 0
    ensures CellOf(a, cols) == CellOf(b, cols) ==> a == b
  {
    assert a == cols * (a / cols) + a % cols;
    assert b == cols * (b / cols) + b % cols;
  }

  /** The first `cols·cols` positions fill a square grid. */
  lemma CellInGrid(k: nat, cols: nat)
    requires cols > 0 && k < cols * cols
    ensures CellOf(k, cols).col < cols && CellOf(k, cols).row < cols
  {
    assert cols * (k / cols) <= k;
    ScaleAtLeast(cols, k / cols);
  }

  /** A multiple `c·q` with `q >= c` is at least the square `c·c`. */
  lemma ScaleAtLeast(c: nat, q: nat)
    ensures q >= c ==> c * c <= c * q
  {
    if q >= c {
      assert c * q == c * c + c * (q - c);
    }
  }

  /** The point of member `ii` of group `ki`: `gx + (ii % iCols) * iSp`,
      `gy + floor(ii / iCols) * iSp` with `sp = 4 / cols`, `iSp = sp * 0.8 / iCols`.
      Inside the loops both grids are non-empty, so `Math.max(_, 1)` is the
      grid width itself. */
  function PointOf(ki: nat, cols: nat, ii: nat, iCols: nat): Point
    requires cols > 0 && iCols > 0
  {
    var sp := 4.0 / cols as real;
    Spot(CellOf(ki, cols), sp, CellOf(ii, iCols), sp * 0.8 / iCols as real)
  }

  /** Inner cell `c` of the box at outer cell `o`, for boxes `sp` and inner
      cells `iSp` apart. */
  function Spot(o: Cell, sp: real, c: Cell, iSp: real): Point {
    Point(o.col as real * sp + c.col as real * iSp, o.row as real * sp + c.row as real * iSp)
  }

  // ---------------------------------------------------------------------------
  // Placement of one node

  function SortedKeys(nodes: seq<GraphNode>, keyFn: GraphNode -> string, active: seq<int>): (r: seq<string>)
    requires ValidActive(nodes, active)
    ensures StrictlySorted(r) && Distinct(r)
    ensures forall k :: k in r <==> k in GroupKeys(nodes, keyFn, active)
  {
    var r := Sort(GroupKeys(nodes, keyFn, active));
    SortedDistinct(r);
    r
  }

  /** The first position of `x` in `s`. */
  function IndexOf<T(==)>(s: seq<T>, x: T): (r: nat)
    requires x in s
    ensures r < |s| && s[r] == x
    ensures forall j :: 0 <= j < r ==> s[j] != x
  {
    if s[0] == x then 0 else 1 + IndexOf(s[1..], x)
  }

  lemma IndexOfDistinct<T>(s: seq<T>, j: nat)
    requires Distinct(s) && j < |s|
    ensures IndexOf(s, s[j]) == j
  {
  }

  /** The position of node `i`'s group among the sorted keys. */
  function KeyIndex(nodes: seq<GraphNode>, keyFn: GraphNode -> string, active: seq<int>, i: int): (r: nat)
    requires ValidActive(nodes, active) && i in active
    ensures r < |SortedKeys(nodes, keyFn, active)|
    ensures SortedKeys(nodes, keyFn, active)[r] == keyFn(nodes[i])
  {
    KeyPresent(nodes, keyFn, active, i);
    IndexOf(SortedKeys(nodes, keyFn, active), keyFn(nodes[i]))
  }

  lemma KeyPresent(nodes: seq<GraphNode>, keyFn: GraphNode -> string, active: seq<int>, i: int)
    requires ValidActive(nodes, active) && i in active
    ensures 0 <= i < |nodes| && keyFn(nodes[i]) in SortedKeys(nodes, keyFn, active)
  {
    var p :| 0 <= p < |active| && active[p] == i;
    assert keyFn(nodes[active[p]]) in GroupKeys(nodes, keyFn, active);
  }

  /** The members of node `i`'s group. */
  function GroupOf(nodes: seq<GraphNode>, keyFn: GraphNode -> string, active: seq<int>, i: int): (r: seq<int>)
    requires ValidActive(nodes, active) && i in active
    ensures i in r
  {
    Members(nodes, keyFn, active, keyFn(nodes[i]))
  }

  /** The position of node `i` within its group. */
  function MemberIndex(nodes: seq<GraphNode>, keyFn: GraphNode -> string, active: seq<int>, i: int): (r: nat)
    requires ValidActive(nodes, active) && i in active
    ensures r < |GroupOf(nodes, keyFn, active, i)|
    ensures GroupOf(nodes, keyFn, active, i)[r] == i
  {
    IndexOf(GroupOf(nodes, keyFn, active, i), i)
  }

  /** Where the grouped layout puts active node `i`. */
  function Place(nodes: seq<GraphNode>, keyFn: GraphNode -> string, active: seq<int>, i: int): Point
    requires ValidActive(nodes, active) && i in active
  {
    var ki := KeyIndex(nodes, keyFn, active, i);
    var ii := MemberIndex(nodes, keyFn, active, i);
    PointOf(ki, CeilSqrt(|SortedKeys(nodes, keyFn, active)|), ii, CeilSqrt(|GroupOf(nodes, keyFn, active, i)|))
  }

  /** Whether the loops have placed node `x` before member `ii` of group `ki`. */
  predicate Placed(nodes: seq<GraphNode>, keyFn: GraphNode -> string, active: seq<int>, x: int, ki: nat, ii: nat)
    requires ValidActive(nodes, active)
  {
    x in active &&
    (KeyIndex(nodes, keyFn, active, x) < ki ||
     (KeyIndex(nodes, keyFn, active, x) == ki && MemberIndex(nodes, keyFn, active, x) < ii))
  }

  /** The loops of lines 239-248 over the sorted keys and their members,
      writing into a zeroed buffer. Active indices are distinct, as both
      producers of the active list guarantee. */
  method GroupedTargets(nodes: seq<GraphNode>, keyFn: GraphNode -> string, active: seq<int>) returns (targets: seq<Point>)
    requires ValidActive(nodes, active) && Distinct(active)
    ensures |targets| == |nodes|
    ensures forall x :: 0 <= x < |nodes| && x !in active ==> targets[x] == Point(0.0, 0.0)
    ensures forall x :: 0 <= x < |nodes| && x in active ==> targets[x] == Place(nodes, keyFn, active, x)
  {
    var keys := SortedKeys(nodes, keyFn, active);
    var cols := CeilSqrt(|keys|);
    targets := GraphView.Zeros(|nodes|);
    for ki := 0 to |keys|
      invariant |targets| == |nodes|
      invariant forall x :: 0 <= x < |nodes| ==>
        targets[x] == (if Placed(nodes, keyFn, active, x, ki, 0) then Place(nodes, keyFn, active, x) else Point(0.0, 0.0))
    {
      CeilSqrtPositive(|keys|);
      var items := Members(nodes, keyFn, active, keys[ki]);
      var iCols := CeilSqrt(|items|);
      for ii := 0 to |items|
        invariant |targets| == |nodes|
        invariant forall x :: 0 <= x < |nodes| ==>
          targets[x] == (if Placed(nodes, keyFn, active, x, ki, ii) then Place(nodes, keyFn, active, x) else Point(0.0, 0.0))
      {
        CeilSqrtPositive(|items|);
        var idx := items[ii];
        PlaceStep(nodes, keyFn, active, keys, ki, items, ii);
        targets := targets[idx := PointOf(ki, cols, ii, iCols)];
      }
      GroupDone(nodes, keyFn, active, keys, ki, items);
    }
  }

  /** Member `ii` of group `ki` is placed at `Place`, and it is the only node
      that moves from not placed to placed at this step. */
  lemma PlaceStep(nodes: seq<GraphNode>, keyFn: GraphNode -> string, active: seq<int>, keys: seq<string>, ki: nat, items: seq<int>, ii: nat)
    requires ValidActive(nodes, active) && Distinct(active)
    requires keys == SortedKeys(nodes, keyFn, active) && ki < |keys|
    requires items == Members(nodes, keyFn, active, keys[ki]) && ii < |items|
    ensures items[ii] in active && 0 <= items[ii] < |nodes|
    ensures CeilSqrt(|keys|) > 0 && CeilSqrt(|items|) > 0
    ensures Place(nodes, keyFn, active, items[ii]) == PointOf(ki, CeilSqrt(|keys|), ii, CeilSqrt(|items|))
    ensures forall x :: Placed(nodes, keyFn, active, x, ki, ii + 1) <==>
      Placed(nodes, keyFn, active, x, ki, ii) || x == items[ii]
  {
    var idx := items[ii];
    assert idx in items;
    CeilSqrtPositive(|keys|);
    CeilSqrtPositive(|items|);
    PlacedSelf(nodes, keyFn, active, keys, ki, items, ii);
    forall x
      ensures Placed(nodes, keyFn, active, x, ki, ii + 1) <==> Placed(nodes, keyFn, active, x, ki, ii) || x == idx
    {
      StepAt(nodes, keyFn, active, keys, ki, items, ii, x);
    }
  }

  lemma StepAt(nodes: seq<GraphNode>, keyFn: GraphNode -> string, active: seq<int>, keys: seq<string>, ki: nat, items: seq<int>, ii: nat, x: int)
    requires ValidActive(nodes, active) && Distinct(active)
    requires keys == SortedKeys(nodes, keyFn, active) && ki < |keys|
    requires items == Members(nodes, keyFn, active, keys[ki]) && ii < |items|
    ensures Placed(nodes, keyFn, active, x, ki, ii + 1) <==> Placed(nodes, keyFn, active, x, ki, ii) || x == items[ii]
  {
    PlacedSelf(nodes, keyFn, active, keys, ki, items, ii);
    if x in active {
      var kx := KeyIndex(nodes, keyFn, active, x);
      var mx := MemberIndex(nodes, keyFn, active, x);
      assert Placed(nodes, keyFn, active, x, ki, ii + 1) <==> kx < ki || (kx == ki && mx < ii + 1);
      assert Placed(nodes, keyFn, active, x, ki, ii) <==> kx < ki || (kx == ki && mx < ii);
      if kx == ki {
        SameGroup(nodes, keyFn, active, keys, ki, items, x);
        assert items[mx] == x;
      }
    }
  }

  /** Member `ii` of group `ki` has exactly these indices. */
  lemma PlacedSelf(nodes: seq<GraphNode>, keyFn: GraphNode -> string, active: seq<int>, keys: seq<string>, ki: nat, items: seq<int>, ii: nat)
    requires ValidActive(nodes, active) && Distinct(active)
    requires keys == SortedKeys(nodes, keyFn, active) && ki < |keys|
    requires items == Members(nodes, keyFn, active, keys[ki]) && ii < |items|
    ensures items[ii] in active
    ensures KeyIndex(nodes, keyFn, active, items[ii]) == ki
    ensures GroupOf(nodes, keyFn, active, items[ii]) == items
    ensures MemberIndex(nodes, keyFn, active, items[ii]) == ii
  {
    var idx := items[ii];
    assert idx in items;
    IndexOfDistinct(keys, ki);
    IndexOfDistinct(items, ii);
  }

  /** A node whose group is the `ki`-th shares the member list of that group. */
  lemma SameGroup(nodes: seq<GraphNode>, keyFn: GraphNode -> string, active: seq<int>, keys: seq<string>, ki: nat, items: seq<int>, x: int)
    requires ValidActive(nodes, active)
    requires keys == SortedKeys(nodes, keyFn, active) && ki < |keys|
    requires items == Members(nodes, keyFn, active, keys[ki])
    requires x in active && KeyIndex(nodes, keyFn, active, x) == ki
    ensures GroupOf(nodes, keyFn, active, x) == items
  {
  }

  /** After the last member of group `ki`, exactly the nodes of the first
      `ki + 1` groups are placed. */
  lemma GroupDone(nodes: seq<GraphNode>, keyFn: GraphNode -> string, active: seq<int>, keys: seq<string>, ki: nat, items: seq<int>)
    requires ValidActive(nodes, active)
    requires keys == SortedKeys(nodes, keyFn, active) && ki < |keys|
    requires items == Members(nodes, keyFn, active, keys[ki])
    ensures forall x :: Placed(nodes, keyFn, active, x, ki, |items|) <==> Placed(nodes, keyFn, active, x, ki + 1, 0)
  {
    forall x
      ensures Placed(nodes, keyFn, active, x, ki, |items|) <==> Placed(nodes, keyFn, active, x, ki + 1, 0)
    {
      if x in active {
        var kx := KeyIndex(nodes, keyFn, active, x);
        var mx := MemberIndex(nodes, keyFn, active, x);
        assert Placed(nodes, keyFn, active, x, ki, |items|) <==> kx < ki || (kx == ki && mx < |items|);
        assert Placed(nodes, keyFn, active, x, ki + 1, 0) <==> kx < ki + 1;
        if kx == ki {
          SameGroup(nodes, keyFn, active, keys, ki, items, x);
        }
      }
    }
  }

  // ---------------------------------------------------------------------------
  // No two nodes share a cell

  /** Nodes of different groups get different outer cells, inside the
      `cols × cols` grid. */
  lemma GroupCellsDistinct(nodes: seq<GraphNode>, keyFn: GraphNode -> string, active: seq<int>, i: int, j: int)
    requires ValidActive(nodes, active) && i in active && j in active
    requires keyFn(nodes[i]) != keyFn(nodes[j])
    ensures var cols := CeilSqrt(|SortedKeys(nodes, keyFn, active)|);
      cols > 0 &&
      CellOf(KeyIndex(nodes, keyFn, active, i), cols) != CellOf(KeyIndex(nodes, keyFn, active, j), cols) &&
      CellOf(KeyIndex(nodes, keyFn, active, i), cols).row < cols &&
      CellOf(KeyIndex(nodes, keyFn, active, i), cols).col < cols
  {
    var n := |SortedKeys(nodes, keyFn, active)|;
    var cols := CeilSqrt(n);
    var ki := KeyIndex(nodes, keyFn, active, i);
    CeilSqrtPositive(n);
    CellInjective(ki, KeyIndex(nodes, keyFn, active, j), cols);
    CellInGrid(ki, cols);
  }

  /** Different members of one group get different inner cells, inside the
      group's own square grid. */
  lemma MemberCellsDistinct(nodes: seq<GraphNode>, keyFn: GraphNode -> string, active: seq<int>, i: int, j: int)
    requires ValidActive(nodes, active) && i in active && j in active && i != j
    requires keyFn(nodes[i]) == keyFn(nodes[j])
    ensures GroupOf(nodes, keyFn, active, i) == GroupOf(nodes, keyFn, active, j)
    ensures var c := CeilSqrt(|GroupOf(nodes, keyFn, active, i)|);
      c > 0 &&
      CellOf(MemberIndex(nodes, keyFn, active, i), c) != CellOf(MemberIndex(nodes, keyFn, active, j), c) &&
      CellOf(MemberIndex(nodes, keyFn, active, i), c).row < c &&
      CellOf(MemberIndex(nodes, keyFn, active, i), c).col < c
  {
    var g := GroupOf(nodes, keyFn, active, i);
    var c := CeilSqrt(|g|);
    var mi := MemberIndex(nodes, keyFn, active, i);
    CeilSqrtPositive(|g|);
    CellInjective(mi, MemberIndex(nodes, keyFn, active, j), c);
    CellInGrid(mi, c);
  }

  /** An inner offset stays below the 80% of a group's box that the source
      reserves for it. */
  lemma InnerOffset(ic: nat, iCols: nat, sp: real)
    requires ic < iCols && sp > 0.0
    ensures 0.0 <= ic as real * (sp * 0.8 / iCols as real) < sp
  {
    var q := sp * 0.8 / iCols as real;
    assert q * iCols as real == sp * 0.8;
    assert ic as real * q <= (iCols - 1) as real * q by {
      assert (iCols - 1) as real * q - ic as real * q == (iCols - 1 - ic) as real * q;
    }
    assert (iCols - 1) as real * q == q * iCols as real - q;
  }

  /** Both offsets of an inner cell inside its grid stay below the box size. */
  lemma InnerOffsets(n: Cell, iCols: nat, sp: real)
    requires n.col < iCols && n.row < iCols && sp > 0.0
    ensures 0.0 <= n.col as real * (sp * 0.8 / iCols as real) < sp
    ensures 0.0 <= n.row as real * (sp * 0.8 / iCols as real) < sp
  {
    InnerOffset(n.col, iCols, sp);
    InnerOffset(n.row, iCols, sp);
  }

  /** Two offsets below `sp` cannot bridge different multiples of `sp`. */
  lemma Separated(o1: nat, o2: nat, sp: real, f1: real, f2: real)
    requires o1 != o2 && sp > 0.0
    requires 0.0 <= f1 < sp && 0.0 <= f2 < sp
    ensures o1 as real * sp + f1 != o2 as real * sp + f2
  {
    if o1 < o2 {
      Ordered(o1 as real, o2 as real, sp, f1, f2);
    } else {
      Ordered(o2 as real, o1 as real, sp, f2, f1);
    }
  }

  /** The box one step further on starts past every offset of this one. */
  lemma Ordered(x1: real, x2: real, sp: real, f1: real, f2: real)
    requires x1 + 1.0 <= x2 && sp > 0.0
    requires 0.0 <= f1 < sp && 0.0 <= f2 < sp
    ensures x1 * sp + f1 < x2 * sp + f2
  {
    var d := x2 - x1;
    assert x2 * sp == x1 * sp + d * sp;
    assert (d - 1.0) * sp >= 0.0;
    assert d * sp == (d - 1.0) * sp + sp;
  }

  /** Within one box, different inner cells are different points. */
  lemma InnerSeparated(base: real, c1: nat, c2: nat, iSp: real)
    requires c1 != c2 && iSp > 0.0
    ensures base + c1 as real * iSp != base + c2 as real * iSp
  {
    if c1 < c2 {
      assert c2 as real * iSp - c1 as real * iSp == (c2 - c1) as real * iSp > 0.0;
    } else {
      assert c1 as real * iSp - c2 as real * iSp == (c1 - c2) as real * iSp > 0.0;
    }
  }

  /** Points in different outer cells differ: an inner offset never reaches
      the next box. */
  lemma OuterApart(ki: nat, kj: nat, cols: nat, ii: nat, ij: nat, ci: nat, cj: nat)
    requires cols > 0 && ci > 0 && cj > 0
    requires ii < ci * ci && ij < cj * cj && ki != kj
    ensures PointOf(ki, cols, ii, ci) != PointOf(kj, cols, ij, cj)
  {
    CellInGrid(ii, ci);
    CellInGrid(ij, cj);
    CellInjective(ki, kj, cols);
    PointsOfCellsApart(CellOf(ki, cols), CellOf(kj, cols), cols, CellOf(ii, ci), ci, CellOf(ij, cj), cj);
  }

  /** The same, in terms of the cells: with the inner cells inside their
      grids, different boxes give different points. */
  lemma PointsOfCellsApart(oi: Cell, oj: Cell, cols: nat, ni: Cell, ci: nat, nj: Cell, cj: nat)
    requires cols > 0 && ci > 0 && cj > 0 && oi != oj
    requires ni.col < ci && ni.row < ci && nj.col < cj && nj.row < cj
    ensures Spot(oi, 4.0 / cols as real, ni, 4.0 / cols as real * 0.8 / ci as real) !=
      Spot(oj, 4.0 / cols as real, nj, 4.0 / cols as real * 0.8 / cj as real)
  {
    InnerOffsets(ni, ci, 4.0 / cols as real);
    InnerOffsets(nj, cj, 4.0 / cols as real);
    BoxesApart(oi, oj, 4.0 / cols as real, ni, 4.0 / cols as real * 0.8 / ci as real, nj, 4.0 / cols as real * 0.8 / cj as real);
  }

  /** Inner offsets below the box size keep points of different boxes apart. */
  lemma BoxesApart(oi: Cell, oj: Cell, sp: real, ni: Cell, si: real, nj: Cell, sj: real)
    requires oi != oj && sp > 0.0
    requires 0.0 <= ni.col as real * si < sp && 0.0 <= ni.row as real * si < sp
    requires 0.0 <= nj.col as real * sj < sp && 0.0 <= nj.row as real * sj < sp
    ensures Spot(oi, sp, ni, si) != Spot(oj, sp, nj, sj)
  {
    if oi.col != oj.col {
      Separated(oi.col, oj.col, sp, ni.col as real * si, nj.col as real * sj);
    } else {
      Separated(oi.row, oj.row, sp, ni.row as real * si, nj.row as real * sj);
    }
  }

  /** Points of one outer cell with different inner cells differ. */
  lemma InnerApart(k: nat, cols: nat, ii: nat, ij: nat, c: nat)
    requires cols > 0 && c > 0 && ii != ij
    ensures PointOf(k, cols, ii, c) != PointOf(k, cols, ij, c)
  {
    CellInjective(ii, ij, c);
    CellsApart(CellOf(k, cols), 4.0 / cols as real, CellOf(ii, c), CellOf(ij, c), 4.0 / cols as real * 0.8 / c as real);
  }

  /** Different inner cells of one box are different points. */
  lemma CellsApart(o: Cell, sp: real, ni: Cell, nj: Cell, s: real)
    requires ni != nj && s > 0.0
    ensures Spot(o, sp, ni, s) != Spot(o, sp, nj, s)
  {
    if ni.col != nj.col {
      InnerSeparated(o.col as real * sp, ni.col, nj.col, s);
    } else {
      InnerSeparated(o.row as real * sp, ni.row, nj.row, s);
    }
  }

  /** The grouped layout never stacks two active nodes on one point. */
  lemma PlacesDistinct(nodes: seq<GraphNode>, keyFn: GraphNode -> string, active: seq<int>, i: int, j: int)
    requires ValidActive(nodes, active) && i in active && j in active && i != j
    ensures Place(nodes, keyFn, active, i) != Place(nodes, keyFn, active, j)
  {
    var cols := CeilSqrt(|SortedKeys(nodes, keyFn, active)|);
    var gi, gj := GroupOf(nodes, keyFn, active, i), GroupOf(nodes, keyFn, active, j);
    var ki, kj := KeyIndex(nodes, keyFn, active, i), KeyIndex(nodes, keyFn, active, j);
    var mi, mj := MemberIndex(nodes, keyFn, active, i), MemberIndex(nodes, keyFn, active, j);
    CeilSqrtPositive(|SortedKeys(nodes, keyFn, active)|);
    CeilSqrtPositive(|gi|);
    CeilSqrtPositive(|gj|);
    if ki == kj {
      assert gi == gj;
      assert mi != mj;
      InnerApart(ki, cols, mi, mj, CeilSqrt(|gi|));
    } else {
      OuterApart(ki, kj, cols, mi, mj, CeilSqrt(|gi|), CeilSqrt(|gj|));
    }
  }
}

=== FILE: helpers.dfy ===
/** `getLodLabel` and `getNodeImageUrl` (02_frontend/src/lib/helpers.ts). */
module Helpers {
  import opened Wrappers
  import opened AsciiText

  /** The labels `getLodLabel` can produce besides its input. */
  predicate IsLodLabel(s: string) {
    s == "100" || s == "200" || s == "250" || s == "300" || s == "400"
  }

  /** Map a raw level-of-detail string to a numeric label. The tests run on
      the lower-cased text in a fixed order; an unmatched input comes back
      unchanged, in its original case. */
  function GetLodLabel(lod: Option<string>): (r: string)
    ensures r == [] <==> lod.None? || lod.value == []
    ensures lod.Some? && lod.value != [] ==> IsLodLabel(r) || r == lod.value
    ensures lod.Some? && !IsLodLabel(r) ==> r == lod.value
  {
    if lod.None? || lod.value == [] then ""
    else
      var lower := Lower(lod.value);
      if Contains(lower, "low") && Contains(lower, "medium") then "200"
      else if Contains(lower, "medium") && Contains(lower, "high") then "300"
      else if lower == "low" then "100"
      else if lower == "medium" then "250"
      else if Contains(lower, "high") then "400"
      else if Contains(lower, "complex") then "400"
      else lod.value
  }

  /** Whether the lower-cased text matches one of the six tests. */
  predicate MatchesLodRule(lower: string) {
    (Contains(lower, "low") && Contains(lower, "medium")) ||
    (Contains(lower, "medium") && Contains(lower, "high")) ||
    lower == "low" || lower == "medium" ||
    Contains(lower, "high") || Contains(lower, "complex")
  }

  /** A non-empty input comes back unchanged exactly when no test fires. */
  lemma LodLabelUnchanged(s: string)
    requires s != [] && !IsLodLabel(s)
    ensures GetLodLabel(Some(s)) == s <==> !MatchesLodRule(Lower(s))
  {
  }

  /** None of the five labels matches a test: their lower-case form has no
      'l', 'm', 'h' or 'c'. */
  lemma LabelMatchesNoRule(s: string)
    requires IsLodLabel(s)
    ensures Lower(s) == s && !MatchesLodRule(s)
  {
    assert forall i :: 0 <= i < |s| ==> IsDigit(s[i]);
    NotContainsChar(s, "low", 0);
    NotContainsChar(s, "medium", 0);
    NotContainsChar(s, "high", 0);
    NotContainsChar(s, "complex", 0);
  }

  /** `getLodLabel` is idempotent. */
  lemma GetLodLabelIdempotent(lod: Option<string>)
    ensures GetLodLabel(Some(GetLodLabel(lod))) == GetLodLabel(lod)
  {
    var r := GetLodLabel(lod);
    if IsLodLabel(r) {
      LabelMatchesNoRule(r);
    }
  }

  /** `getNodeImageUrl`: '/img/' followed by the last '/'-segment of `img`,
      else of `name_of_file`, else of ''. */
  function GetNodeImageUrl(img: Option<string>, nameOfFile: Option<string>): (r: string)
    ensures StartsWith(r, "/img/")
    ensures forall i :: 5 <= i < |r| ==> r[i] != '/'
  {
    var path := if img.Some? && img.value != [] then img.value
                else if nameOfFile.Some? && nameOfFile.value != [] then nameOfFile.value
                else "";
    "/img/" + AfterLastSlash(path)
  }

  /** The file-name part is the unique slash-free tail of the chosen path that
      is the whole path or follows a '/'. */
  lemma ImageUrlFileName(img: Option<string>, nameOfFile: Option<string>, name: string)
    requires var path := if img.Some? && img.value != [] then img.value
                         else if nameOfFile.Some? && nameOfFile.value != [] then nameOfFile.value
                         else "";
             |name| <= |path| && name == path[|path| - |name|..] &&
             (forall i :: 0 <= i < |name| ==> name[i] != '/') &&
             (|name| < |path| ==> path[|path| - |name| - 1] == '/')
    ensures GetNodeImageUrl(img, nameOfFile) == "/img/" + name
  {
    var path := if img.Some? && img.value != [] then img.value
                else if nameOfFile.Some? && nameOfFile.value != [] then nameOfFile.value
                else "";
    LastSegmentUnique(path, IsSlash, name);
  }
}

=== FILE: hf_utils.dfy ===
/** The Hugging Face loading switches (01_backend/img_pipeline/hf_utils.py):
    environment flags, whether models load from the local cache only, and
    the keyword arguments every model load shares. The environment is a
    function from variable names to values; the socket probe of the hub is
    a boolean parameter. */
module HfUtils {
  import opened Wrappers
  import opened AsciiText
  import opened Json

  /** `os.getenv`: `None` when the variable is not set. */
  type Env = string -> Option<string>

  /** The spellings a flag accepts once trimmed and lower-cased. */
  predicate IsOnWord(t: string) {
    t == "1" || t == "true" || t == "yes" || t == "on"
  }

  /** `os.getenv(name, default)`. */
  function GetEnv(env: Env, name: string, default: string): string {
    match env(name)
    case Some(v) => v
    case None => default
  }

  /** `_env_flag(name, default)`. */
  function EnvFlag(env: Env, name: string, default: string): (r: bool)
    ensures env(name).None? ==> (r <==> IsOnWord(Lower(Strip(default))))
    ensures env(name).Some? ==> (r <==> IsOnWord(Lower(Strip(env(name).value))))
  {
    IsOnWord(Lower(Strip(GetEnv(env, name, default))))
  }

  /** A variable that is set, even to nothing, hides the default. */
  lemma SetFlagIgnoresDefault(env: Env, name: string, d1: string, d2: string)
    requires env(name).Some?
    ensures EnvFlag(env, name, d1) == EnvFlag(env, name, d2)
  {
  }

  /** An empty or blank value is off. */
  lemma BlankFlagIsOff(env: Env, name: string, default: string)
    requires env(name).Some? && forall k :: 0 <= k < |env(name).value| ==> IsSpace(env(name).value[k])
    ensures !EnvFlag(env, name, default)
  {
    var v := env(name).value;
    assert StripLeft(v) == [];
  }

  /** With the default "0", an unset flag is off. */
  lemma UnsetFlagIsOff(env: Env, name: string)
    requires env(name).None?
    ensures !EnvFlag(env, name, "0")
  {
    var d := "0";
    assert |d| == 1 && !IsSpace(d[0]);
    assert Strip(d) == d;
    var t := Lower(Strip(d));
    assert |t| == 1 && t[0] == LowerChar(d[0]) == '0';
    SingleCharOnWord(t);
  }

  /** Of the one-character texts only "1" turns a flag on. */
  lemma SingleCharOnWord(t: string)
    requires |t| == 1
    ensures IsOnWord(t) <==> t[0] == '1'
  {
    assert |"true"| == 4 && |"yes"| == 3 && |"on"| == 2;
    assert t == "1" <==> t[0] == '1';
  }

  /** `can_reach_huggingface()`: assumed reachable when
      `LOD_HF_ASSUME_ONLINE` is on, otherwise what the probe found. */
  function CanReachHub(env: Env, probe: bool): (r: bool)
    ensures EnvFlag(env, "LOD_HF_ASSUME_ONLINE", "0") ==> r
    ensures !EnvFlag(env, "LOD_HF_ASSUME_ONLINE", "0") ==> r == probe
  {
    EnvFlag(env, "LOD_HF_ASSUME_ONLINE", "0") || probe
  }

  /** `should_use_local_files_only()`. */
  function LocalFilesOnly(env: Env, probe: bool): (r: bool)
    ensures EnvFlag(env, "LOD_HF_LOCAL_ONLY", "0") ==> r
    ensures !EnvFlag(env, "LOD_HF_LOCAL_ONLY", "0") ==> (r <==> !CanReachHub(env, probe))
  {
    EnvFlag(env, "LOD_HF_LOCAL_ONLY", "0") || !CanReachHub(env, probe)
  }

  /** Without the override, local-only holds exactly when the hub is out of
      reach and not assumed online. */
  lemma LocalOnlyWhenOffline(env: Env, probe: bool)
    requires !EnvFlag(env, "LOD_HF_LOCAL_ONLY", "0")
    ensures LocalFilesOnly(env, probe) <==> !EnvFlag(env, "LOD_HF_ASSUME_ONLINE", "0") && !probe
  {
  }

  /** Python's `a or b` on two optional strings: the first that is set and
      not empty. */
  function OrTruthy(a: Option<string>, b: Option<string>): (r: Option<string>)
    ensures a.Some? && a.value != [] ==> r == a
    ensures !(a.Some? && a.value != []) ==> r == b
  {
    if a.Some? && a.value != [] then a else b
  }

  /** `hf_common_kwargs(trust_remote_code=...)`. */
  function CommonKwargs(env: Env, probe: bool, trustRemoteCode: bool): (r: PyDict)
    ensures "local_files_only" in r && r["local_files_only"] == Bool(LocalFilesOnly(env, probe))
    ensures "trust_remote_code" in r <==> trustRemoteCode
    ensures "trust_remote_code" in r ==> r["trust_remote_code"] == Bool(true)
    ensures r.Keys <= {"local_files_only", "trust_remote_code", "token"}
  {
    var token := OrTruthy(env("HUGGINGFACE_HUB_TOKEN"), env("HF_TOKEN"));
    Kwargs("local_files_only", "trust_remote_code", "token", LocalFilesOnly(env, probe), trustRemoteCode, token)
  }

  /** The dict built step by step: the local-only flag, `trust_remote_code`
      when asked for, the token when one is set and not empty. */
  function Kwargs(kLocal: string, kTrust: string, kToken: string, local: bool, trust: bool, token: Option<string>): (r: PyDict)
    requires kLocal != kTrust && kLocal != kToken && kTrust != kToken
    ensures kLocal in r && r[kLocal] == Bool(local)
    ensures kTrust in r <==> trust
    ensures kTrust in r ==> r[kTrust] == Bool(true)
    ensures kToken in r <==> token.Some? && token.value != []
    ensures kToken in r ==> r[kToken] == Str(token.value)
    ensures r.Keys <= {kLocal, kTrust, kToken}
  {
    var base: PyDict := map[kLocal := Bool(local)];
    var trusted := if trust then base[kTrust := Bool(true)] else base;
    if token.Some? && token.value != [] then trusted[kToken := Str(token.value)] else trusted
  }

  /** A token is passed exactly when either variable holds one, and the hub
      variable wins when both do. */
  lemma TokenChoice(env: Env, probe: bool, trustRemoteCode: bool)
    ensures var r := CommonKwargs(env, probe, trustRemoteCode);
      var hub := env("HUGGINGFACE_HUB_TOKEN");
      var hf := env("HF_TOKEN");
      ("token" in r <==> (hub.Some? && hub.value != []) || (hf.Some? && hf.value != [])) &&
      (hub.Some? && hub.value != [] ==> r["token"] == Str(hub.value)) &&
      (!(hub.Some? && hub.value != []) && hf.Some? && hf.value != [] ==> r["token"] == Str(hf.value))
  {
  }
}

=== FILE: hit_test.dfy ===
/** Picking the node under the pointer
    (02_frontend/src/components/graph/SemanticGraph.tsx lines 98-111 and
    480-516). Active nodes are bucketed into square grid cells; a hit scans
    the 5 × 5 block of cells around the pointer, column offset outermost,
    and keeps the interactive node with the strictly smallest distance below
    `15 / scale`, so the first one found wins a tie. Positions, the cell size
    and the distance are floating point in the source; here the cell of a
    node and its distance to the pointer are given functions. */
module HitTest {
  import opened Wrappers
  import opened GraphModel
  import GraphView

  type CellKey = (int, int)

  /** `updateGrid`: every active index appended to the list of its cell. */
  function BuildGrid(active: seq<int>, cellOf: int -> CellKey): (g: map<CellKey, seq<int>>)
    ensures forall c :: c in g ==> g[c] != []
    ensures forall c, x :: c in g && x in g[c] ==> x in active && cellOf(x) == c
    decreases |active|
  {
    if active == [] then map[]
    else
      var n := |active| - 1;
      var g := BuildGrid(active[..n], cellOf);
      assert forall x :: x in active[..n] ==> x in active;
      var c := cellOf(active[n]);
      g[c := CellContents(g, c) + [active[n]]]
  }

  /** Every active node is listed in its own cell. */
  lemma {:induction false} GridCovers(active: seq<int>, cellOf: int -> CellKey)
    ensures var g := BuildGrid(active, cellOf);
      forall k :: 0 <= k < |active| ==> cellOf(active[k]) in g && active[k] in g[cellOf(active[k])]
    decreases |active|
  {
    if active != [] {
      var n := |active| - 1;
      var prev := BuildGrid(active[..n], cellOf);
      GridCovers(active[..n], cellOf);
      var c := cellOf(active[n]);
      var g := prev[c := CellContents(prev, c) + [active[n]]];
      assert BuildGrid(active, cellOf) == g;
      forall k | 0 <= k < n
        ensures cellOf(active[k]) in g && active[k] in g[cellOf(active[k])]
      {
        assert active[..n][k] == active[k];
        AppendKeeps(prev, c, active[n], active[k], cellOf(active[k]));
      }
    }
  }

  /** Appending to one cell keeps every node where it was. */
  lemma AppendKeeps(prev: map<CellKey, seq<int>>, c: CellKey, x: int, y: int, cy: CellKey)
    requires cy in prev && y in prev[cy]
    ensures var g := prev[c := CellContents(prev, c) + [x]]; cy in g && y in g[cy]
  {
  }

  /** The grid is empty exactly when no node is active. */
  lemma GridEmpty(active: seq<int>, cellOf: int -> CellKey)
    ensures BuildGrid(active, cellOf) == map[] <==> active == []
  {
    if active != [] {
      GridCovers(active, cellOf);
      assert cellOf(active[0]) in BuildGrid(active, cellOf);
    }
  }

  /** The contents of cell `c`, `[]` when the cell is missing. */
  function CellContents(g: map<CellKey, seq<int>>, c: CellKey): seq<int> {
    if c in g then g[c] else []
  }

  /** The cell visited `k`-th: offsets `(k / 5 - 2, k % 5 - 2)`. */
  function ScanCell(gx: int, gy: int, k: nat): CellKey {
    (gx + k / 5 - 2, gy + k % 5 - 2)
  }

  /** The candidates of the cells from the `k`-th on, in scan order. */
  function ScanFrom(g: map<CellKey, seq<int>>, gx: int, gy: int, k: nat): (r: seq<int>)
    ensures forall x :: x in r ==> exists j :: k <= j < 25 && x in CellContents(g, ScanCell(gx, gy, j))
    decreases 25 - k
  {
    if k >= 25 then [] else CellContents(g, ScanCell(gx, gy, k)) + ScanFrom(g, gx, gy, k + 1)
  }

  /** Every node of the 5 × 5 block is scanned. */
  lemma {:induction false} ScanCovers(g: map<CellKey, seq<int>>, gx: int, gy: int, k: nat, j: nat, x: int)
    requires k <= j < 25 && x in CellContents(g, ScanCell(gx, gy, j))
    ensures x in ScanFrom(g, gx, gy, k)
    decreases 25 - k
  {
    if k < j {
      ScanCovers(g, gx, gy, k + 1, j, x);
    }
  }

  /** The loop body `if (d < bestDist) { bestDist = d; bestIdx = idx; }`
      over the candidates, skipping nodes that are not interactive. */
  function Best(cands: seq<int>, interactive: set<int>, dist: int -> real, bound: real): (r: Option<int>)
    ensures r.Some? ==> r.value in cands && r.value in interactive && dist(r.value) < bound
    ensures r.Some? ==> forall k :: 0 <= k < |cands| && cands[k] in interactive ==> dist(r.value) <= dist(cands[k])
    ensures r.None? ==> forall k :: 0 <= k < |cands| && cands[k] in interactive ==> dist(cands[k]) >= bound
    ensures r.Some? ==> exists p :: (0 <= p < |cands| && cands[p] == r.value &&
      forall k :: 0 <= k < p && cands[k] in interactive ==> dist(cands[k]) > dist(r.value))
    decreases |cands|
  {
    if cands == [] then None
    else
      var n := |cands| - 1;
      var prev := Best(cands[..n], interactive, dist, bound);
      assert forall k :: 0 <= k < n ==> cands[..n][k] == cands[k];
      var threshold := if prev.Some? then dist(prev.value) else bound;
      if cands[n] in interactive && dist(cands[n]) < threshold then Some(cands[n]) else prev
  }

  /** The three properties above pin the winner down: the first interactive
      candidate of least distance, when that distance is below the bound. */
  lemma BestUnique(cands: seq<int>, interactive: set<int>, dist: int -> real, bound: real, p: int)
    requires 0 <= p < |cands| && cands[p] in interactive && dist(cands[p]) < bound
    requires forall k :: 0 <= k < |cands| && cands[k] in interactive ==> dist(cands[p]) <= dist(cands[k])
    requires forall k :: 0 <= k < p && cands[k] in interactive ==> dist(cands[k]) > dist(cands[p])
    ensures Best(cands, interactive, dist, bound) == Some(cands[p])
  {
    var r := Best(cands, interactive, dist, bound);
    assert r.Some?;
    var q :| 0 <= q < |cands| && cands[q] == r.value &&
      forall k :: 0 <= k < q && cands[k] in interactive ==> dist(cands[k]) > dist(r.value);
  }

  /** `hitTest` once the pointer is mapped to cell `(gx, gy)`: nothing on an
      empty grid, otherwise the best interactive node of the 5 × 5 block. */
  function Hit(g: map<CellKey, seq<int>>, interactive: set<int>, dist: int -> real, scale: real, gx: int, gy: int): (r: Option<int>)
    requires scale > 0.0
    ensures g == map[] ==> r.None?
    ensures r.Some? ==> r.value in interactive && dist(r.value) < 15.0 / scale
    ensures r.Some? ==> exists j :: 0 <= j < 25 && r.value in CellContents(g, ScanCell(gx, gy, j))
  {
    if g == map[] then None
    else Best(ScanFrom(g, gx, gy, 0), interactive, dist, 15.0 / scale)
  }

  /** No interactive node of the block is strictly closer than the hit, and
      when nothing is hit every interactive node of the block is at least
      `15 / scale` away. */
  lemma HitIsNearest(g: map<CellKey, seq<int>>, interactive: set<int>, dist: int -> real, scale: real, gx: int, gy: int, j: nat, x: int)
    requires scale > 0.0 && g != map[]
    requires j < 25 && x in CellContents(g, ScanCell(gx, gy, j)) && x in interactive
    ensures var r := Hit(g, interactive, dist, scale, gx, gy);
      (r.Some? ==> dist(r.value) <= dist(x)) && (r.None? ==> dist(x) >= 15.0 / scale)
  {
    ScanCovers(g, gx, gy, 0, j, x);
  }

  lemma HitInGrid(g: map<CellKey, seq<int>>, interactive: set<int>, dist: int -> real, scale: real, gx: int, gy: int,
                  active: seq<int>, cellOf: int -> CellKey)
    requires scale > 0.0 && g == BuildGrid(active, cellOf)
    ensures var h := Hit(g, interactive, dist, scale, gx, gy); h.Some? ==> h.value in active
  {
    var h := Hit(g, interactive, dist, scale, gx, gy);
    if h.Some? {
      var j :| 0 <= j < 25 && h.value in CellContents(g, ScanCell(gx, gy, j));
      CellMemberActive(active, cellOf, ScanCell(gx, gy, j), h.value);
    }
  }

  /** Whatever a cell of the grid holds is active. */
  lemma CellMemberActive(active: seq<int>, cellOf: int -> CellKey, c: CellKey, x: int)
    requires x in CellContents(BuildGrid(active, cellOf), c)
    ensures x in active && cellOf(x) == c
  {
  }

  /** The whole pick on the view's own data: the grid of the active nodes
      and the interactive set of the current selection. The result is the
      index of the picked node, `bestIdx` of the source with `-1` as `None`. */
  function HitIndex(nodes: seq<GraphNode>, active: seq<int>, selectedId: Option<string>, cellOf: int -> CellKey,
                    dist: int -> real, scale: real, gx: int, gy: int): (r: Option<int>)
    requires scale > 0.0
    ensures active == [] ==> r.None?
    ensures r.Some? ==> r.value in active && r.value in GraphView.InteractiveSet(nodes, active, selectedId)
    ensures r.Some? ==> dist(r.value) < 15.0 / scale
  {
    var g := BuildGrid(active, cellOf);
    var interactive := GraphView.InteractiveSet(nodes, active, selectedId);
    GridEmpty(active, cellOf);
    var h := Hit(g, interactive, dist, scale, gx, gy);
    HitInGrid(g, interactive, dist, scale, gx, gy, active, cellOf);
    h
  }
}

=== FILE: insertion_order.dfy ===
/** Keyed collections that remember insertion order and let a later write
    overwrite an earlier one in place: a JavaScript `Map` filled with `set`,
    and a Python `dict` filled with `d[k] = v`. Both keep each key at the
    position of its FIRST insertion while holding its LAST value. */
module InsertionOrder {
  import opened Wrappers

  /** The entries of such a collection, in iteration order. */
  type Entries<K, V> = seq<(K, V)>

  function Keys<K(==), V>(es: Entries<K, V>): (r: seq<K>)
    ensures |r| == |es|
    ensures forall j :: 0 <= j < |es| ==> r[j] == es[j].0
  {
    if es == [] then [] else [es[0].0] + Keys(es[1..])
  }

  function Values<K(==), V>(es: Entries<K, V>): (r: seq<V>)
    ensures |r| == |es|
    ensures forall j :: 0 <= j < |es| ==> r[j] == es[j].1
  {
    if es == [] then [] else [es[0].1] + Values(es[1..])
  }

  predicate DistinctKeys<K(==), V>(es: Entries<K, V>) {
    forall a, b :: 0 <= a < b < |es| ==> es[a].0 != es[b].0
  }

  predicate HasKey<K(==), V>(es: Entries<K, V>, k: K) {
    exists j :: 0 <= j < |es| && es[j].0 == k
  }

  /** Position of the first entry with key `k`. */
  function Find<K(==), V>(es: Entries<K, V>, k: K): (r: Option<nat>)
    ensures r.Some? ==> r.value < |es| && es[r.value].0 == k
    ensures r.Some? ==> forall j :: 0 <= j < r.value ==> es[j].0 != k
    ensures r.None? <==> !HasKey(es, k)
  {
    if es == [] then None
    else if es[0].0 == k then Some(0)
    else
      var t := Find(es[1..], k);
      if t.Some? then Some(t.value + 1)
      else
        assert forall j :: 1 <= j < |es| ==> es[j].0 == es[1..][j - 1].0;
        None
  }

  /** One `set(k, v)`: overwrite in place when present, append otherwise. */
  function Upsert<K(==), V>(es: Entries<K, V>, k: K, v: V): (r: Entries<K, V>)
    ensures HasKey(es, k) ==> |r| == |es|
    ensures !HasKey(es, k) ==> r == es + [(k, v)]
  {
    match Find(es, k)
    case Some(j) => es[j := (k, v)]
    case None => es + [(k, v)]
  }

  /** The collection after inserting `items` in order into an empty one. */
  function Fill<K(==), V>(items: seq<(K, V)>): Entries<K, V>
  {
    if items == [] then [] else
      var n := |items| - 1;
      Upsert(Fill(items[..n]), items[n].0, items[n].1)
  }

  /** Position of the first item with key `k`. */
  function FirstPos<K(==), V>(items: seq<(K, V)>, k: K): nat
    requires HasKey(items, k)
  {
    Find(items, k).value
  }

  /** Position of the last item with key `k`. */
  function LastPos<K(==), V>(items: seq<(K, V)>, k: K): (r: nat)
    requires HasKey(items, k)
    ensures r < |items| && items[r].0 == k
    ensures forall j :: r < j < |items| ==> items[j].0 != k
  {
    var n := |items| - 1;
    if items[n].0 == k then n
    else
      assert items[..n] == items[..n];
      var j :| 0 <= j < |items| && items[j].0 == k;
      assert items[..n][j].0 == k;
      LastPos(items[..n], k)
  }

  /** Every item's key is present in `es`. */
  ghost predicate Covers<K, V>(items: seq<(K, V)>, es: Entries<K, V>) {
    forall j :: 0 <= j < |items| ==> HasKey(es, items[j].0)
  }

  /** Every entry of `es` holds the value of the last item with its key. */
  ghost predicate HoldsLastValues<K, V>(items: seq<(K, V)>, es: Entries<K, V>) {
    forall j :: 0 <= j < |es| ==> HasKey(items, es[j].0) && es[j].1 == items[LastPos(items, es[j].0)].1
  }

  /** The keys of `es` appear in the order of their first occurrence among the items. */
  /** `ka` occurs in `items`, and `kb` does too but first occurs later. */
  ghost predicate KeyBefore<K, V>(items: seq<(K, V)>, ka: K, kb: K) {
    HasKey(items, ka) && HasKey(items, kb) && FirstPos(items, ka) < FirstPos(items, kb)
  }

  ghost predicate FirstOccurrenceOrder<K, V>(items: seq<(K, V)>, es: Entries<K, V>) {
    forall a, b :: 0 <= a < b < |es| ==> KeyBefore(items, es[a].0, es[b].0)
  }

  /** What the filled collection promises about the items it was filled from. */
  ghost predicate FillSpec<K, V>(items: seq<(K, V)>, es: Entries<K, V>) {
    DistinctKeys(es) && Covers(items, es) && HoldsLastValues(items, es) && FirstOccurrenceOrder(items, es)
  }

  lemma FindPrefix<K, V>(items: seq<(K, V)>, n: nat, k: K)
    requires n < |items| && HasKey(items[..n], k)
    ensures HasKey(items, k) && Find(items, k) == Find(items[..n], k)
  {
    var f := Find(items[..n], k).value;
    assert items[..n][f].0 == k;
    assert items[f].0 == k;
    assert HasKey(items, k);
    var g := Find(items, k).value;
    assert g <= f;
    assert items[..n][g] == items[g];
  }

  lemma LastPosPrefix<K, V>(items: seq<(K, V)>, k: K)
    requires HasKey(items, k) && items[|items| - 1].0 != k
    ensures HasKey(items[..|items| - 1], k)
    ensures LastPos(items, k) == LastPos(items[..|items| - 1], k)
  {
    var j :| 0 <= j < |items| && items[j].0 == k;
    assert items[..|items| - 1][j].0 == k;
  }

  lemma CoversStep<K, V>(items: seq<(K, V)>, es: Entries<K, V>, r: Entries<K, V>)
    requires items != [] && Covers(items[..|items| - 1], es)
    requires forall i :: 0 <= i < |es| ==> HasKey(r, es[i].0)
    requires HasKey(r, items[|items| - 1].0)
    ensures Covers(items, r)
  {
    var n := |items| - 1;
    forall j | 0 <= j < |items|
      ensures HasKey(r, items[j].0)
    {
      if j < n {
        assert items[..n][j] == items[j];
        var i :| 0 <= i < |es| && es[i].0 == items[j].0;
      }
    }
  }

  lemma LastValuesStep<K, V>(items: seq<(K, V)>, es: Entries<K, V>, r: Entries<K, V>)
    requires items != [] && HoldsLastValues(items[..|items| - 1], es)
    requires forall j :: 0 <= j < |r| ==> r[j] == items[|items| - 1] || (j < |es| && r[j] == es[j] && es[j].0 != items[|items| - 1].0)
    ensures HoldsLastValues(items, r)
  {
    var n := |items| - 1;
    var k := items[n].0;
    assert LastPos(items, k) == n;
    forall j | 0 <= j < |r|
      ensures HasKey(items, r[j].0) && r[j].1 == items[LastPos(items, r[j].0)].1
    {
      if r[j] != items[n] {
        var key := es[j].0;
        var i :| 0 <= i < |items[..n]| && items[..n][i].0 == key;
        assert items[i].0 == key;
        LastPosPrefix(items, key);
      }
    }
  }

  lemma OrderStepOld<K, V>(items: seq<(K, V)>, es: Entries<K, V>, r: Entries<K, V>)
    requires items != [] && FirstOccurrenceOrder(items[..|items| - 1], es)
    requires |r| == |es| && forall j :: 0 <= j < |r| ==> r[j].0 == es[j].0
    ensures FirstOccurrenceOrder(items, r)
  {
    forall a, b | 0 <= a < b < |r|
      ensures KeyBefore(items, r[a].0, r[b].0)
    {
      OrderPairOld(items, es, r[a].0, r[b].0, a, b);
    }
  }

  lemma OrderPairOld<K, V>(items: seq<(K, V)>, es: Entries<K, V>, ka: K, kb: K, a: int, b: int)
    requires items != [] && FirstOccurrenceOrder(items[..|items| - 1], es)
    requires 0 <= a < b < |es| && es[a].0 == ka && es[b].0 == kb
    ensures KeyBefore(items, ka, kb)
  {
    var n := |items| - 1;
    assert KeyBefore(items[..n], ka, kb);
    FindPrefix(items, n, ka);
    FindPrefix(items, n, kb);
  }

  lemma OrderPairNew<K, V>(items: seq<(K, V)>, es: Entries<K, V>, a: int, b: int)
    requires items != [] && FirstOccurrenceOrder(items[..|items| - 1], es)
    requires HoldsLastValues(items[..|items| - 1], es)
    requires !HasKey(items[..|items| - 1], items[|items| - 1].0)
    requires 0 <= a < b < |es| + 1
    ensures KeyBefore(items, (es + [items[|items| - 1]])[a].0, (es + [items[|items| - 1]])[b].0)
  {
    var n := |items| - 1;
    var k := items[n].0;
    var r := es + [items[n]];
    var ea := es[a];
    assert r[a] == ea;
    assert HasKey(items[..n], ea.0);
    FindPrefix(items, n, ea.0);
    if b < |es| {
      var eb := es[b];
      assert r[b] == eb;
      assert HasKey(items[..n], eb.0);
      assert KeyBefore(items[..n], ea.0, eb.0);
      FindPrefix(items, n, eb.0);
    } else {
      assert r[b].0 == k;
      assert HasKey(items, k) by { assert items[n].0 == k; }
      assert FirstPos(items, k) == n;
    }
  }

  lemma OrderStepNew<K, V>(items: seq<(K, V)>, es: Entries<K, V>, r: Entries<K, V>)
    requires items != [] && FirstOccurrenceOrder(items[..|items| - 1], es)
    requires HoldsLastValues(items[..|items| - 1], es)
    requires !HasKey(items[..|items| - 1], items[|items| - 1].0)
    requires r == es + [items[|items| - 1]]
    ensures FirstOccurrenceOrder(items, r)
  {
    forall a, b | 0 <= a < b < |r|
      ensures KeyBefore(items, r[a].0, r[b].0)
    {
      OrderPairNew(items, es, a, b);
    }
  }

  /** What overwriting entry `p` with `x` keeps and changes. */
  lemma UpdateFacts<K, V>(es: Entries<K, V>, p: int, x: (K, V), r: Entries<K, V>)
    requires DistinctKeys(es) && 0 <= p < |es| && es[p].0 == x.0 && r == es[p := x]
    ensures DistinctKeys(r) && HasKey(r, x.0)
    ensures |r| == |es| && forall i :: 0 <= i < |r| ==> r[i].0 == es[i].0
    ensures forall i :: 0 <= i < |es| ==> HasKey(r, es[i].0)
    ensures forall j :: 0 <= j < |r| ==> r[j] == x || (j < |es| && r[j] == es[j] && es[j].0 != x.0)
  {
    assert r[p] == x;
    forall i | 0 <= i < |es| ensures HasKey(r, es[i].0) {
      assert r[i].0 == es[i].0;
    }
    forall j | 0 <= j < |r|
      ensures r[j] == x || (j < |es| && r[j] == es[j] && es[j].0 != x.0)
    {
      if j != p { assert es[j].0 != es[p].0; }
    }
  }

  /** What appending `x` with a new key keeps and changes. */
  lemma AppendFacts<K, V>(es: Entries<K, V>, x: (K, V), r: Entries<K, V>)
    requires DistinctKeys(es) && !HasKey(es, x.0) && r == es + [x]
    ensures DistinctKeys(r) && HasKey(r, x.0)
    ensures forall i :: 0 <= i < |es| ==> HasKey(r, es[i].0)
    ensures forall j :: 0 <= j < |r| ==> r[j] == x || (j < |es| && r[j] == es[j] && es[j].0 != x.0)
  {
    assert r[|es|] == x;
    forall i | 0 <= i < |es| ensures HasKey(r, es[i].0) {
      assert r[i] == es[i];
    }
    forall j | 0 <= j < |r|
      ensures r[j] == x || (j < |es| && r[j] == es[j] && es[j].0 != x.0)
    {
      if j < |es| { assert r[j] == es[j]; }
    }
    forall a, b | 0 <= a < b < |r| ensures r[a].0 != r[b].0 {
      assert r[a] == es[a];
      if b < |es| { assert r[b] == es[b]; }
    }
  }

  /** The last item overwrites an entry already present. */
  lemma FillStepOld<K, V>(items: seq<(K, V)>)
    requires items != [] && FillSpec(items[..|items| - 1], Fill(items[..|items| - 1]))
    requires HasKey(Fill(items[..|items| - 1]), items[|items| - 1].0)
    ensures FillSpec(items, Fill(items))
  {
    var n := |items| - 1;
    var es := Fill(items[..n]);
    var r := Fill(items);
    UpdateFacts(es, Find(es, items[n].0).value, items[n], r);
    CoversStep(items, es, r);
    LastValuesStep(items, es, r);
    OrderStepOld(items, es, r);
  }

  /** The last item's key is new and is appended. */
  lemma FillStepNew<K, V>(items: seq<(K, V)>)
    requires items != [] && FillSpec(items[..|items| - 1], Fill(items[..|items| - 1]))
    requires !HasKey(Fill(items[..|items| - 1]), items[|items| - 1].0)
    ensures FillSpec(items, Fill(items))
  {
    var n := |items| - 1;
    var es := Fill(items[..n]);
    var r := Fill(items);
    AppendFacts(es, items[n], r);
    CoversStep(items, es, r);
    LastValuesStep(items, es, r);
    assert !HasKey(items[..n], items[n].0);
    OrderStepNew(items, es, r);
  }

  lemma {:induction false} FillMeetsSpec<K, V>(items: seq<(K, V)>)
    ensures FillSpec(items, Fill(items))
  {
    if items != [] {
      var n := |items| - 1;
      FillMeetsSpec(items[..n]);
      if HasKey(Fill(items[..n]), items[n].0) {
        FillStepOld(items);
      } else {
        FillStepNew(items);
      }
    }
  }

  /** The filled collection is never longer than the items it was filled from. */
  lemma {:induction false} FillLength<K, V>(items: seq<(K, V)>)
    ensures |Fill(items)| <= |items|
  {
    if items != [] {
      FillLength(items[..|items| - 1]);
    }
  }
}

=== FILE: json.dfy ===
/** JSON values as both halves of the system receive them (`fetch(...).json()`
    on the frontend, `json.load` on the backend), with the JavaScript and the
    Python readings of truthiness and stringification. Numbers are integers. */
module Json {
  import opened Wrappers
  import opened AsciiText

  datatype Json =
    | Null
    | Bool(b: bool)
    | Int(i: int)
    | Str(s: string)
    | Arr(items: seq<Json>)
    | Obj(fields: map<string, Json>)

  // ---------------------------------------------------------------------------
  // JavaScript. A property read yields `None` for `undefined`.

  /** `v[k]` for a property name `k`: only objects carry named properties. */
  function JsGet(v: Json, k: string): Option<Json> {
    if v.Obj? && k in v.fields then Some(v.fields[k]) else None
  }

  /** `!!v`. */
  predicate JsTruthy(v: Option<Json>) {
    match v
    case None => false
    case Some(Null) => false
    case Some(Bool(b)) => b
    case Some(Int(i)) => i != 0
    case Some(Str(s)) => s != []
    case Some(Arr(_)) => true
    case Some(Obj(_)) => true
  }

  /** `v === undefined || v === null`, the condition under which `??` takes its right side. */
  predicate JsNullish(v: Option<Json>) {
    v.None? || v.value.Null?
  }

  /** `a || b`. */
  function JsOr(a: Option<Json>, b: Option<Json>): Option<Json> {
    if JsTruthy(a) then a else b
  }

  /** `a ?? b`. */
  function JsCoalesce(a: Option<Json>, b: Json): Json {
    if JsNullish(a) then b else a.value
  }

  /** `String(v)`. Arrays print their elements joined by ',' with `null`
      elements printed as ''. */
  function JsString(v: Option<Json>): string {
    match v
    case None => "undefined"
    case Some(j) => JsonToJsString(j)
  }

  function JsonToJsString(j: Json): string
    decreases j, 1
  {
    match j
    case Null => "null"
    case Bool(b) => if b then "true" else "false"
    case Int(i) => IntToString(i)
    case Str(s) => s
    case Arr(items) => JoinElements(items)
    case Obj(_) => "[object Object]"
  }

  function JoinElements(items: seq<Json>): string
    decreases items, 0
  {
    if items == [] then []
    else
      var head := if items[0].Null? then [] else JsonToJsString(items[0]);
      if |items| == 1 then head else head + "," + JoinElements(items[1..])
  }

  /** `typeof v === 'string' ? v : undefined`. */
  function JsStringOrUndefined(v: Option<Json>): Option<string> {
    if v.Some? && v.value.Str? then Some(v.value.s) else None
  }

  // ---------------------------------------------------------------------------
  // Python. A dict lookup with `.get` yields `None` for a missing key.

  /** `bool(v)`. */
  predicate PyTruthy(v: Json) {
    match v
    case Null => false
    case Bool(b) => b
    case Int(i) => i != 0
    case Str(s) => s != []
    case Arr(items) => items != []
    case Obj(fields) => fields != map[]
  }

  /** A Python dict as `json.load` returns it. */
  type PyDict = map<string, Json>

  function PyGet(d: PyDict, k: string): Json {
    if k in d then d[k] else Null
  }
}

=== FILE: metadata_cards.dfy ===
/** The metadata buttons of the details panel
    (02_frontend/src/components/layout/detail/MetadataCards.tsx lines 12-16
    and 25, written out again inline in
    02_frontend/src/components/layout/DetailPanel.tsx lines 84-88). */
module MetadataCards {
  import opened Wrappers
  import opened GraphModel
  import Helpers

  datatype Kind = CategoryItem | LodItem | ManufacturerItem

  /** One button: which field it shows, its text, and the layout a click on
      it asks for. */
  datatype Item = Item(kind: Kind, value: string, mode: LayoutMode)

  function Label(k: Kind): string {
    match k
    case CategoryItem => "Category"
    case LodItem => "Level of Detail"
    case ManufacturerItem => "Manufacturer"
  }

  /** The layout each button switches to. */
  function ModeOf(k: Kind): LayoutMode {
    match k
    case CategoryItem => Category
    case LodItem => Lod
    case ManufacturerItem => Provider
  }

  /** `node.provider || 'N/A'`. */
  function ManufacturerText(node: GraphNode): (r: string)
    ensures r != []
    ensures node.provider.Some? && node.provider.value != [] ==> r == node.provider.value
  {
    if node.provider.Some? && node.provider.value != [] then node.provider.value else "N/A"
  }

  /** The three candidate buttons before the filter; an absent category
      reads as the empty text. */
  function AllItems(node: GraphNode): seq<Item> {
    [ Item(CategoryItem, node.finalCategory.GetOr([]), Category),
      Item(LodItem, Helpers.GetLodLabel(node.lodLabel), Lod),
      Item(ManufacturerItem, ManufacturerText(node), Provider) ]
  }

  /** `.filter(i => i.v)`: keeps the items with non-empty text, in order. */
  function KeepTruthy(items: seq<Item>): (r: seq<Item>)
    ensures |r| <= |items|
  {
    if items == [] then []
    else (if items[0].value != [] then [items[0]] else []) + KeepTruthy(items[1..])
  }

  /** The filter keeps exactly the items with non-empty text. */
  lemma {:induction false} KeepTruthyMembers(items: seq<Item>)
    ensures forall it :: it in KeepTruthy(items) <==> it in items && it.value != []
  {
    if items != [] {
      KeepTruthyMembers(items[1..]);
      assert items == [items[0]] + items[1..];
    }
  }

  /** The buttons for given texts, case by case. */
  function Shape(c: string, l: string, m: string): (r: seq<Item>)
    requires m != []
    ensures 1 <= |r| <= 3
    ensures r[|r| - 1] == Item(ManufacturerItem, m, Provider)
    ensures Item(CategoryItem, c, Category) in r <==> c != []
    ensures Item(LodItem, l, Lod) in r <==> l != []
    ensures forall k :: 0 <= k < |r| ==>
      r[k] == Item(CategoryItem, c, Category) || r[k] == Item(LodItem, l, Lod) || r[k] == Item(ManufacturerItem, m, Provider)
    ensures forall k :: 0 <= k < |r| ==> r[k].value != []
    ensures forall a, b :: 0 <= a < b < |r| ==> r[a].kind != r[b].kind
  {
    var ci := Item(CategoryItem, c, Category);
    var li := Item(LodItem, l, Lod);
    var mi := Item(ManufacturerItem, m, Provider);
    if c != [] && l != [] then [ci, li, mi]
    else if c != [] then [ci, mi]
    else if l != [] then [li, mi]
    else [mi]
  }

  /** `items`: Category, Level of Detail and Manufacturer in that order, the
      first two only when their text is non-empty; Manufacturer is always
      there. */
  function Items(node: GraphNode): (r: seq<Item>)
    ensures r == Shape(node.finalCategory.GetOr([]), Helpers.GetLodLabel(node.lodLabel), ManufacturerText(node))
  {
    var all := AllItems(node);
    FilterThree(all[0].value, all[1].value, all[2].value);
    KeepTruthy(all)
  }

  /** What the buttons of a node are, in terms of its fields: the category
      and LOD buttons appear exactly when the node has that text, the
      manufacturer button comes last, and each asks for its own layout. */
  lemma ItemsOfNode(node: GraphNode)
    ensures var r := Items(node);
      1 <= |r| <= 3 && r[|r| - 1] == Item(ManufacturerItem, ManufacturerText(node), Provider) &&
      (Item(CategoryItem, node.finalCategory.GetOr([]), Category) in r <==>
        node.finalCategory.Some? && node.finalCategory.value != []) &&
      (Item(LodItem, Helpers.GetLodLabel(node.lodLabel), Lod) in r <==> Helpers.GetLodLabel(node.lodLabel) != []) &&
      (forall k :: 0 <= k < |r| ==> r[k] in AllItems(node) && r[k].value != [] && r[k].mode == ModeOf(r[k].kind))
  {
    var r := Items(node);
    assert forall k :: 0 <= k < |r| ==> r[k] in AllItems(node);
  }

  /** The filter on the three candidates yields the case-by-case list. */
  lemma FilterThree(c: string, l: string, m: string)
    requires m != []
    ensures KeepTruthy([Item(CategoryItem, c, Category), Item(LodItem, l, Lod), Item(ManufacturerItem, m, Provider)])
      == Shape(c, l, m)
  {
    var all := [Item(CategoryItem, c, Category), Item(LodItem, l, Lod), Item(ManufacturerItem, m, Provider)];
    assert all[1..] == [all[1], all[2]] && all[1..][1..] == [all[2]] && all[1..][1..][1..] == [];
    assert KeepTruthy(all[1..][1..]) == [all[2]];
    var tail := KeepTruthy(all[1..]);
    assert tail == (if l != [] then [all[1]] else []) + [all[2]];
    assert KeepTruthy(all) == (if c != [] then [all[0]] else []) + tail;
  }

  /** A click asks for the item's own layout, never the similarity view. */
  function OnClick(it: Item): (m: LayoutMode)
    requires it.mode == ModeOf(it.kind)
    ensures m != Similarity
    ensures it.kind == CategoryItem <==> m == Category
    ensures it.kind == LodItem <==> m == Lod
  {
    it.mode
  }
}

=== FILE: output_utils.dfy ===
/** The output helpers of the image pipeline
    (01_backend/img_pipeline/Step08_OutputUtils.py): the LOD estimate from a
    sharpness measure (lines 29-33), the image record (lines 48-61), the
    output file name (lines 72-76), the category folder name (lines 78-79)
    and the short name (lines 81-82). The image maths producing the
    sharpness, the md5 digest and the uuid are parameters. */
module OutputUtils {
  import opened Wrappers
  import opened AsciiText
  import opened Json
  import Helpers
  import GraphBackend
  import BatchDashboard

  // ---------------------------------------------------------------------------
  // LOD estimate (lines 29-33)

  datatype LodEstimate = LodEstimate(lod: nat, text: string)

  /** The threshold table on the Laplacian variance `sharpness`. */
  function EstimateLod(sharpness: real): (r: LodEstimate)
    ensures r.lod == 100 <==> sharpness < 100.0
    ensures r.lod == 200 <==> 100.0 <= sharpness < 500.0
    ensures r.lod == 300 <==> 500.0 <= sharpness < 1000.0
    ensures r.lod == 400 <==> 1000.0 <= sharpness
    ensures r.text == (if r.lod == 100 then "Low" else if r.lod == 200 then "Medium"
      else if r.lod == 300 then "Medium-High" else "High")
  {
    if sharpness < 100.0 then LodEstimate(100, "Low")
    else if sharpness < 500.0 then LodEstimate(200, "Medium")
    else if sharpness < 1000.0 then LodEstimate(300, "Medium-High")
    else LodEstimate(400, "High")
  }

  /** A sharper picture never gets a lower level of detail. */
  lemma EstimateMonotone(s1: real, s2: real)
    requires s1 <= s2
    ensures EstimateLod(s1).lod <= EstimateLod(s2).lod
  {
  }

  /** The label alone tells the level back. */
  lemma LabelDeterminesLod(s1: real, s2: real)
    ensures EstimateLod(s1).text == EstimateLod(s2).text <==> EstimateLod(s1).lod == EstimateLod(s2).lod
  {
  }

  /** The text the batch rules see for the level-300 label. */
  lemma MediumHighLowered()
    ensures Lower(EstimateLod(700.0).text) == "medium-high"
  {
    LowerOf(EstimateLod(700.0).text);
  }

  lemma LowerOf(t: string)
    requires t == "Medium-High"
    ensures Lower(t) == "medium-high"
  {
    var l := Lower(t);
    assert forall i :: 0 <= i < 11 ==> l[i] == LowerChar(t[i]);
    assert forall i :: 0 <= i < 11 ==> l[i] == "medium-high"[i];
  }

  lemma MediumHighHolds()
    ensures Contains("medium-high", "medium") && Contains("medium-high", "high")
  {
    var s := "medium-high";
    assert s[0..6] == "medium";
    ContainsAt(s, "medium", 0);
    assert s[7..11] == "high";
    ContainsAt(s, "high", 7);
  }

  lemma MediumHighLacksLow()
    ensures !Contains("medium-high", "low")
  {
    NotContainsChar("medium-high", "low", 2);
  }

  lemma MediumHighLacksDigits()
    ensures !Contains("medium-high", "100") && !Contains("medium-high", "200")
  {
    var t := "medium-high";
    assert forall i :: 0 <= i < |t| ==> !IsDigit(t[i]);
    LacksNumbers(t);
  }

  /** A text without digits contains neither "100" nor "200". */
  lemma LacksNumbers(t: string)
    requires forall i :: 0 <= i < |t| ==> !IsDigit(t[i])
    ensures !Contains(t, "100") && !Contains(t, "200")
  {
    NotContainsChar(t, "100", 0);
    NotContainsChar(t, "200", 0);
  }

  /** The label "Medium-High" of a level-300 estimate is read as 300 by the
      graph's LOD grouping but as 200 by both batch averages, whose "medium"
      rule comes before any "high" rule. */
  lemma MediumHighReadsTwoWays()
    ensures EstimateLod(700.0).lod == 300
    ensures Helpers.GetLodLabel(Some(EstimateLod(700.0).text)) == "300"
    ensures GraphBackend.BatchBucket(Lower(EstimateLod(700.0).text)) == Some(200)
    ensures BatchDashboard.LodScore(Lower(EstimateLod(700.0).text)) == 200
  {
    assert EstimateLod(700.0) == LodEstimate(300, "Medium-High");
    MediumHighLowered();
    MediumHighLabel();
    MediumHighBucket();
    BatchDashboard.MediumBeforeHigh();
  }

  lemma MediumHighLabel()
    ensures Helpers.GetLodLabel(Some("Medium-High")) == "300"
  {
    LowerOf("Medium-High");
    MediumHighHolds();
    MediumHighLacksLow();
  }

  lemma MediumHighBucket()
    ensures GraphBackend.BatchBucket("medium-high") == Some(200)
  {
    MediumHighHolds();
    MediumHighLacksLow();
    MediumHighLacksDigits();
  }

  // ---------------------------------------------------------------------------
  // The image record (lines 48-61)

  /** `Path(p).name` for a POSIX path: the last component, trailing '/'
      ignored. */
  function PathName(p: string): (r: string)
    ensures forall i :: 0 <= i < |r| ==> r[i] != '/'
  {
    AfterLastSlash(TrimSlashes(p))
  }

  function TrimSlashes(p: string): (r: string)
    ensures |r| <= |p| && r == p[..|r|]
    ensures r == [] || r[|r| - 1] != '/'
  {
    if p != [] && p[|p| - 1] == '/' then TrimSlashes(p[..|p| - 1]) else p
  }

  /** Position of the last '.' in `s`, if any. */
  function LastDot(s: string): (r: Option<nat>)
    ensures r.Some? ==> r.value < |s| && s[r.value] == '.' && forall i :: r.value < i < |s| ==> s[i] != '.'
    ensures r.None? ==> forall i :: 0 <= i < |s| ==> s[i] != '.'
  {
    if s == [] then None
    else if s[|s| - 1] == '.' then Some(|s| - 1)
    else LastDot(s[..|s| - 1])
  }

  /** `s[i]` is the last '.' of `s`. */
  predicate IsLastDot(s: string, i: int) {
    0 <= i < |s| && s[i] == '.' && forall j :: i < j < |s| ==> s[j] != '.'
  }

  /** The last '.' is the one `LastDot` finds. */
  lemma LastDotFound(s: string)
    ensures forall i :: IsLastDot(s, i) ==> LastDot(s) == Some(i)
  {
  }

  /** `Path(p).stem`: the name without its last suffix; a leading dot or a
      trailing dot does not start a suffix. */
  function PathStem(p: string): (r: string)
    ensures StartsWith(PathName(p), r)
    ensures r != PathName(p) ==> (|r| > 0 && PathName(p)[|r|] == '.' &&
      forall i :: |r| < i < |PathName(p)| ==> PathName(p)[i] != '.')
    ensures forall i :: 0 < i < |PathName(p)| - 1 && IsLastDot(PathName(p), i) ==> r == PathName(p)[..i]
  {
    var name := PathName(p);
    LastDotFound(name);
    match LastDot(name)
    case Some(i) => if 0 < i < |name| - 1 then name[..i] else name
    case None => name
  }

  /** The fields `create_image_record` writes before the keyword arguments,
      with `name` and `stem` the name and stem of the output path. */
  function BaseRecord(uuid: string, originalPath: string, outputPath: string, name: string, stem: string,
                      description: Json, catData: PyDict): (r: PyDict)
    ensures "name_of_file" in r && r["name_of_file"] == Str(name)
    ensures "name_of_image" in r && r["name_of_image"] == Str(stem)
    ensures "original_path" in r && r["original_path"] == Str(originalPath)
    ensures "output_path" in r && r["output_path"] == Str(outputPath)
    ensures "final_category" in r && r["final_category"] == PyGet(catData, "category")
    ensures "id" in r && r["id"] == Str(uuid)
  {
    var described := map["full_description" := description, "subcategory" := PyGet(catData, "subcategory"),
      "confidence_level" := PyGet(catData, "confidence"), "reasoning" := PyGet(catData, "reasoning")];
    var located := map["final_category" := PyGet(catData, "category"), "original_path" := Str(originalPath),
      "output_path" := Str(outputPath)];
    var named := map["id" := Str(uuid), "name_of_image" := Str(stem),
      "name_of_file" := Str(name)];
    described + located + named
  }

  /** `create_image_record(original_path, output_path, description,
      cat_data, **kwargs)` with `uuid` standing for `str(uuid.uuid4())`: the
      keyword arguments override fields of the same name and add the rest. */
  function ImageRecord(uuid: string, originalPath: string, outputPath: string, description: Json,
                       catData: PyDict, kwargs: PyDict): (r: PyDict)
    ensures r.Keys == BaseRecord(uuid, originalPath, outputPath, PathName(outputPath), PathStem(outputPath), description, catData).Keys + kwargs.Keys
    ensures forall k :: k in kwargs ==> r[k] == kwargs[k]
    ensures forall k :: k in BaseRecord(uuid, originalPath, outputPath, PathName(outputPath), PathStem(outputPath), description, catData) && k !in kwargs ==>
      r[k] == BaseRecord(uuid, originalPath, outputPath, PathName(outputPath), PathStem(outputPath), description, catData)[k]
    ensures "name_of_file" !in kwargs ==> r["name_of_file"] == Str(PathName(outputPath))
    ensures "name_of_image" !in kwargs ==> r["name_of_image"] == Str(PathStem(outputPath))
  {
    BaseRecord(uuid, originalPath, outputPath, PathName(outputPath), PathStem(outputPath), description, catData) + kwargs
  }

  /** Without overrides the file name is the last component of the output
      path, and the stem is a prefix of it. */
  lemma RecordNameIsOutputName(uuid: string, originalPath: string, dir: string, name: string,
                               description: Json, catData: PyDict)
    requires name != [] && forall i :: 0 <= i < |name| ==> name[i] != '/'
    ensures var r := ImageRecord(uuid, originalPath, dir + "/" + name, description, catData, map[]);
      r["name_of_file"] == Str(name) && r["output_path"] == Str(dir + "/" + name) &&
      r["name_of_image"].Str? && StartsWith(name, r["name_of_image"].s)
  {
    PathNameOfJoin(dir, name);
  }

  /** The last component of `dir/name` is `name`. */
  lemma PathNameOfJoin(dir: string, name: string)
    requires name != [] && forall i :: 0 <= i < |name| ==> name[i] != '/'
    ensures PathName(dir + "/" + name) == name
  {
    var p := dir + "/" + name;
    assert TrimSlashes(p) == p;
    assert name == p[|p| - |name|..];
    LastSegmentUnique(p, IsSlash, name);
  }

  /** An override of `name_of_file` wins over the output path. */
  lemma OverrideWins(uuid: string, originalPath: string, outputPath: string, description: Json,
                     catData: PyDict, v: Json)
    ensures ImageRecord(uuid, originalPath, outputPath, description, catData, map["name_of_file" := v])["name_of_file"] == v
  {
  }

  // ---------------------------------------------------------------------------
  // Names (lines 72-82)

  /** `x if x.isalnum() else "_"` over the characters of `name`. */
  function Clean(name: string): (r: string)
    ensures |r| == |name|
    ensures forall i :: 0 <= i < |r| ==> (if IsAlnum(name[i]) then r[i] == name[i] else r[i] == '_')
  {
    ReplaceWhere(name, c => !IsAlnum(c), '_')
  }

  /** `s[:6]`. */
  function Take6(s: string): (r: string)
    ensures |r| == if |s| < 6 then |s| else 6
    ensures StartsWith(s, r)
  {
    if |s| < 6 then s else s[..6]
  }

  /** `generate_output_filename(name, cat, idx)`; `md5hex` is the hex digest
      of the UTF-8 text it is given. */
  function OutputFilename(name: string, idx: int, md5hex: string -> string): (r: string)
    ensures |r| == |name| + 1 + |Take6(md5hex(name + "_" + IntToString(idx)))| + 4
    ensures r[..|name|] == Clean(name) && r[|name|] == '_'
    ensures EndsWith(r, ".png")
    ensures var h := md5hex(name + "_" + IntToString(idx));
      r[|name| + 1 .. |r| - 4] == if |h| < 6 then h else h[..6]
  {
    Clean(name) + "_" + Take6(md5hex(name + "_" + IntToString(idx))) + ".png"
  }

  predicate IsHexDigit(c: char) {
    IsDigit(c) || 'a' <= c <= 'f'
  }

  /** With a hex digest the file name is made of letters, digits, '_' and
      the one '.' of the extension, so it never names a folder. */
  lemma OutputFilenameIsFlat(name: string, idx: int, md5hex: string -> string)
    requires var h := md5hex(name + "_" + IntToString(idx)); forall i :: 0 <= i < |h| ==> IsHexDigit(h[i])
    ensures var r := OutputFilename(name, idx, md5hex);
      forall i :: 0 <= i < |r| ==> (IsAlnum(r[i]) || r[i] == '_' || (r[i] == '.' && i == |r| - 4))
  {
    var h := Take6(md5hex(name + "_" + IntToString(idx)));
    var r := OutputFilename(name, idx, md5hex);
    assert r == Clean(name) + "_" + h + ".png";
    forall i | 0 <= i < |r|
      ensures IsAlnum(r[i]) || r[i] == '_' || (r[i] == '.' && i == |r| - 4)
    {
      if i < |name| {
        assert r[i] == Clean(name)[i];
      } else if i == |name| {
      } else if i < |name| + 1 + |h| {
        assert r[i] == h[i - |name| - 1];
        assert h[i - |name| - 1] == md5hex(name + "_" + IntToString(idx))[i - |name| - 1];
      } else {
        assert r[i] == ".png"[i - |name| - 1 - |h|];
      }
    }
  }

  /** `sanitize_category_path(cat)`: two single-character replacements. */
  function SanitizeCategory(cat: string): (r: string)
    ensures |r| == |cat|
  {
    ReplaceWhere(ReplaceWhere(cat, c => c == ' ', '_'), c => c == '/', '_')
  }

  /** The folder name holds no ' ' and no '/', and keeps every other
      character where it was; sanitising twice changes nothing more. */
  lemma SanitizeCategorySpec(cat: string)
    ensures var r := SanitizeCategory(cat);
      (forall i :: 0 <= i < |r| ==> r[i] != ' ' && r[i] != '/') &&
      (forall i :: 0 <= i < |r| ==> ((cat[i] == ' ' || cat[i] == '/' ==> r[i] == '_') &&
        (cat[i] != ' ' && cat[i] != '/' ==> r[i] == cat[i]))) &&
      SanitizeCategory(r) == r
  {
    var r := SanitizeCategory(cat);
    var once := ReplaceWhere(r, c => c == ' ', '_');
    assert once == r;
  }

  /** `generate_simplified_name(desc)`: the first five words joined by '_'. */
  function SimplifiedName(desc: string): (r: string)
    ensures forall i :: 0 <= i < |r| ==> !IsSpace(r[i])
  {
    var words := SplitWords(desc);
    var first := if |words| <= 5 then words else words[..5];
    SplitWordsTokens(desc);
    assert forall k :: 0 <= k < |first| ==> first[k] == words[k];
    JoinNoSpace("_", first);
    Join("_", first)
  }

  /** At most five words are kept, and a short description keeps them all. */
  lemma SimplifiedNameWords(desc: string)
    ensures |SplitWords(desc)| <= 5 ==> SimplifiedName(desc) == Join("_", SplitWords(desc))
    ensures |SplitWords(desc)| > 5 ==> SimplifiedName(desc) == Join("_", SplitWords(desc)[..5])
  {
  }

  /** A short name is one word, so shortening it again gives it back. */
  lemma SimplifiedNameIdempotent(desc: string)
    ensures SimplifiedName(SimplifiedName(desc)) == SimplifiedName(desc)
  {
    var r := SimplifiedName(desc);
    if r != [] {
      assert Join(" ", [r]) == r;
      SplitJoinRoundTrip([r]);
      assert SplitWords(r) == [r];
    } else {
      assert SplitWords(r) == [];
    }
  }
}

=== FILE: pipeline_records.dfy ===
/** The records the local pipeline returns, as the frontend normalises them
    (`normalizePipelineResults` in 02_frontend/src/hooks/usePipelineUpload.ts
    lines 11-25, written out again as `safeResults` in
    02_frontend/src/components/search/ResultsDashboard.tsx lines 21-34), and
    what the results dashboard derives from them (lines 36-39 and 66-69). */
module PipelineRecords {
  import opened Wrappers
  import opened AsciiText
  import opened Json

  datatype PipelineRecord = PipelineRecord(
    id: string,
    nameOfFile: string,
    finalCategory: string,
    provider: string,
    lod: string,
    outputPath: Option<string>,
    pathToImage: Option<string>)

  /** `!!item && typeof item === 'object'`: objects and arrays. */
  predicate IsRecord(v: Json) {
    v.Obj? || v.Arr?
  }

  /** `String(item[k] ?? fallback)`. */
  function FieldText(item: Json, k: string, fallback: string): string {
    JsonToJsString(JsCoalesce(JsGet(item, k), Str(fallback)))
  }

  /** The `.map` step: each field stringified with its default; the two
      paths kept only when they are strings. */
  function ToRecord(item: Json): (r: PipelineRecord)
    ensures JsNullish(JsGet(item, "name_of_file")) ==> r.nameOfFile == "Unknown file"
    ensures JsNullish(JsGet(item, "final_category")) ==> r.finalCategory == "Uncategorized"
    ensures JsNullish(JsGet(item, "provider")) ==> r.provider == "Unknown"
    ensures JsNullish(JsGet(item, "lod")) ==> r.lod == "N/A"
    ensures JsNullish(JsGet(item, "id")) ==> r.id == []
    ensures JsGet(item, "id").Some? && JsGet(item, "id").value.Str? ==> r.id == JsGet(item, "id").value.s
    ensures r.outputPath.Some? <==> JsGet(item, "output_path").Some? && JsGet(item, "output_path").value.Str?
  {
    PipelineRecord(
      FieldText(item, "id", ""),
      FieldText(item, "name_of_file", "Unknown file"),
      FieldText(item, "final_category", "Uncategorized"),
      FieldText(item, "provider", "Unknown"),
      FieldText(item, "lod", "N/A"),
      JsStringOrUndefined(JsGet(item, "output_path")),
      JsStringOrUndefined(JsGet(item, "path_to_image")))
  }

  /** Filter, map and filter again, over a list: the records among `items`,
      converted by `conv`, those with an empty id dropped. */
  function FilterMap(items: seq<Json>, conv: Json -> PipelineRecord): (r: seq<PipelineRecord>)
    ensures |r| <= |items|
    ensures forall k :: 0 <= k < |r| ==> r[k].id != []
  {
    if items == [] then []
    else
      var rest := FilterMap(items[1..], conv);
      if IsRecord(items[0]) && conv(items[0]).id != [] then
        var r := [conv(items[0])] + rest;
        assert forall k :: 1 <= k < |r| ==> r[k] == rest[k - 1];
        r
      else
        rest
  }

  /** Every kept record comes from an object item, and every object item
      whose record has an id is kept. */
  lemma {:induction false} FilterMapSources(items: seq<Json>, conv: Json -> PipelineRecord)
    ensures forall x :: x in FilterMap(items, conv) ==> exists v :: v in items && IsRecord(v) && x == conv(v)
    ensures forall v :: v in items && IsRecord(v) && conv(v).id != [] ==> conv(v) in FilterMap(items, conv)
  {
    if items != [] {
      var rest := FilterMap(items[1..], conv);
      FilterMapSources(items[1..], conv);
      assert forall v :: v in items[1..] ==> v in items;
      assert forall v :: v in items ==> v == items[0] || v in items[1..];
      if IsRecord(items[0]) && conv(items[0]).id != [] {
        assert FilterMap(items, conv) == [conv(items[0])] + rest;
      } else {
        assert FilterMap(items, conv) == rest;
      }
    }
  }

  function NormalizeItems(items: seq<Json>): (r: seq<PipelineRecord>)
    ensures |r| <= |items|
    ensures forall k :: 0 <= k < |r| ==> r[k].id != []
    ensures forall x :: x in r ==> exists v :: v in items && IsRecord(v) && x == ToRecord(v)
    ensures forall v :: v in items && IsRecord(v) && ToRecord(v).id != [] ==> ToRecord(v) in r
  {
    FilterMapSources(items, ToRecord);
    FilterMap(items, ToRecord)
  }

  /** `normalizePipelineResults(raw)`: nothing unless `raw` is an array. */
  function Normalize(raw: Json): (r: seq<PipelineRecord>)
    ensures !raw.Arr? ==> r == []
    ensures raw.Arr? ==> r == NormalizeItems(raw.items)
    ensures forall k :: 0 <= k < |r| ==> r[k].id != []
  {
    if raw.Arr? then NormalizeItems(raw.items) else []
  }

  /** The normaliser works item by item, so order is preserved. */
  lemma NormalizeAppend(a: seq<Json>, b: seq<Json>)
    ensures NormalizeItems(a + b) == NormalizeItems(a) + NormalizeItems(b)
  {
    FilterMapAppend(a, b, ToRecord);
  }

  lemma {:induction false} FilterMapAppend(a: seq<Json>, b: seq<Json>, conv: Json -> PipelineRecord)
    ensures FilterMap(a + b, conv) == FilterMap(a, conv) + FilterMap(b, conv)
  {
    if a != [] {
      assert (a + b)[1..] == a[1..] + b;
      FilterMapAppend(a[1..], b, conv);
    } else {
      assert a + b == b;
    }
  }

  /** A record whose `id` is missing or `null` is dropped; one with a
      non-empty string id is kept with that id. */
  lemma IdDecidesKeeping(item: Json)
    requires IsRecord(item)
    ensures JsNullish(JsGet(item, "id")) ==> NormalizeItems([item]) == []
    ensures JsGet(item, "id").Some? && JsGet(item, "id").value.Str? && JsGet(item, "id").value.s != [] ==>
      NormalizeItems([item]) == [ToRecord(item)] && ToRecord(item).id == JsGet(item, "id").value.s
  {
    assert [item][1..] == [];
  }

  // ---------------------------------------------------------------------------
  // The results dashboard

  predicate IsPathSep(c: char) { c == '/' || c == '\\' }

  /** The path the thumbnail is taken from: the first non-empty of the
      output path, the source path and the file name. */
  function RawPath(rec: PipelineRecord): string {
    if rec.outputPath.Some? && rec.outputPath.value != [] then rec.outputPath.value
    else if rec.pathToImage.Some? && rec.pathToImage.value != [] then rec.pathToImage.value
    else rec.nameOfFile
  }

  /** The thumbnail file name: the last segment after '/' or '\', or the raw
      path when it holds neither. */
  function ThumbnailName(rec: PipelineRecord): (r: string)
    ensures forall i :: 0 <= i < |r| ==> !IsPathSep(r[i])
    ensures EndsWith(RawPath(rec), r)
  {
    var p := RawPath(rec);
    if exists i :: 0 <= i < |p| && IsPathSep(p[i]) then LastSegment(p, IsPathSep)
    else p
  }

  /** The separator test is redundant: without a separator the last segment
      is the whole path. */
  lemma ThumbnailIsLastSegment(rec: PipelineRecord)
    ensures ThumbnailName(rec) == LastSegment(RawPath(rec), IsPathSep)
  {
    var p := RawPath(rec);
    if !exists i :: 0 <= i < |p| && IsPathSep(p[i]) {
      LastSegmentNoSep(p, IsPathSep);
    }
  }

  datatype Effect = Locate(id: string) | Close

  /** `handleLocate`: first locate the node, then close the dashboard. */
  function HandleLocate(id: string): (r: seq<Effect>)
    ensures |r| == 2 && r[0] == Locate(id) && r[1] == Close
  {
    [Locate(id), Close]
  }
}

=== FILE: pipeline_upload.dfy ===
/** The upload flow: the status sequence of `usePipelineUpload`
    (02_frontend/src/hooks/usePipelineUpload.ts lines 27-65) and the file
    queue of the upload dialog
    (02_frontend/src/components/search/FileUploadModal.tsx lines 32-73). */
module PipelineUpload {
  import opened Wrappers
  import opened AsciiText
  import opened Json
  import opened PipelineRecords

  // ---------------------------------------------------------------------------
  // Upload status (usePipelineUpload.ts)

  datatype Step = Idle | Uploading | Processing | Finishing | Complete | Error

  datatype Status = Status(step: Step, message: string, progress: nat)

  const IdleStatus: Status := Status(Idle, "", 0)

  /** What the pipeline call did: answered with a success flag, the raw
      results and an optional error text, or threw with a message. */
  datatype CallOutcome = Answered(success: bool, results: Json, error: Option<string>) | Threw(message: string)

  /** The hook's state: its status and the normalised records. */
  datatype Hook = Hook(status: Status, results: seq<PipelineRecord>)

  /** `reset`. */
  function Reset(): (h: Hook)
    ensures h.status.step == Idle && h.status.message == [] && h.status.progress == 0 && h.results == []
  {
    Hook(IdleStatus, [])
  }

  /** `String(new Error(m))`. */
  function ErrorText(m: string): string {
    "Error: " + m
  }

  /** `upload(files)` for a queue of `fileCount` files: the statuses it sets,
      in order, and the hook's state once the one-second timer has run. An
      empty queue changes nothing. */
  function Upload(h: Hook, fileCount: nat, outcome: CallOutcome): (r: (seq<Status>, Hook))
    ensures fileCount == 0 ==> r.0 == [] && r.1 == h
    ensures fileCount > 0 ==> |r.0| >= 2 && r.0[0] == Status(Uploading, "Uploading files...", 10) && r.1.status == r.0[|r.0| - 1]
    ensures fileCount > 0 && outcome.Answered? && outcome.success ==>
      |r.0| == 4 && [r.0[1].step, r.0[2].step, r.0[3].step] == [Processing, Finishing, Complete] &&
      r.1.results == Normalize(outcome.results)
    ensures fileCount > 0 && !(outcome.Answered? && outcome.success) ==>
      r.1.status.step == Error && r.1.status.progress == 0 && r.1.results == h.results
  {
    if fileCount == 0 then ([], h)
    else
      var uploading := Status(Uploading, "Uploading files...", 10);
      match outcome
      case Threw(m) =>
        var err := Status(Error, m, 0);
        ([uploading, err], h.(status := err))
      case Answered(success, results, error) =>
        var processing := Status(Processing, "Running AI Vision Pipeline...", 40);
        if success then
          var done := Status(Complete, "Ready!", 100);
          ([uploading, processing, Status(Finishing, "Finalizing Data...", 90), done], Hook(done, Normalize(results)))
        else
          var m := if error.Some? && error.value != [] then error.value else "Pipeline failed";
          var err := Status(Error, ErrorText(m), 0);
          ([uploading, processing, err], h.(status := err))
  }

  /** On the success path the progress strictly increases, 10 to 100. */
  lemma SuccessProgressIncreases(h: Hook, fileCount: nat, results: Json, error: Option<string>, a: nat, b: nat)
    requires fileCount > 0
    requires a < b < |Upload(h, fileCount, Answered(true, results, error)).0|
    ensures Upload(h, fileCount, Answered(true, results, error)).0[a].progress <
            Upload(h, fileCount, Answered(true, results, error)).0[b].progress
    ensures Upload(h, fileCount, Answered(true, results, error)).1.status.progress == 100
  {
  }

  /** A failed answer reports its own error text, or a generic one. */
  lemma FailureMessage(h: Hook, fileCount: nat, results: Json, error: Option<string>)
    requires fileCount > 0
    ensures var s := Upload(h, fileCount, Answered(false, results, error)).1.status;
      s.message == ErrorText(if error.Some? && error.value != [] then error.value else "Pipeline failed")
  {
  }

  // ---------------------------------------------------------------------------
  // The file queue (FileUploadModal.tsx)

  /** A file as the dialog sees it: its name and MIME type. */
  datatype File = File(name: string, mimeType: string)

  predicate IsImage(f: File) {
    StartsWith(f.mimeType, "image/")
  }

  function Images(files: seq<File>): (r: seq<File>)
    ensures |r| <= |files|
    ensures forall f :: f in r <==> f in files && IsImage(f)
  {
    if files == [] then []
    else (if IsImage(files[0]) then [files[0]] else []) + Images(files[1..])
  }

  /** `handleDrop` / `handleFileSelect`: the image files appended after the
      queued ones. */
  function AddFiles(queue: seq<File>, picked: seq<File>): (r: seq<File>)
    ensures |queue| <= |r| && r[..|queue|] == queue
    ensures forall f :: f in r[|queue|..] <==> f in picked && IsImage(f)
    ensures (forall f :: f in queue ==> IsImage(f)) ==> forall f :: f in r ==> IsImage(f)
  {
    var r := queue + Images(picked);
    assert r[|queue|..] == Images(picked);
    r
  }

  /** `removeFile(i)`: the queue without position `i`; other positions keep
      their order. An index outside the queue removes nothing. */
  function RemoveFile(queue: seq<File>, i: int): (r: seq<File>)
    ensures 0 <= i < |queue| ==> |r| == |queue| - 1
    ensures 0 <= i < |queue| ==> forall k :: 0 <= k < |r| ==> r[k] == (if k < i then queue[k] else queue[k + 1])
    ensures !(0 <= i < |queue|) ==> r == queue
  {
    if 0 <= i < |queue| then queue[..i] + queue[i + 1..] else queue
  }

  /** Removing then re-inserting the file gives the queue back. */
  lemma RemoveFileInverse(queue: seq<File>, i: nat)
    requires i < |queue|
    ensures RemoveFile(queue, i)[..i] + [queue[i]] + RemoveFile(queue, i)[i..] == queue
  {
  }

  /** The dialog: its queue, the hook and whether it is shown. */
  datatype Dialog = Dialog(queue: seq<File>, hook: Hook, open: bool)

  /** `handleUpload`: nothing on an empty queue; otherwise the upload runs
      and the queue is emptied. */
  function HandleUpload(d: Dialog, outcome: CallOutcome): (r: Dialog)
    ensures d.queue == [] ==> r == d
    ensures d.queue != [] ==> r.queue == [] && r.hook == Upload(d.hook, |d.queue|, outcome).1 && r.open == d.open
  {
    if d.queue == [] then d
    else Dialog([], Upload(d.hook, |d.queue|, outcome).1, d.open)
  }

  /** The status shown while the pipeline call is pending: `upload` sets
      `uploading` before awaiting the call and the next status only after
      the call returned. */
  function Pending(): (s: Status)
    ensures s == Upload(Reset(), 1, Threw([])).0[0]
  {
    Status(Uploading, "Uploading files...", 10)
  }

  /** `handleClose` as written: refused only when the step is
      `processing`; otherwise the queue is cleared, the hook reset and the
      dialog closed. */
  function HandleCloseAsWritten(d: Dialog): (r: Dialog)
    ensures d.hook.status.step == Processing ==> r == d
    ensures d.hook.status.step != Processing ==> r == Dialog([], Reset(), false)
  {
    if d.hook.status.step == Processing then d else Dialog([], Reset(), false)
  }

  /** While the pipeline runs the step is `uploading`, so the guard does not
      stop a close in the middle of the run. */
  lemma CloseMidRunAsWritten(queue: seq<File>, results: seq<PipelineRecord>)
    ensures var d := Dialog(queue, Hook(Pending(), results), true);
      HandleCloseAsWritten(d) == Dialog([], Reset(), false)
  {
  }

  /** The step only reaches `processing` after the call returned, and no
      upload ends in it: it is replaced at once by `finishing` or `error`. */
  lemma ProcessingNeverLast(h: Hook, fileCount: nat, outcome: CallOutcome)
    requires fileCount > 0
    ensures Upload(h, fileCount, outcome).1.status.step != Processing
    ensures Upload(h, fileCount, outcome).0[0].step != Processing
  {
  }

  /** A step during which the pipeline may still be running. */
  predicate InFlight(s: Step) {
    s == Uploading || s == Processing
  }

  /** `handleClose` with the guard covering the whole run. */
  function HandleClose(d: Dialog): (r: Dialog)
    ensures InFlight(d.hook.status.step) ==> r == d
    ensures !InFlight(d.hook.status.step) ==> r == Dialog([], Reset(), false)
    ensures r != d ==> !r.open && r.queue == [] && r.hook == Reset()
  {
    if InFlight(d.hook.status.step) then d else Dialog([], Reset(), false)
  }

  /** The corrected guard keeps the dialog open for the whole run, and
      behaves as written once the run is over. */
  lemma CloseMidRunRefused(d: Dialog)
    requires d.hook.status == Pending()
    ensures HandleClose(d) == d
    ensures !InFlight(d.hook.status.step) ==> HandleClose(d) == HandleCloseAsWritten(d)
  {
  }

  lemma CloseAfterRun(d: Dialog, outcome: CallOutcome)
    requires d.queue != []
    ensures HandleClose(HandleUpload(d, outcome)) == HandleCloseAsWritten(HandleUpload(d, outcome))
    ensures HandleClose(HandleUpload(d, outcome)) == Dialog([], Reset(), false)
  {
  }

  /** The pipeline is complete and returned at least one record. */
  predicate DashboardReady(h: Hook) {
    h.status.step == Complete && h.results != []
  }

  /** An open dialog shows the dashboard in place of the drop zone exactly
      when its pipeline is ready; a closed dialog renders nothing at all.
      The dashboard only ever shows once the run is over, so closing it
      from there is never refused. */
  function ShowsDashboard(d: Dialog): (r: bool)
    ensures r ==> HandleClose(d) == Dialog([], Reset(), false)
  {
    d.open && DashboardReady(d.hook)
  }

  /** A successful upload whose answer holds a usable record makes the
      dashboard ready, and shows it while the dialog is open; a failed one
      never shows it. */
  lemma DashboardAfterUpload(d: Dialog, outcome: CallOutcome)
    requires d.queue != []
    ensures outcome.Answered? && outcome.success && Normalize(outcome.results) != [] ==> DashboardReady(HandleUpload(d, outcome).hook)
    ensures outcome.Answered? && outcome.success && Normalize(outcome.results) != [] ==> (ShowsDashboard(HandleUpload(d, outcome)) <==> d.open)
    ensures !(outcome.Answered? && outcome.success) ==> !ShowsDashboard(HandleUpload(d, outcome))
  {
  }

  /** Plays the dashboard's effects against the dialog that hosts it: a
      locate request is handed on to the page (collected in order, the
      dialog unchanged), and a close runs the dialog's `handleClose`. */
  function RunEffects(d: Dialog, effects: seq<Effect>): (r: (seq<string>, Dialog))
    ensures |r.0| <= |effects|
    ensures Close !in effects ==> r.1 == d
    decreases |effects|
  {
    if effects == [] then ([], d)
    else match effects[0]
      case Locate(id) =>
        var rest := RunEffects(d, effects[1..]);
        ([id] + rest.0, rest.1)
      case Close => RunEffects(HandleClose(d), effects[1..])
  }

  /** Locating a record from the dashboard hands its id to the page exactly
      once and then closes the dialog, emptying the queue and resetting the
      pipeline, so the dashboard is gone afterwards. */
  lemma LocateThenClose(d: Dialog, id: string)
    requires ShowsDashboard(d)
    ensures RunEffects(d, HandleLocate(id)) == ([id], Dialog([], Reset(), false))
    ensures !ShowsDashboard(RunEffects(d, HandleLocate(id)).1)
  {
    var effects := HandleLocate(id);
    assert effects[1..] == [Close] && [Close][1..] == [];
    var closed := RunEffects(d, effects[1..]);
    assert closed == RunEffects(HandleClose(d), []) == ([], Dialog([], Reset(), false));
    assert RunEffects(d, effects) == ([id] + closed.0, closed.1);
    assert [id] + closed.0 == [id];
  }
}

=== FILE: related_nodes.dfy ===
/** The "Related Elements" strip of the details panel
    (02_frontend/src/components/layout/detail/RelatedNodesGrid.tsx lines
    13-18, repeated inline in 02_frontend/src/components/layout/DetailPanel.tsx
    lines 129 and 157-160). Unlike `getSafeNeighbors`, the list is filtered
    first and cut to ten afterwards. */
module RelatedNodes {
  import opened Wrappers
  import opened GraphModel
  import GraphUtils

  const MAX_RELATED: nat := 10

  /** A neighbor is shown unless it is the node itself (by id) or shows the
      same picture. Absent pictures compare equal, as `undefined ===
      undefined` does. */
  predicate Shown(node: GraphNode, m: GraphNode) {
    m.id != node.id && m.img != node.img
  }

  /** The nodes that the entries of `raw` name, invalid entries and hidden
      nodes dropped, in the order of the entries. */
  function Candidates(node: GraphNode, nodes: seq<GraphNode>, raw: seq<NeighborEntry>): (r: seq<GraphNode>)
    ensures |r| <= |raw|
    ensures forall k :: 0 <= k < |r| ==> r[k] in nodes && Shown(node, r[k])
    ensures forall k :: 0 <= k < |r| ==> exists e :: e in raw && IsValidNodeIndex(e, |nodes|) && nodes[e.i] == r[k]
    decreases |raw|
  {
    if raw == [] then []
    else
      var n := |raw| - 1;
      var prev := Candidates(node, nodes, raw[..n]);
      assert forall e :: e in raw[..n] ==> e in raw;
      var e := raw[n];
      if IsValidNodeIndex(e, |nodes|) && Shown(node, nodes[e.i]) then prev + [nodes[e.i]] else prev
  }

  /** Filtering works entry by entry: the candidates of a concatenation are
      the concatenation of the candidates, so the neighbor order is kept. */
  lemma {:induction false} CandidatesAppend(node: GraphNode, nodes: seq<GraphNode>, a: seq<NeighborEntry>, b: seq<NeighborEntry>)
    ensures Candidates(node, nodes, a + b) == Candidates(node, nodes, a) + Candidates(node, nodes, b)
    decreases |b|
  {
    if b != [] {
      var n := |b| - 1;
      assert (a + b)[..|a + b| - 1] == a + b[..n];
      CandidatesAppend(node, nodes, a, b[..n]);
    } else {
      assert a + b == a;
    }
  }

  /** A single entry contributes its node exactly when it is a valid index
      whose node is shown. */
  lemma CandidatesSingle(node: GraphNode, nodes: seq<GraphNode>, e: NeighborEntry)
    ensures Candidates(node, nodes, [e]) ==
      if IsValidNodeIndex(e, |nodes|) && Shown(node, nodes[e.i]) then [nodes[e.i]] else []
  {
    assert [e][..0] == [];
  }

  /** `related`, or `None` when the strip is not rendered at all (no
      neighbor list, or an empty one). */
  function Related(node: GraphNode, nodes: seq<GraphNode>): (r: Option<seq<GraphNode>>)
    ensures r.None? <==> node.neighbors.None? || node.neighbors.value == []
    ensures r.Some? ==> |r.value| <= MAX_RELATED
    ensures r.Some? ==> |r.value| == if |Candidates(node, nodes, node.neighbors.value)| < MAX_RELATED
                                     then |Candidates(node, nodes, node.neighbors.value)| else MAX_RELATED
    ensures r.Some? ==> r.value == Candidates(node, nodes, node.neighbors.value)[..|r.value|]
  {
    if node.neighbors.None? || node.neighbors.value == [] then None
    else
      var c := Candidates(node, nodes, node.neighbors.value);
      Some(if |c| <= MAX_RELATED then c else c[..MAX_RELATED])
  }

  /** A node without a picture hides every neighbor without one. */
  lemma MissingPictureHidesMissingPictures(node: GraphNode, m: GraphNode)
    requires node.img.None? && m.img.None?
    ensures !Shown(node, m)
  {
  }

  /** Where `getSafeNeighbors` loses a slot to every invalid entry among the
      first ten, the strip does not: a run of invalid entries in front of
      ten shown neighbors still yields all ten. */
  lemma InvalidEntriesCostNothing(node: GraphNode, nodes: seq<GraphNode>, bad: seq<NeighborEntry>, good: seq<NeighborEntry>)
    requires node.neighbors == Some(bad + good)
    requires forall k :: 0 <= k < |bad| ==> !IsValidNodeIndex(bad[k], |nodes|)
    requires |Candidates(node, nodes, good)| >= MAX_RELATED
    ensures Related(node, nodes) == Some(Candidates(node, nodes, good)[..MAX_RELATED])
  {
    CandidatesAppend(node, nodes, bad, good);
    NoCandidates(node, nodes, bad);
    var c := Candidates(node, nodes, bad + good);
    assert c == Candidates(node, nodes, good);
    assert |good| >= MAX_RELATED;
    assert bad + good != [];
  }

  lemma {:induction false} NoCandidates(node: GraphNode, nodes: seq<GraphNode>, bad: seq<NeighborEntry>)
    requires forall k :: 0 <= k < |bad| ==> !IsValidNodeIndex(bad[k], |nodes|)
    ensures Candidates(node, nodes, bad) == []
    decreases |bad|
  {
    if bad != [] {
      var n := |bad| - 1;
      NoCandidates(node, nodes, bad[..n]);
    }
  }

  /** The contrast with `getSafeNeighbors`: with one invalid entry in front
      of ten valid ones, the capped neighbor list keeps only nine. */
  lemma SafeNeighborsLoseASlot(node: GraphNode, total: int, good: seq<NeighborEntry>)
    requires |good| == 10 && forall k :: 0 <= k < 10 ==> IsValidNodeIndex(good[k], total)
    requires node.neighbors == Some([NotInteger] + good)
    ensures |GraphUtils.SafeNeighbors(node, total, 10)| <= 9
  {
    var raw := RawNeighbors(node);
    var prefix := raw[..GraphUtils.PrefixLength(|raw|, 10)];
    assert prefix == [NotInteger] + good[..9];
    assert GraphUtils.ValidIndices(prefix, total) == GraphUtils.ValidIndices(prefix[1..], total);
  }
}

=== FILE: schemas.dfy ===
/** Schema validation of the registry and of the graph file
    (01_backend/schemas.py). Whether pydantic accepts a value, and what it
    dumps for it, is a parameter `check`: `None` for a validation error,
    otherwise the dumped fields. Only the defaults of the graph-node schema
    (lines 22-31) are written out, because the graph code relies on them. */
module Schemas {
  import opened Wrappers
  import opened Json

  // ---------------------------------------------------------------------------
  // Registry records (lines 50-59)

  /** `validate_registry_records(records)`: the dumps of the valid records in
      order, and how many were skipped. */
  function ValidateRecords(records: seq<Json>, check: Json -> Option<PyDict>): (r: (seq<PyDict>, nat))
    ensures |r.0| + r.1 == |records|
  {
    if records == [] then ([], 0)
    else
      var rest := ValidateRecords(records[1..], check);
      match check(records[0])
      case Some(d) => ([d] + rest.0, rest.1)
      case None => (rest.0, rest.1 + 1)
  }

  /** Nothing is skipped exactly when every record validates. */
  lemma {:induction false} NoneSkipped(records: seq<Json>, check: Json -> Option<PyDict>)
    ensures ValidateRecords(records, check).1 == 0 <==> forall i :: 0 <= i < |records| ==> check(records[i]).Some?
  {
    if records != [] {
      NoneSkipped(records[1..], check);
      assert forall i :: 1 <= i < |records| ==> records[1..][i - 1] == records[i];
    }
  }

  /** Every kept dump is the dump of one of the records. */
  lemma {:induction false} ValidFromRecords(records: seq<Json>, check: Json -> Option<PyDict>, d: PyDict)
    requires d in ValidateRecords(records, check).0
    ensures exists i :: 0 <= i < |records| && check(records[i]) == Some(d)
  {
    var rest := ValidateRecords(records[1..], check);
    if check(records[0]) == Some(d) {
    } else {
      assert d in rest.0;
      ValidFromRecords(records[1..], check, d);
      var i :| 0 <= i < |records[1..]| && check(records[1..][i]) == Some(d);
      assert records[1..][i] == records[i + 1];
    }
  }

  /** Validation works record by record, so the valid ones keep their order. */
  lemma {:induction false} ValidateAppend(a: seq<Json>, b: seq<Json>, check: Json -> Option<PyDict>)
    ensures ValidateRecords(a + b, check) ==
      (ValidateRecords(a, check).0 + ValidateRecords(b, check).0, ValidateRecords(a, check).1 + ValidateRecords(b, check).1)
  {
    if a == [] {
      assert a + b == b;
      assert ValidateRecords(a, check) == ([], 0);
      assert ValidateRecords(a, check).0 + ValidateRecords(b, check).0 == ValidateRecords(b, check).0;
    } else {
      assert (a + b)[0] == a[0];
      assert (a + b)[1..] == a[1..] + b;
      ValidateAppend(a[1..], b, check);
      var left := ValidateRecords(a[1..], check);
      var right := ValidateRecords(b, check);
      if check(a[0]).Some? {
        var d := check(a[0]).value;
        assert [d] + (left.0 + right.0) == ([d] + left.0) + right.0;
      }
    }
  }

  // ---------------------------------------------------------------------------
  // The graph file (lines 19-31, 62-83)

  /** The optional fields of a graph node and their defaults. */
  const NodeDefaults: PyDict := map[
    "idx" := Null, "neighbors" := Arr([]), "img" := Null, "name" := Null,
    "final_category" := Null, "lod_label" := Null, "provider" := Null]

  /** `model_dump()` of a node whose given fields validated to `d`: the
      optional fields it lacks take their defaults. */
  function DumpNode(d: PyDict): (r: PyDict)
    ensures r.Keys == d.Keys + NodeDefaults.Keys
    ensures forall k :: k in d ==> r[k] == d[k]
    ensures "neighbors" in r && ("neighbors" !in d ==> r["neighbors"] == Arr([]))
    ensures "img" in r && ("img" !in d ==> r["img"] == Null)
  {
    NodeDefaults + d
  }

  /** What `validate_graph_data` returns: the validated meta with its count,
      and the nodes. */
  datatype GraphData = GraphData(meta: PyDict, nodes: seq<PyDict>)

  /** The list `graph_data.get("nodes", [])` iterates. */
  predicate NodesListed(graph: PyDict) {
    "nodes" !in graph || graph["nodes"].Arr?
  }

  function NodeItems(graph: PyDict): seq<Json>
    requires NodesListed(graph)
  {
    if "nodes" in graph then graph["nodes"].items else []
  }

  /** The optional fields of the graph meta and their defaults. */
  const MetaDefaults: PyDict := map["count" := Null, "umap" := Null, "knn" := Null, "bounds" := Null]

  /** `graph_data.get("meta", {})`. */
  function MetaOf(graph: PyDict): Json {
    if "meta" in graph then graph["meta"] else Obj(map[])
  }

  /** `validate_graph_data(graph_data)`: valid nodes dumped with their
      defaults, the meta dumped with its defaults or `{}` when it does not
      validate, and `meta.count` set to the number of valid nodes. */
  function ValidateGraph(graph: PyDict, checkNode: Json -> Option<PyDict>, checkMeta: Json -> Option<PyDict>): (r: (GraphData, nat))
    requires NodesListed(graph)
    ensures |r.0.nodes| + r.1 == |NodeItems(graph)|
    ensures "count" in r.0.meta && r.0.meta["count"] == Int(|r.0.nodes|)
    ensures forall k :: 0 <= k < |r.0.nodes| ==> "neighbors" in r.0.nodes[k]
    ensures checkMeta(MetaOf(graph)).None? ==> r.0.meta.Keys == {"count"}
    ensures checkMeta(MetaOf(graph)).Some? ==>
      r.0.meta.Keys == checkMeta(MetaOf(graph)).value.Keys + MetaDefaults.Keys &&
      (forall k :: k in checkMeta(MetaOf(graph)).value && k != "count" ==>
        r.0.meta[k] == checkMeta(MetaOf(graph)).value[k])
  {
    var valid := ValidateNodes(NodeItems(graph), checkNode);
    var count := Int(|valid.0|);
    match checkMeta(MetaOf(graph))
    case Some(m) => (GraphData((MetaDefaults + m)["count" := count], valid.0), valid.1)
    case None =>
      var empty: PyDict := map[];
      assert empty["count" := count].Keys == {"count"};
      (GraphData(empty["count" := count], valid.0), valid.1)
  }

  function ValidateNodes(items: seq<Json>, checkNode: Json -> Option<PyDict>): (r: (seq<PyDict>, nat))
    ensures |r.0| + r.1 == |items|
    ensures forall k :: 0 <= k < |r.0| ==> "neighbors" in r.0[k]
  {
    var v := ValidateRecords(items, checkNode);
    (seq(|v.0|, k requires 0 <= k < |v.0| => DumpNode(v.0[k])), v.1)
  }

  /** A graph whose every node validates loses none, and its count is the
      length of its node list. */
  lemma AllValidKept(graph: PyDict, checkNode: Json -> Option<PyDict>, checkMeta: Json -> Option<PyDict>)
    requires NodesListed(graph)
    requires forall i :: 0 <= i < |NodeItems(graph)| ==> checkNode(NodeItems(graph)[i]).Some?
    ensures |ValidateGraph(graph, checkNode, checkMeta).0.nodes| == |NodeItems(graph)|
    ensures ValidateGraph(graph, checkNode, checkMeta).1 == 0
    ensures ValidateGraph(graph, checkNode, checkMeta).0.meta["count"] == Int(|NodeItems(graph)|)
  {
    NoneSkipped(NodeItems(graph), checkNode);
  }
}

=== FILE: search_results.dfy ===
/** The AI results sidebar (02_frontend/src/components/search/SearchResults.tsx)
    and the graph filter it drives through the page. */
module SearchResults {
  import opened Wrappers
  import opened GraphModel
  import GraphPage

  /** A search hit; the score only orders the list the server sends. */
  datatype SearchResult = SearchResult(id: string, score: real)

  /** What the sidebar renders: only the count when collapsed (lines 28-45),
      otherwise the first ten results and the rest (lines 48-49). */
  datatype View = Collapsed(count: nat) | Expanded(top: seq<SearchResult>, rest: seq<SearchResult>)

  const TOP_COUNT: nat := 10

  function Render(results: seq<SearchResult>, collapsed: bool): (v: View)
    ensures collapsed <==> v.Collapsed?
    ensures v.Collapsed? ==> v.count == |results|
    ensures v.Expanded? ==> v.top + v.rest == results
    ensures v.Expanded? ==> |v.top| == if |results| < TOP_COUNT then |results| else TOP_COUNT
  {
    if collapsed then Collapsed(|results|)
    else
      var cut := if |results| < TOP_COUNT then |results| else TOP_COUNT;
      assert results[..cut] + results[cut..] == results;
      Expanded(results[..cut], results[cut..])
  }

  /** Every result beyond the tenth lands in the rest, in order. */
  lemma RestHoldsTheTail(results: seq<SearchResult>, k: nat)
    requires TOP_COUNT <= k < |results|
    ensures Render(results, false).rest[k - TOP_COUNT] == results[k]
  {
  }

  /** `results.map(r => r.id)`. */
  function Ids(results: seq<SearchResult>): (r: seq<string>)
    ensures |r| == |results| && forall k :: 0 <= k < |results| ==> r[k] == results[k].id
  {
    seq(|results|, k requires 0 <= k < |results| => results[k].id)
  }

  /** `handleToggleFilter`: `null` when the graph is filtered, otherwise the
      ids of all results in order. */
  function ToggleFilter(results: seq<SearchResult>, graphFiltered: bool): (r: Option<seq<string>>)
    ensures graphFiltered <==> r.None?
    ensures r.Some? ==> |r.value| == |results| && forall k :: 0 <= k < |results| ==> r.value[k] == results[k].id
  {
    if graphFiltered then None else Some(Ids(results))
  }

  /** One click on the toggle as the page sees it: the page's filter is
      `Some` exactly when the graph counts as filtered (`!!activeFilterIds`). */
  function ToggleOnPage(results: seq<SearchResult>, filter: Option<set<string>>): Option<set<string>> {
    GraphPage.HandleFilterGraph(ToggleFilter(results, filter.Some?))
  }

  /** The toggle alternates: from an unfiltered graph it shows exactly the
      nodes some result names, and a second click shows every node again. */
  lemma ToggleRoundTrip(nodes: seq<GraphNode>, results: seq<SearchResult>, i: int)
    ensures var once := ToggleOnPage(results, None);
      once.Some? &&
      (i in GraphPage.FilteredIndices(nodes, once) <==>
        0 <= i < |nodes| && exists k :: 0 <= k < |results| && results[k].id == nodes[i].id) &&
      ToggleOnPage(results, once) == None
  {
    var ids := Ids(results);
    if 0 <= i < |nodes| && nodes[i].id in ids {
      var k :| 0 <= k < |ids| && ids[k] == nodes[i].id;
      assert results[k].id == nodes[i].id;
    }
  }

  /** `renderItem`'s lookup: the first node with the result's id; a result
      naming no node renders nothing. */
  function ItemNode(res: SearchResult, nodes: seq<GraphNode>): (r: Option<GraphNode>)
    ensures r.Some? ==> r.value in nodes && r.value.id == res.id
    ensures r.None? <==> forall j :: 0 <= j < |nodes| ==> nodes[j].id != res.id
  {
    var k := FindById(nodes, res.id);
    if k.Some? then Some(nodes[k.value]) else None
  }
}

=== FILE: stabilization.dfy ===
/** The one-shot "stabilized" notification of the graph view
    (02_frontend/src/components/graph/SemanticGraph.tsx lines 254-276 and
    311-318). A layout install clears the `hasNotifiedStable` flag; the
    animation loop calls `onStabilized` when the positions converge, unless
    the flag is already set, and then sets it. Before the view is ready every
    install also schedules a frame that starts a 100 ms timer, and that timer
    calls `onStabilized` when no animation runs.

    The timer as written does not consult the flag, so two timers started by
    two installs before the first frame both fire after the second install.
    `StepAsWritten` models that; `Step` is the corrected machine whose timer
    honours the flag, and the rest of the model uses it. */
module Stabilization {

  /** `isAnimating`, `hasNotifiedStable`, the number of 100 ms timers still
      pending, and how many times `onStabilized` ran since the last install. */
  datatype State = State(animating: bool, notified: bool, pendingTimers: nat, firedSinceInstall: nat)

  datatype Event =
    /** A run of the layout effect that installs a layout; `ready` is `isReady`. */
    | Install(ready: bool)
    /** One pending 100 ms timer runs. */
    | TimerFires
    /** An animation frame; `converged` is `maxDiff < 0.0005`. */
    | Frame(converged: bool)

  const Initial: State := State(false, false, 0, 0)

  /** An install (lines 254-263): a view that is not ready snaps to the
      targets and schedules the timer (lines 265-276), a ready view starts
      animating; either way the flag is cleared. */
  function OnInstall(s: State, ready: bool): (r: State)
    ensures !r.notified && r.firedSinceInstall == 0
    ensures ready ==> r.animating && r.pendingTimers == s.pendingTimers
    ensures !ready ==> r.animating == s.animating && r.pendingTimers == s.pendingTimers + 1
  {
    if ready then State(true, false, s.pendingTimers, 0)
    else State(s.animating, false, s.pendingTimers + 1, 0)
  }

  /** A frame (lines 299-318): a converging animation stops and notifies
      unless the flag says it already has. */
  function OnFrame(s: State, converged: bool): (r: State)
    ensures !(s.animating && converged) ==> r == s
    ensures s.animating && converged ==> !r.animating && r.notified
    ensures r.firedSinceInstall == s.firedSinceInstall + (if s.animating && converged && !s.notified then 1 else 0)
  {
    if s.animating && converged then
      State(false, true, s.pendingTimers, s.firedSinceInstall + (if s.notified then 0 else 1))
    else s
  }

  /** The timer callback as written (lines 269-274): it notifies whenever no
      animation runs, whatever the flag says. */
  function OnTimerAsWritten(s: State): (r: State)
    requires s.pendingTimers > 0
    ensures r.pendingTimers == s.pendingTimers - 1
    ensures r.firedSinceInstall == s.firedSinceInstall + (if s.animating then 0 else 1)
  {
    if !s.animating then State(s.animating, true, s.pendingTimers - 1, s.firedSinceInstall + 1)
    else s.(pendingTimers := s.pendingTimers - 1)
  }

  /** The timer callback with the flag honoured. */
  function OnTimer(s: State): (r: State)
    requires s.pendingTimers > 0
    ensures r.pendingTimers == s.pendingTimers - 1
    ensures r.firedSinceInstall == s.firedSinceInstall + (if !s.animating && !s.notified then 1 else 0)
    ensures !s.animating ==> r.notified
  {
    if !s.animating && !s.notified then State(s.animating, true, s.pendingTimers - 1, s.firedSinceInstall + 1)
    else s.(pendingTimers := s.pendingTimers - 1)
  }

  /** A timer event with no timer pending changes nothing. */
  function StepAsWritten(s: State, e: Event): State {
    match e
    case Install(ready) => OnInstall(s, ready)
    case TimerFires => if s.pendingTimers > 0 then OnTimerAsWritten(s) else s
    case Frame(converged) => OnFrame(s, converged)
  }

  function Step(s: State, e: Event): State {
    match e
    case Install(ready) => OnInstall(s, ready)
    case TimerFires => if s.pendingTimers > 0 then OnTimer(s) else s
    case Frame(converged) => OnFrame(s, converged)
  }

  function RunAsWritten(s: State, events: seq<Event>): State
    decreases |events|
  {
    if events == [] then s else RunAsWritten(StepAsWritten(s, events[0]), events[1..])
  }

  function Run(s: State, events: seq<Event>): State
    decreases |events|
  {
    if events == [] then s else Run(Step(s, events[0]), events[1..])
  }

  /** The flag records exactly whether the callback ran since the last install. */
  predicate FlagSound(s: State) {
    s.firedSinceInstall == (if s.notified then 1 else 0)
  }

  lemma StepKeepsFlagSound(s: State, e: Event)
    requires FlagSound(s)
    ensures FlagSound(Step(s, e))
    ensures Step(s, e).firedSinceInstall <= 1
  {
  }

  /** The corrected machine calls `onStabilized` at most once between two
      installs, on every sequence of events. */
  lemma {:induction false} AtMostOncePerInstall(s: State, events: seq<Event>)
    requires FlagSound(s) && s.firedSinceInstall <= 1
    ensures FlagSound(Run(s, events)) && Run(s, events).firedSinceInstall <= 1
    decreases |events|
  {
    if events != [] {
      StepKeepsFlagSound(s, events[0]);
      AtMostOncePerInstall(Step(s, events[0]), events[1..]);
    }
  }

  lemma AtMostOnceFromStart(events: seq<Event>)
    ensures Run(Initial, events).firedSinceInstall <= 1
  {
    AtMostOncePerInstall(Initial, events);
  }

  /** Without timer events the source's own machine keeps the promise: the
      animation loop alone honours the flag. */
  lemma {:induction false} FramesAloneAtMostOnce(s: State, events: seq<Event>)
    requires FlagSound(s) && s.firedSinceInstall <= 1
    requires forall k :: 0 <= k < |events| ==> events[k] != TimerFires
    ensures RunAsWritten(s, events).firedSinceInstall <= 1
    decreases |events|
  {
    if events != [] {
      assert StepAsWritten(s, events[0]) == Step(s, events[0]);
      StepKeepsFlagSound(s, events[0]);
      FramesAloneAtMostOnce(Step(s, events[0]), events[1..]);
    }
  }

  /** Two installs before the first frame start two timers; both fire after
      the second install, so the callback runs twice for one install. */
  lemma TimerFiresTwice()
    ensures RunAsWritten(Initial, [Install(false), Install(false), TimerFires, TimerFires]).firedSinceInstall == 2
    ensures Run(Initial, [Install(false), Install(false), TimerFires, TimerFires]).firedSinceInstall == 1
  {
    var s1 := StepAsWritten(Initial, Install(false));
    var s2 := StepAsWritten(s1, Install(false));
    var s3 := StepAsWritten(s2, TimerFires);
    assert s3.firedSinceInstall == 1;
    var t1 := Step(Initial, Install(false));
    var t2 := Step(t1, Install(false));
    var t3 := Step(t2, TimerFires);
    assert t3.notified;
  }
}

=== FILE: string_order.dfy ===
/** JavaScript's default `Array.prototype.sort` on strings (section
    23.1.3.30.2 of ECMA-262): strings are compared by code units, the first
    difference deciding and a proper prefix coming first. On ASCII text the
    code units are the characters. */
module StringOrder {

  /** `a < b` on strings. */
  predicate Less(a: string, b: string)
    decreases |a|
  {
    if a == [] then b != []
    else b != [] && (a[0] < b[0] || (a[0] == b[0] && Less(a[1..], b[1..])))
  }

  lemma LessIrreflexive(a: string)
    ensures !Less(a, a)
  {
  }

  lemma {:induction false} LessTransitive(a: string, b: string, c: string)
    requires Less(a, b) && Less(b, c)
    ensures Less(a, c)
    decreases |a|
  {
    if a != [] && a[0] == b[0] && b[0] == c[0] {
      LessTransitive(a[1..], b[1..], c[1..]);
    }
  }

  /** Two different strings are ordered one way or the other. */
  lemma {:induction false} LessTotal(a: string, b: string)
    requires a != b
    ensures Less(a, b) || Less(b, a)
    decreases |a|
  {
    if a != [] && b != [] && a[0] == b[0] {
      assert a == [a[0]] + a[1..] && b == [b[0]] + b[1..];
      LessTotal(a[1..], b[1..]);
    }
  }

  lemma {:induction false} LessAsymmetric(a: string, b: string)
    requires Less(a, b)
    ensures !Less(b, a)
    decreases |a|
  {
    if a != [] && a[0] == b[0] {
      LessAsymmetric(a[1..], b[1..]);
    }
  }

  predicate StrictlySorted(s: seq<string>) {
    forall i, j :: 0 <= i < j < |s| ==> Less(s[i], s[j])
  }

  predicate Distinct<T(==)>(s: seq<T>) {
    forall i, j :: 0 <= i < j < |s| ==> s[i] != s[j]
  }

  /** A strictly sorted list holds no element twice. */
  lemma SortedDistinct(s: seq<string>)
    requires StrictlySorted(s)
    ensures Distinct(s)
  {
    forall i, j | 0 <= i < j < |s|
      ensures s[i] != s[j]
    {
      if s[i] == s[j] {
        LessIrreflexive(s[i]);
      }
    }
  }

  /** `x` put in its place in a strictly sorted list. */
  function Insert(x: string, s: seq<string>): (r: seq<string>)
    requires StrictlySorted(s) && x !in s
    ensures |r| == |s| + 1
    ensures forall y :: y in r <==> y == x || y in s
    ensures StrictlySorted(r)
  {
    if s == [] then [x]
    else if Less(x, s[0]) then
      InsertFront(x, s);
      [x] + s
    else
      LessTotal(x, s[0]);
      var t := Insert(x, s[1..]);
      InsertAfter(s[0], t, x, s[1..]);
      [s[0]] + t
  }

  lemma InsertFront(x: string, s: seq<string>)
    requires StrictlySorted(s) && s != [] && Less(x, s[0])
    ensures StrictlySorted([x] + s)
  {
    var r := [x] + s;
    forall i, j | 0 <= i < j < |r|
      ensures Less(r[i], r[j])
    {
      if i == 0 && j > 1 {
        LessTransitive(x, s[0], s[j - 1]);
      }
    }
  }

  lemma InsertAfter(h: string, t: seq<string>, x: string, rest: seq<string>)
    requires StrictlySorted(t) && Less(h, x)
    requires forall k :: 0 <= k < |rest| ==> Less(h, rest[k])
    requires forall y :: y in t ==> y == x || y in rest
    ensures StrictlySorted([h] + t)
  {
    var r := [h] + t;
    forall i, j | 0 <= i < j < |r|
      ensures Less(r[i], r[j])
    {
      if i == 0 {
        assert r[j] == t[j - 1];
        assert t[j - 1] in t;
      } else {
        assert r[i] == t[i - 1] && r[j] == t[j - 1];
      }
    }
  }

  /** The sorted copy of a list of distinct strings. */
  function Sort(s: seq<string>): (r: seq<string>)
    requires Distinct(s)
    ensures |r| == |s|
    ensures forall y :: y in r <==> y in s
    ensures StrictlySorted(r)
    decreases |s|
  {
    if s == [] then []
    else
      var n := |s| - 1;
      assert forall i, j :: 0 <= i < j < n ==> s[..n][i] == s[i] && s[..n][j] == s[j];
      var t := Sort(s[..n]);
      assert s[n] !in s[..n];
      assert forall y :: y in s <==> y in s[..n] || y == s[n] by {
        assert s == s[..n] + [s[n]];
      }
      Insert(s[n], t)
  }

  /** There is only one strictly sorted arrangement of a set of strings, so
      the order of the sorted keys does not depend on how they were
      collected. */
  lemma {:induction false} SortedUnique(a: seq<string>, b: seq<string>)
    requires StrictlySorted(a) && StrictlySorted(b)
    requires forall y :: y in a <==> y in b
    ensures a == b
    decreases |a|
  {
    SameMembersEmpty(a, b);
    if a != [] && b != [] {
      if a[0] != b[0] {
        LessTotal(a[0], b[0]);
        if Less(a[0], b[0]) {
          MinimumOf(b, a[0]);
        } else {
          MinimumOf(a, b[0]);
        }
      }
      assert forall y :: y in a[1..] <==> y in b[1..] by {
        forall y ensures y in a[1..] <==> y in b[1..] {
          TailMembers(a, y);
          TailMembers(b, y);
        }
      }
      SortedTail(a);
      SortedTail(b);
      SortedUnique(a[1..], b[1..]);
      assert a == [a[0]] + a[1..] && b == [b[0]] + b[1..];
    }
  }

  lemma SameMembersEmpty(a: seq<string>, b: seq<string>)
    requires forall y :: y in a <==> y in b
    ensures a != [] ==> b != []
    ensures b != [] ==> a != []
  {
    if a != [] {
      assert a[0] in b;
    }
    if b != [] {
      assert b[0] in a;
    }
  }

  /** No element of a strictly sorted list lies below its head. */
  lemma MinimumOf(s: seq<string>, y: string)
    requires StrictlySorted(s) && s != [] && Less(y, s[0])
    ensures y !in s
  {
    if y in s {
      var k :| 0 <= k < |s| && s[k] == y;
      if k == 0 {
        LessIrreflexive(y);
      } else {
        LessAsymmetric(s[0], y);
      }
    }
  }

  lemma TailMembers(s: seq<string>, y: string)
    requires StrictlySorted(s) && s != []
    ensures y in s[1..] <==> y in s && y != s[0]
  {
    SortedDistinct(s);
    assert s == [s[0]] + s[1..];
  }

  lemma SortedTail(s: seq<string>)
    requires StrictlySorted(s) && s != []
    ensures StrictlySorted(s[1..])
  {
    forall i, j | 0 <= i < j < |s| - 1
      ensures Less(s[1..][i], s[1..][j])
    {
      assert s[1..][i] == s[i + 1] && s[1..][j] == s[j + 1];
    }
  }
}

=== FILE: wrappers.dfy ===
/** Failure-compatible wrappers shared by the whole model. */
module Wrappers {

  /** A value that may be missing: JavaScript `undefined`/`null`, a Python `None`,
      or a map lookup that found nothing. */
  datatype Option<+T> = None | Some(value: T) {

    function GetOr(default: T): (r: T)
      ensures Some? ==> r == value
      ensures None? ==> r == default
    {
      match this
      case Some(v) => v
      case None => default
    }
  }

  /** The outcome of an operation of the source that may raise or reject. */
  datatype Result<+T, +E> = Success(value: T) | Failure(error: E)
}
